=== FILE: README.md ===
# WebMobileRegister: a Dafny model of the sync engine and the REST decision rules

WebMobileRegister is a cattle-register back end (Express + MySQL). Farms,
users, animals (`registro_animal`), weighings (`historico_pesaje`) and
vaccinations (`historico_vacuna`) are kept per owner. A mobile client works
offline and reconciles its outbox through `POST /sync/batch`. It pulls what
changed since a watermark through the three `GET /sync/...` endpoints.

This project models:

- **The offline batch-sync engine.** The store is an immutable value: three
  tables plus their auto-increment counters. The three per-table
  reconcilers, the router and the batch fold are pure functions. So are the
  three pull filters.
- **The authorization middleware.** These are modelled as decisions
  `Proceed | Halt(status)`.
- **The decision logic of every core REST handler.** Each handler becomes a
  pure function from request fields and an abstract store to a new store
  and a reply (`Fail(status, message) | Done(status, value) | Unanswered`).
  This covers the farm, user, auth, register, weighing and vaccine routes,
  and the user and farm models.

## Layout

- `js.dfy` (module `Js`) covers the JavaScript values the handlers read.
  - Values: `undefined`, `null`, booleans, integers, strings, arrays and objects.
  - Truthiness, `x || y`, and property access that throws on null/undefined.
  - `toLowerCase` on ASCII, `startsWith`, `includes`, `split(...)[0]`, and
    `parseInt` with no radix: leading whitespace and line terminators (the
    full ECMAScript set) and a sign are skipped, a `0x` or `0X` prefix
    switches to base 16, and the longest digit run is read.
- `store.dfy` (module `Store`) holds the rows of the three animal tables.
  - MySQL `=` on the values the handlers bind (`SqlEq`). NULL never matches.
    A number matches its decimal string.
  - The catalog fallback used for the breed and vaccine sentinels.
  - The handlers' strict-equality owner test.
  - The generic queries: first match, count, filter, update-where, delete-where.
- `http.dfy` (module `Http`) holds the reply and middleware-decision shapes.
- `directory.dfy`, `user_model.dfy` and `finca_model.dfy` cover users,
  temporary passwords and farms, and the `usuario`/`finca` models.
- The sync engine is split across five files:
  - `sync_engine.dfy`: the reconcilers and the router.
  - `sync_frame.dfy`: what one operation may change.
  - `sync_batch.dfy`: the `/batch` coordinator.
  - `sync_properties.dfy`: multi-operation properties.
  - `sync_pull.dfy`: the pulls.
- `authorization.dfy` covers the middleware.
- The route handlers are in `auth_routes.dfy`, `user_routes.dfy`,
  `finca_routes.dfy`, `register_routes.dfy`, `weighing_routes.dfy` and
  `vaccine_routes.dfy`.

The external libraries are parameters of the functions that call them:

- JWT verification: `verify: Val -> Option<Val>`.
- bcrypt hashing and comparison: `hash`, `compare`.
- Date ordering of stored dates: `dateKey`.

Time works as follows. `NOW()` and `new Date()` are a clock value `now`. The
batch takes `clock: nat -> int`, so operation `i` runs at `clock(i)`.

Behaviours of the code worth noting:

- The sync path checks ownership the same way for every role, admin
  included.
- A sync animal INSERT writes exactly one `registro_animal` row. The birth
  weight stays in its column and the breed id is stored as sent.
- The sync INSERT chip check looks at every row, whatever its owner or
  `estado`.
- A sync animal UPDATE selects its row by chip and owner.
- `/register/add` answers 500 to every request that passes validation and
  writes nothing: its statement refers to identifiers the module never
  declares.
- Behind the token middleware, `/mis-animales` shows an admin every animal
  and any other role an empty list. The token carries no farm, and
  `finca_id = NULL` matches no row.

## Model

| member | source | states |
|---|---|---|
| Js.HexPrefixExample | routes/user.js:259 | `parseInt("0x5")` is 5, as JavaScript reads a `0x` prefix as base 16 |
| Js.BarePrefixExample | routes/user.js:259 | `parseInt("0x")` is NaN: a prefix without digits parses nothing |
| Js.LeadingZeroExample | routes/user.js:259 | `parseInt("05")` is 5: a leading zero does not switch base |
| Js.SignedHexExample | routes/user.js:259 | leading blanks and a sign come before the prefix: `parseInt(" -0X1f")` is -31 |
| Js.TrimSkipsBlanks | routes/user.js:259 | trimming drops any run of leading whitespace or line terminators |
| Js.BlanksIgnored | routes/user.js:259 | leading whitespace does not change what `parseInt` reads |
| SyncEngine.NewAnimalAttrs | routes/sync.js:283-309 | an animal INSERT writes the photo or `'default.jpg'`, binds the four required columns, and stores every falsy optional column as NULL |
| SyncEngine.UpdatedAnimalAttrs | routes/sync.js:337-363 | an animal UPDATE rewrites every mutable column with the same null-defaulting and keeps the photo |
| SyncEngine.AnimalInsert | routes/sync.js:265-318 | a null payload throws. A chip held by any row, whatever its owner, gives a failure carrying that row's id with the store unchanged. Otherwise exactly one row is appended, owned by the caller, under the next id, with `estado = 1` and both stamps `now`; the earlier rows are kept and the result pairs the server id with the local id |
| SyncEngine.AnimalUpdate | routes/sync.js:320-371 | fails with "no encontrado o no pertenece" exactly when the caller owns no row with that chip. Otherwise it reports success with the number of the caller's rows with that chip, and exactly those rows are rewritten and stamped, keeping id, chip, owner and `estado`; no other row changes |
| SyncEngine.AnimalDelete | routes/sync.js:373-386 | a soft delete: only the caller's row with that id gets `estado = 0` and a fresh stamp, and no row is removed. It always reports success with the matched-row count, zero included |
| SyncEngine.NewWeighingAttrs | routes/sync.js:415-431 | a weighing INSERT stores the falsy economic columns as NULL |
| SyncEngine.UpdatedWeighingAttrs | routes/sync.js:443-461 | a weighing UPDATE rewrites weight, date and the four economic columns only |
| SyncEngine.WeighingInsert | routes/sync.js:399-440 | writes nothing and fails unless `registro_animal_id` names an animal the caller owns; otherwise it appends one weighing under that animal |
| SyncEngine.WeighingUpdate | routes/sync.js:442-469 | touches only weighings with that id whose parent the caller owns, and reports success with the count even when it is zero |
| SyncEngine.VaccinationAttrsFrom | routes/sync.js:504-511 | a vaccination write stores a falsy dose or note as NULL |
| SyncEngine.VaccinationInsert | routes/sync.js:482-521 | writes nothing and fails unless the parent animal is the caller's; otherwise it appends one vaccination |
| SyncEngine.VaccinationUpdate | routes/sync.js:523-548 | touches only vaccinations with that id whose parent the caller owns, and reports success with the count |
| SyncEngine.TableOf | routes/sync.js:241-257 | only the three table names are routed |
| SyncEngine.ProcessOperation | routes/sync.js:241-259 | a null operation throws, an unknown table throws "Tabla no soportada", and each of the three tables reaches its own reconciler with the operation's `action`, `data` and `recordId` |
| SyncEngine.FallsThroughExactly | routes/sync.js:263-391 | `undefined` is returned exactly for an action outside INSERT/UPDATE/DELETE on animals, or outside INSERT/UPDATE on the child tables |
| SyncFrame.ParentOwnedMonotone | routes/sync.js:401-404 | a child row whose parent the caller owns stays so as the store grows |
| SyncFrame.ExtendsTransitive | routes/sync.js:196-214 | "grows the store without re-keying" composes across operations |
| SyncFrame.ForeignRowsKeptTransitive | routes/sync.js:196-214 | "leaves other users' rows alone" composes across operations |
| SyncFrame.AnimalInsertSafe | routes/sync.js:265-318 | an animal INSERT keeps the counters and chip uniqueness, removes nothing and creates only caller-owned rows |
| SyncFrame.RewriteSafe | routes/sync.js:337-363 | an in-place rewrite that keeps keys and touches only the caller's rows is a safe step |
| SyncFrame.AnimalUpdateSafe | routes/sync.js:320-371 | an animal UPDATE is a safe step for the caller |
| SyncFrame.AnimalDeleteSafe | routes/sync.js:373-386 | the soft delete is a safe step for the caller |
| SyncFrame.WeighingInsertSafe | routes/sync.js:399-440 | a weighing INSERT is a safe step for the caller |
| SyncFrame.WeighingUpdateSafe | routes/sync.js:442-469 | a weighing UPDATE is a safe step for the caller |
| SyncFrame.VaccinationInsertSafe | routes/sync.js:482-521 | a vaccination INSERT is a safe step for the caller |
| SyncFrame.VaccinationUpdateSafe | routes/sync.js:523-548 | a vaccination UPDATE is a safe step for the caller |
| SyncFrame.StepIsSafe | routes/sync.js:241-259 | any single operation keeps the invariants, re-keys and removes nothing, and changes only the caller's rows |
| SyncBatch.ToSlot | routes/sync.js:197-212 | each operation contributes one slot: its result, `undefined`, or the failure object built from what it threw |
| SyncBatch.RunOps | routes/sync.js:196-212 | the loop yields exactly one slot per operation |
| SyncBatch.RunOpsSlot | routes/sync.js:196-212 | slot `i` is operation `i`'s outcome, run against the store its predecessors left |
| SyncBatch.RunOpsIsSafe | routes/sync.js:196-214 | the whole loop keeps the invariants and the ownership frame |
| SyncBatch.SuccessFailPartition | routes/sync.js:219-220 | successes plus failures count every result |
| SyncBatch.Unwrap | routes/sync.js:216-222 | the results are the slots, in order |
| SyncBatch.Batch | routes/sync.js:177-235 | 401 without a caller id, and 400 without an operation array; both leave the store alone. Otherwise the store is the fold's result, and the 200 reply has one result per operation with consistent counts |
| SyncBatch.BatchResultsInOrder | routes/sync.js:196-214 | result `i` is what operation `i` returned, or the failure built from what it threw, and a throw does not stop later operations |
| SyncBatch.BatchFailsOnlyOnFallThrough | routes/sync.js:214-222 | the reply is 500 exactly when some reconciler returned `undefined`, and the writes are committed anyway |
| SyncBatch.RejectedRequestChangesNothing | routes/sync.js:180-188 | a request refused before the transaction changes nothing |
| SyncBatch.BatchIsSafe | routes/sync.js:177-235 | a batch keeps the counters and chip uniqueness, never removes or re-keys a row, and leaves other users' rows untouched |
| SyncProperties.SecondInsertRejected | routes/sync.js:267-280 | a second INSERT of a chip, by any caller, is rejected with the first row's id and writes nothing |
| SyncProperties.AnimalOperationRouted | routes/sync.js:242-246 | a `registro_animal` operation reaches the animal reconciler with its own fields |
| SyncProperties.BatchOfDefinedSlots | routes/sync.js:216-222 | when every slot is defined, the reply is exactly those results and their counts |
| SyncProperties.SingletonRun | routes/sync.js:196-204 | a one-operation batch runs that operation against the initial store |
| SyncProperties.PairRun | routes/sync.js:196-204 | the second operation of a batch sees the first one's writes |
| SyncProperties.InsertBatchAccepted | routes/sync.js:177-222 | a one-INSERT batch of a fresh chip inserts the row and reports one success, none failed |
| SyncProperties.InsertBatchReplayed | routes/sync.js:267-280 | the same batch sent again is answered with one failure carrying the first id, and writes nothing |
| SyncProperties.ReplayedInsertIsIdempotent | routes/sync.js:267-317 | replaying a batch that inserted an animal inserts nothing, and answers with a failure carrying the first server id |
| SyncProperties.UpdateSeesInsertedRow | routes/sync.js:320-371 | an UPDATE by the chip of a just-inserted animal affects exactly that one row |
| SyncProperties.InsertThenUpdateInOneBatch | routes/sync.js:196-214 | within one batch, an UPDATE sees the row an earlier INSERT created |
| SyncPull.InsertByKey | routes/sync.js:44-48 | ordered insertion keeps the multiset and the ascending order |
| SyncPull.SortByKey | routes/sync.js:44-48 | `ORDER BY updated_at ASC` yields a permutation in ascending order |
| SyncPull.SortKeepsMembers | routes/sync.js:44-48 | sorting keeps exactly the same rows |
| SyncPull.PullAnimals | routes/sync.js:22-71 | 401 without a caller. Otherwise it returns exactly the caller's `estado = 1` animals changed after the watermark, ascending, with their count |
| SyncPull.PullWeighings | routes/sync.js:73-118 | returns exactly the weighings under the caller's animals changed after the watermark, ascending |
| SyncPull.PullVaccinations | routes/sync.js:120-161 | returns exactly the vaccinations under the caller's animals changed after the watermark, ascending |
| SyncPull.WatermarkIsExact | routes/sync.js:36-42 | the `since` filter is strict, and a later watermark returns a subset |
| SyncPull.SoftDeletedNeverPulled | routes/sync.js:31-35 | a soft-deleted animal is never pulled |
| SyncPull.ChildrenOfDeletedAnimalStillPulled | routes/sync.js:82-96 | child pulls ignore the parent's `estado` |
| SyncPull.PullsAreOwnerScoped | routes/sync.js:31-48 | no pull returns another user's row |
| SyncPull.InsertedAnimalIsPulled | routes/sync.js:283-317 | an animal pushed after the watermark is in the next pull |
| Authorization.VerificarRol | middlewares/authorization.js:4-24 | 401 exactly without a principal, 403 exactly for a role not listed, and proceeds otherwise |
| Authorization.RoleGatesNest | middlewares/authorization.js:27-39 | admin-only implies admin-or-user, which implies any-role; a viewer passes only the last |
| Authorization.BloquearViewer | middlewares/authorization.js:96-116 | 401 without a principal, 403 exactly for `'viewer'`, and any other role passes |
| Authorization.BloquearViewerVersusAdminOUser | middlewares/authorization.js:107-121 | on the three known roles it agrees with `adminOUser` (alias `puedeModificar`); an unknown role passes it but not `adminOUser` |
| Authorization.RowsWhere | middlewares/authorization.js:65-68 | the owner lookup returns exactly the rows whose key column equals the resource id |
| Authorization.VerificarPropietario | middlewares/authorization.js:43-93 | throws without a principal and an admin skips the lookup. Otherwise: 400 exactly without a resource id, 404 exactly without a row, 403 exactly on a strict owner mismatch, and proceeds exactly on a match |
| Authorization.OwnerCheckAdmitsOnlyOwners | middlewares/authorization.js:49-85 | a non-admin passes only for an existing row they own, and an admin passes even for a resource that does not exist |
| FincaModel.BuscarPorId | models/finca.js:5-12 | null exactly when no farm has that id; otherwise a farm with it |
| FincaModel.BuscarPorNit | models/finca.js:15-22 | null exactly when no farm has that NIT; otherwise a farm with it |
| FincaModel.ActivaDefault | models/finca.js:87 | an undefined `activa` becomes 1 and any other value is kept |
| FincaModel.Crear | models/finca.js:87-110 | a NIT already on file gives "El NIT ya está registrado" and writes nothing; otherwise one farm is appended and echoed under the new id |
| FincaModel.Columns | models/finca.js:117-141 | the column list of an assignment list keeps its order |
| FincaModel.FarmAssignments | models/finca.js:117-141 | the SET list is exactly the provided columns in the fixed order nombre, nit, direccion, telefono, correo, activa, each with the body's value |
| FincaModel.FarmAssignmentsExact | models/finca.js:117-144 | a column is set iff it is not undefined, and the list is empty iff none is |
| FincaModel.FarmColumnListed | models/finca.js:117-141 | every farm column is among those the builder considers |
| FincaModel.Actualizar | models/finca.js:113-163 | throws "No hay campos" before any lookup; a missing farm is reported with the prefix; a NIT held by another farm gives the duplicate message; otherwise only the farms with that id are rewritten |
| FincaModel.CambiarEstado | models/finca.js:166-181 | fails with the prefixed message exactly when the farm is missing; otherwise only `activa` of that farm changes |
| FincaModel.Eliminar | models/finca.js:184-201 | missing gives the prefixed message and referenced gives the "usuarios o animales asociados" message, both without writes; otherwise exactly that farm is removed |
| FincaModel.Existe | models/finca.js:204-211 | true exactly when the lookup finds the farm |
| UserModel.BuscarPorCorreo | models/user.js:5-12 | null exactly when no user has that e-mail |
| UserModel.BuscarPorId | models/user.js:15-30 | null exactly when no user has that id |
| UserModel.Crear | models/user.js:54-66 | a known e-mail gives "El correo electrónico ya está registrado" and writes nothing; otherwise it appends one row and returns it without the password |
| UserModel.UserAssignments | models/user.js:73-88 | e-mail, password and role are set iff truthy, and `finca_id` iff not undefined (null included), each with the body's value |
| UserModel.Actualizar | models/user.js:69-108 | no fields gives "No hay campos para actualizar"; an unknown user gives the prefixed "Usuario no encontrado"; an e-mail another account holds trips the unique index and gives a prefixed error; it succeeds exactly otherwise, and then only that user's listed columns change |
| UserModel.AssignKeepsUnlisted | models/user.js:73-96 | an update keeps the id and every column it does not list |
| UserModel.AssignSetsColumn | models/user.js:73-96 | an update that lists a column stores the listed value in it |
| UserModel.UpdatedEmail | models/user.js:73-76 | after an update the row holds the e-mail sent when it is truthy, and its old e-mail otherwise |
| UserModel.Existe | models/user.js:145-152 | true exactly when a row with that id exists |
| AuthRoutes.BearerToken | routes/auth.js:42-53 | `'Bearer '` is stripped only as a prefix; otherwise the whole header is the token |
| AuthRoutes.BearerTokenRoundTrip | routes/auth.js:42-53 | prefixing a token with the scheme and parsing it gives back the token |
| AuthRoutes.PrincipalOf | routes/auth.js:63-67 | the principal carries exactly `id`, `correo` and `rol` |
| AuthRoutes.VerificarToken | routes/auth.js:39-76 | 403 without a header; 401 when verification fails or yields nothing; otherwise the principal built from the claims |
| AuthRoutes.PrincipalHasNoFarm | routes/auth.js:63-67 | an authenticated principal never has a `finca_id` |
| AuthRoutes.SchemeIsOptional | routes/auth.js:42-53 | a header with and without the `Bearer ` scheme authenticates alike |
| AuthRoutes.RegistroUser | routes/auth.js:81-123 | 400 exactly when a field is missing or the role is not one of the three (case-insensitive), 409 exactly for a known e-mail, and 500 exactly when a new e-mail comes with a password bcrypt cannot hash (not a string). The request succeeds exactly when all fields are present, the role is allowed, the e-mail is new and the password is a string; then one user is stored with the hashed password and the lower-cased role, and nothing else changes |
| AuthRoutes.RegisteredRoleIsCanonical | routes/auth.js:88-109 | a registered role is always one of admin, user, viewer |
| AuthRoutes.Login | routes/auth.js:128-170 | 400 exactly for missing fields, 404 exactly for an unknown e-mail, 500 exactly when the password or the stored hash is not a string bcrypt can compare, and 401 exactly for a wrong password. It succeeds exactly when both are strings and the stored user's hash accepts the password, and answers with that user |
| AuthRoutes.LoginFailuresLookAlike | routes/auth.js:140-150 | an unknown e-mail (404) and a wrong password (401) carry the same message |
| AuthRoutes.RegisterThenLogin | routes/auth.js:81-170 | with a hash that turns a string into a string the comparison accepts, a user just registered can log in with the same body and gets the new id |
| AuthRoutes.Refresh | routes/auth.js:175-223 | 403 exactly without a token or with `tipo` other than `refresh`, 401 exactly for an invalid token, and 404 exactly when the token's e-mail has no account. It succeeds exactly when a valid refresh token names a stored account, and answers with that current row |
| AuthRoutes.RefreshReadsCurrentRole | routes/auth.js:195-202 | the refreshed identity is the stored row for the token's e-mail |
| AuthRoutes.MisAnimales | routes/auth.js:238-294 | an admin without a farm sees everything; a principal without a farm is filtered by NULL |
| AuthRoutes.MisAnimalesBehindToken | routes/auth.js:239-269 | behind the token middleware an admin gets all animals and anyone else gets none |
| UserRoutes.NormalizarRol | routes/user.js:13-24 | each alias maps case-insensitively to its canonical role, and anything else maps to none |
| UserRoutes.CanonicalRolesAreLowerCase | routes/user.js:14-21 | the canonical names are already lower case |
| UserRoutes.NormalizarRolIdempotent | routes/user.js:14-21 | normalising a canonical role returns it unchanged |
| UserRoutes.NormalizarRolIgnoresCase | routes/user.js:13-24 | normalisation does not depend on letter case |
| UserRoutes.RotateTemps | routes/user.js:204-216 | deactivates every temporary password of the user and appends one active one; other users' rows are untouched |
| UserRoutes.RotationLeavesOneActive | routes/user.js:204-216 | after a rotation exactly one temporary password of the user is active |
| UserRoutes.UpdateData | routes/user.js:198-202 | the update carries the e-mail if truthy, the hashed password, the normalised role, and `finca_id` whenever it is defined |
| UserRoutes.UpdateUser | routes/user.js:151-249 | 404 exactly for an unknown user or a missing farm, 400 exactly for an unknown role, and 500 exactly for a non-string role, a truthy password bcrypt cannot hash (not a string), an empty SET list, or an e-mail another account holds; every error leaves the store unchanged. It succeeds exactly when none of these applies; then the users table keeps its length, only that user's row is rewritten with the listed columns, and the temporary passwords rotate exactly when a password was given |
| UserRoutes.PasswordChangeLeavesOneActive | routes/user.js:204-216 | a successful password change leaves exactly one active temporary password |
| UserRoutes.UpdateStoresCanonicalRole | routes/user.js:179-202 | after a successful role change, reading the user back gives the canonical role name |
| UserRoutes.UpdateKeepsEmailsUnique | routes/user.js:219 | with unique ids and e-mails before it, an update leaves no two accounts with the same e-mail |
| UserRoutes.NullFarmIsRefused | routes/user.js:167-177 | `finca_id: null` is checked as a farm id and refused with 404 |
| UserRoutes.DeleteUser | routes/user.js:254-280 | 400 for the caller's own id compared after `parseInt`, and 404 for an unknown user; otherwise exactly the rows with that id are removed, nothing else in the store changes, and the reply carries `parseInt(id)` |
| UserRoutes.DeletedIdReported | routes/user.js:265-275 | for a route id, the reported `idEliminado` is the id of the account that was found and removed |
| UserRoutes.NoSelfDelete | routes/user.js:259-263 | the caller's id, given as a number or as its decimal string, is always refused |
| UserRoutes.SameParsedIdRefused | routes/user.js:259-263 | any two spellings of the route id and the caller's id that `parseInt` reads as the same number are refused with 400, and nothing is removed |
| UserRoutes.HexSelfDelete | routes/user.js:259-263 | `"0x5"` parses to 5, so admin 5 deleting `"0x5"` is refused as a self-delete |
| UserRoutes.BlankPrefixedSelfDelete | routes/user.js:259-263 | blanks before the caller's own decimal id (a vertical tab or a no-break space included) do not get past the self-delete check |
| FincaRoutes.CreateFarm | routes/fincas.js:74-117 | 400 iff `nombre` or `nit` is missing, and 409 iff the NIT exists. Otherwise exactly one farm is appended under the next id, holding the sent name and NIT, NULL for falsy optional fields, and `activa` defaulting to 1; the reply echoes that row, and nothing else in the store changes |
| FincaRoutes.CreateKeepsNitsUnique | routes/fincas.js:86-102 | creation keeps NITs unique |
| FincaRoutes.UpdateFarm | routes/fincas.js:122-176 | 404 exactly for a missing farm. For a found farm: 409 exactly when the body's NIT is truthy, differs from the farm's own, and is held by a farm whose id differs from `parseInt(id)`, else 400 exactly with no fields, else 409 exactly on the model's NIT clash, and success in every other case; success rewrites only that farm and answers with its new row |
| FincaRoutes.UpdateNitConflictsAre409 | routes/fincas.js:128-176 | a NIT conflict surfaces as 409 and writes nothing |
| FincaRoutes.SetFarmState | routes/fincas.js:181-213 | `activa` is required; the farm becomes active only for `true`, `1` or `'1'`, and any other value deactivates it |
| FincaRoutes.SetStateThenRead | routes/fincas.js:181-213 | after a state change, reading the farm back gives the old row with only `activa` set to the reported state |
| FincaRoutes.DeleteFarm | routes/fincas.js:218-259 | 404 exactly for a missing farm, and 400 exactly when users or animals are attached. It succeeds exactly when the farm exists and nothing references it; then exactly the farms with that id are removed, nothing else changes, and the found farm's id is returned |
| FincaRoutes.DeletedFarmIdIsParsed | routes/fincas.js:243-249 | for a route id, the returned id is `parseInt(id)` |
| FincaRoutes.ReferencedFarmIsRefused | routes/fincas.js:222-239 | a farm with users or animals is never deleted |
| RegisterRoutes.AddAnimal | routes/register.js:28-128 | in order: 400 without a principal id, without a photo, without the required fields, or for a known chip. Past validation it is always 500, and it never answers 201 |
| RegisterRoutes.DiseasesValue | routes/register.js:243-257 | an array of diseases is comma-joined, and a falsy value is NULL |
| RegisterRoutes.DiseasesJoined | routes/register.js:243-257 | joining string parts gives the comma-joined text |
| RegisterRoutes.BirthDateValue | routes/register.js:195-197 | the birth date is cut at the first `T` |
| RegisterRoutes.BirthDateDropsTime | routes/register.js:195-197 | an ISO date-time keeps exactly its date part |
| RegisterRoutes.Rewritten | routes/register.js:211-270 | the SET list writes the chip, birth weight and breed as sent (undefined as NULL), the birth date cut at `T`, the diseases joined, NULL for the falsy optional ones, and the photo only with an upload; id, owner, state, farm, the other columns and both timestamps are kept |
| RegisterRoutes.UpdateAnimal | routes/register.js:174-302 | 500 exactly for an unknown breed or a non-string date; 404 exactly when no row has the original chip; otherwise exactly those rows are rewritten |
| RegisterRoutes.UpdateAnimalTwice | routes/register.js:174-302 | the same update sent twice with the chip kept succeeds again and leaves the store as the first left it |
| RegisterRoutes.UpdateRefusesUnknownBreed | routes/register.js:200-208 | an unknown breed is never coerced on update: the request fails with 500 and writes nothing |
| WeighingRoutes.NormalizeKind | routes/weighing.js:49-51 | a kind outside {compra, venta, seguimiento, nacimiento} becomes `seguimiento` |
| WeighingRoutes.NormalizeKindIdempotent | routes/weighing.js:49-51 | normalising twice is normalising once |
| WeighingRoutes.AddedAttrs | routes/weighing.js:53-84 | the date and weight are stored as sent, the kind is normalised, and every falsy price, cost, gain and `tiempo_meses` field is NULL |
| WeighingRoutes.ZeroCostStoredAsNull | routes/weighing.js:74-82 | a cost of 0 is stored as NULL |
| WeighingRoutes.AddWeighing | routes/weighing.js:7-92 | 400 without chip, date and weight, 404 for an unknown chip, and 403 for a non-admin non-owner. It succeeds exactly when the fields are present, the chip is known and the caller may touch the animal; then one weighing is appended under the animal |
| WeighingRoutes.LatestBy | routes/weighing.js:100-119 | picks an element with the greatest date |
| WeighingRoutes.EarliestBy | routes/weighing.js:121-141 | picks an element with the least date |
| WeighingRoutes.PurchaseRecord | routes/weighing.js:94-153 | no reply exactly without a principal, whose fields are read before the `try`. Otherwise the latest `compra` row by date if there is one, else the earliest row with a purchase cost, and 404 exactly when neither exists; a non-admin sees only their own animals |
| WeighingRoutes.PurchaseRecordQualifies | routes/weighing.js:100-145 | the record returned has the chip and qualifies; a fallback is returned only when no `compra` row is visible |
| WeighingRoutes.PurchaseRecordIsOwnerScoped | routes/weighing.js:100-145 | a non-admin's record belongs to an animal they own |
| WeighingRoutes.ReportedKind | routes/weighing.js:242-246 | the kind is `nacimiento` when the stored kind and both costs are NULL, and the stored kind otherwise |
| WeighingRoutes.NewestFirst | routes/weighing.js:272-275 | the report keeps exactly the visible rows, ordered by date, newest first |
| WeighingRoutes.Report | routes/weighing.js:242-246 | one line per row, in order, each with its reported kind |
| WeighingRoutes.HistoricoPesaje | routes/weighing.js:223-306 | no reply exactly without a principal. Otherwise the visible weighings with their reported kinds, newest first, and 404 exactly when there are none |
| WeighingRoutes.AddedWeighingReportsStoredKind | routes/weighing.js:49-51 | a weighing added through `/add` is reported with its stored, normalised kind |
| WeighingRoutes.EditedAttrs | routes/weighing.js:391-417 | an edit stores the kind as given or NULL, without normalisation |
| WeighingRoutes.EditKeepsUnknownKind | routes/weighing.js:411 | an unknown kind survives an edit, where `/add` would have normalised it |
| WeighingRoutes.EditWeighing | routes/weighing.js:350-429 | 400 without date and weight, 404 for a missing id, and 403 for a non-admin non-owner. It succeeds exactly when none of these applies; then exactly the rows with that id change |
| WeighingRoutes.EditWeighingTwice | routes/weighing.js:350-429 | the same edit sent twice succeeds again and leaves the store as the first left it |
| WeighingRoutes.EditWeighingsByChip | routes/weighing.js:431-516 | the same checks by chip, and 404 when the animal has no weighings. It succeeds exactly when the checks pass and there is at least one weighing; then exactly that chip's weighings change |
| WeighingRoutes.EditWeighingsByChipTwice | routes/weighing.js:431-516 | the same edit by chip sent twice succeeds again and leaves the store as the first left it |
| WeighingRoutes.DeleteWeighingsByChip | routes/weighing.js:155-193 | 404 for an unknown animal, 403 for a non-owner, and 404 when it has no weighings. It succeeds exactly when none of these applies; then all of its weighings are removed |
| WeighingRoutes.DeleteByChipThenAgain | routes/weighing.js:166-185 | deleting a chip's weighings twice gives 404 the second time |
| Store.CatalogOr | routes/vaccines.js:44-58 | a catalog id is kept, and anything else becomes the sentinel |
| Store.CatalogOrInCatalog | routes/register.js:85-93 | with the sentinel in the catalog, the result is always a catalog id |
| Store.RouteIdParses | routes/user.js:265-274 | a string id that selects a row by `id = ?` is read back by `parseInt` as that row's id |
| Store.IdIsDeterminesId | models/user.js:94-95 | one bound key selects rows of one id only |
| VaccineRoutes.AddVaccination | routes/vaccines.js:7-85 | a nullish body gets no reply. Then, in order: 400 without date, chip and dose; 404 for an unknown chip; 500 without a principal; 403 for a non-admin non-owner; 400 for a string dose without a space. It succeeds exactly when none of these applies; then one row with sentinel-coerced catalog ids is appended |
| VaccineRoutes.AddedVaccinationUsesCatalogIds | routes/vaccines.js:44-58 | with sentinels 23 and 11 in their catalogs, an added vaccination names existing catalog entries |
| VaccineRoutes.DoseExamples | routes/vaccines.js:60-64 | `"3 ml"` passes, `"3ml"` is refused, and a numeric dose is not checked |
| VaccineRoutes.DeleteVaccinations | routes/vaccines.js:87-127 | 404 for an unknown animal, 403 for a non-owner, and 404 when none were removed. It succeeds exactly when the animal exists, the caller may touch it and it has a vaccination; then every vaccination of the animal is removed and nothing else |
| VaccineRoutes.DeleteVaccinationsThenAgain | routes/vaccines.js:87-127 | deleting an animal's vaccinations twice gives 404 the second time and writes nothing |
| VaccineRoutes.EditGate | routes/vaccines.js:259-275 | 404 when no vaccination with that id joins an animal; 403 when the joined owner is not the caller and the caller is not admin |
| VaccineRoutes.PartialFields | routes/vaccines.js:277-303 | the SET list is the included columns in declaration order |
| VaccineRoutes.PartialFieldsExact | routes/vaccines.js:277-303 | a column is included iff truthy, except `observaciones`, which is included iff not undefined |
| VaccineRoutes.NullObservationIsWritten | routes/vaccines.js:292-299 | `observaciones: null` is written while an empty dose is skipped |
| VaccineRoutes.EditVaccination | routes/vaccines.js:245-324 | 404 and 403 from the lookup, then 400 with no included field. It succeeds exactly when the lookup passes and some field is included; then only the rows with that id change, in the included columns |
| VaccineRoutes.ApplyFieldsReads | routes/vaccines.js:277-303 | after a partial update a column reads the body's value if it was included, and its old value otherwise |
| VaccineRoutes.ApplyFieldsIdempotent | routes/vaccines.js:277-303 | applying the same partial update twice gives the row the first one gave |
| VaccineRoutes.EditGateSeesLinksOnly | routes/vaccines.js:259-275 | the lookup depends only on each vaccination's id and animal link, so rewriting other columns does not change it |
| VaccineRoutes.EditVaccinationTwice | routes/vaccines.js:245-324 | the same partial edit sent twice succeeds again and leaves the store as the first left it |
| VaccineRoutes.ReplaceVaccination | routes/vaccines.js:326-382 | after the same 404 and 403 checks, every row with that id is rewritten |
| VaccineRoutes.ReplaceWritesAllColumns | routes/vaccines.js:358-376 | the full update writes all five columns, NULL where the body has none |

## Left out

- JWT signing and verification, bcrypt hashing and comparison, multer storage and `fs` are opaque oracles passed as parameters. Token expiry and signing are not modelled.
- SQL text, view definitions, and the statistics queries behind `obtenerTodas` and `obtenerEstadisticas`, are not modelled. MySQL coercions beyond number versus decimal string and boolean versus 1/0 (e.g. `'05' = 5`) are not modelled either.
- Transactions, connection handling, rollback and concurrency between requests are out of scope. Each handler is one atomic step.
- Weights, prices and gains are integers. Floating point and NaN are not modelled.
- Read-only listings are not modelled: `/perfil`, `/protegida`, the `GET` lists of users, farms, weighings, animals and vaccines, and the breed and catalog lists. They have no decision logic beyond the owner scoping already modelled.
- The second `GET /` in routes/user.js is shadowed by the first and cannot be reached.
- MySQL `affectedRows` is modelled as the number of matched rows. `changedRows` in the register update reply is not modelled.
- A JOIN's row multiplicity under duplicated chips or ids is not modelled. The handlers' lookups take the first matching row.
- `normalizarRol`'s lookup through inherited object keys (e.g. `"constructor"`) is not modelled.
- The legacy `Routes/` handlers, app.js, db.js and the password script are not part of this model.
- `registroUser` reads the role's `toLowerCase` outside its `try`. A truthy non-string role therefore ends in an unhandled rejection, modelled as `Unanswered`.
- Store.SqlEq: string comparison is exact. MySQL's default collations compare case-insensitively and ignore trailing spaces, so `WHERE correo = ?`, `nit = ?` and `chip_animal = ?` match more rows in MySQL than in the model (an e-mail differing only in case is a duplicate there and fresh here).
- WeighingRoutes.AddWeighing: the INSERT names neither `createdAt` nor `updatedAt`. The model stamps both with the request time, taking that as the columns' default.
- VaccineRoutes.AddVaccination: the INSERT names neither `createdAt` nor `updatedAt`. The model stamps both with the request time, taking that as the columns' default.
- RegisterRoutes.Rewritten: keeps `updatedAt`, assuming no `ON UPDATE CURRENT_TIMESTAMP` on the column. With one, REST edits would show up in the sync pulls.
- WeighingRoutes.EditedAttrs: keeps `updatedAt`, under the same assumption as RegisterRoutes.Rewritten.
- VaccineRoutes.ApplyFields: keeps `updatedAt`, under the same assumption as RegisterRoutes.Rewritten.
- VaccineRoutes.ReplaceVaccination: keeps `updatedAt`, under the same assumption as RegisterRoutes.Rewritten.
- SyncEngine.NewWeighingAttrs: the sync INSERT does not name `tipo_seguimiento` or the gain columns. The model stores NULL in them, taking that as their default.
- UserModel.Actualizar: the driver's duplicate-entry text is abbreviated to a fixed message. The route answers 500 whatever the text.
- FincaRoutes.DeleteFarm: the reply carries the removed id but not the farm's name.
- UserModel.UserAssignments: states which columns the SET list holds and their values, not their order. The order does not change the stored row.
- SyncPull.PullAnimals: the pull's `since` is taken already on the store's clock scale. Parsing the ISO timestamp is not modelled.
- WeighingRoutes.HistoricoPesaje: the date order of stored dates is the `dateKey` parameter, not a parsed calendar date.
- SyncEngine.AnimalInsert: the INSERT statement names neither `estado` nor `finca_id`. The model writes `estado = 1` and a NULL farm, taking these as the table's column defaults; the schema is not part of this model. SyncPull.InsertedAnimalIsPulled relies on that default.
- SyncPull.PullAnimals: the `nombre_raza` column joined from `razas` is not part of the pulled rows. The breed catalog holds ids only.
- AuthRoutes.RegistroUser: database failures are not modelled. Its 500 reply comes from a password bcrypt cannot hash; the e-mail is checked before `crear`, so the model's `crear` never fails there.
- FincaRoutes.SetFarmState: the reply carries the new flag but not `id: parseInt(id)` or the farm's `nombre`.

=== FILE: auth_routes.dfy ===
/**
 * The authentication routes: the token middleware, self-service
 * registration, login, token refresh, and the "my animals" listing.
 *
 * JWT signing and verification and bcrypt hashing and comparison are
 * oracles passed in as functions: `verify(token)` is the claims object of a
 * valid token and `None` when `jwt.verify` throws; `hash(p)` is the bcrypt
 * hash of `p`; `compare(p, h)` says whether `p` matches the hash `h`.
 */
module AuthRoutes {
  import opened Js
  import opened Store
  import opened Http
  import opened Directory
  import opened UserModel

  // ---------------------------------------------------------------------------
  // verificarToken

  const BearerPrefix := "Bearer "

  /** The token inside an `Authorization` header: `Bearer ` is stripped only as a prefix. */
  function BearerToken(header: string): (t: string)
    ensures StartsWith(header, BearerPrefix) ==> header == BearerPrefix + t
    ensures !StartsWith(header, BearerPrefix) ==> t == header
  {
    if StartsWith(header, BearerPrefix) then header[|BearerPrefix|..] else header
  }

  /** Stripping the scheme recovers the token it was prefixed to, whatever the token is. */
  lemma {:induction false} BearerTokenRoundTrip(t: string)
    ensures BearerToken(BearerPrefix + t) == t
  {
    var h := BearerPrefix + t;
    assert h[..|BearerPrefix|] == BearerPrefix;
    assert h[|BearerPrefix|..] == t;
  }

  /** What the middleware decides: attach a principal and call `next()`, or answer with a status. */
  datatype TokenCheck = Passed(principal: Val) | Stopped(status: int)

  /** The principal built from verified claims: only `id`, `correo` and `rol` are copied. */
  function PrincipalOf(claims: Val): (p: Val)
    requires !IsNullish(claims)
    ensures p.Obj? && p.props.Keys == {"id", "correo", "rol"}
    ensures Member(p, "id") == Member(claims, "id")
    ensures Member(p, "correo") == Member(claims, "correo")
    ensures Member(p, "rol") == Member(claims, "rol")
  {
    Obj(map["id" := Member(claims, "id"), "correo" := Member(claims, "correo"), "rol" := Member(claims, "rol")])
  }

  /**
   * `verificarToken`: 403 without a (truthy) header; inside the `try`, a
   * header that is not a string has no `startsWith` and is answered 401 like
   * a token that fails verification.
   */
  function VerificarToken(header: Val, verify: Val -> Option<Val>): (c: TokenCheck)
    ensures c == Stopped(403) <==> !Truthy(header)
    ensures c == Stopped(401) <==>
      Truthy(header) && (!header.Str? || verify(Str(BearerToken(header.s))).None?
                         || IsNullish(verify(Str(BearerToken(header.s))).value))
    ensures c.Passed? ==>
      && header.Str?
      && c.principal == PrincipalOf(verify(Str(BearerToken(header.s))).value)
  {
    if !Truthy(header) then Stopped(403)
    else if !header.Str? then Stopped(401)
    else
      match verify(Str(BearerToken(header.s)))
      case None => Stopped(401)
      case Some(claims) => if IsNullish(claims) then Stopped(401) else Passed(PrincipalOf(claims))
  }

  /**
   * The principal never carries a farm: whatever the token held, the
   * attached object has no `finca_id`, so every handler reads `undefined` there.
   */
  lemma PrincipalHasNoFarm(header: Val, verify: Val -> Option<Val>)
    requires VerificarToken(header, verify).Passed?
    ensures Member(VerificarToken(header, verify).principal, "finca_id") == Undef
    ensures Truthy(VerificarToken(header, verify).principal)
  {
    var p := VerificarToken(header, verify).principal;
    assert "finca_id" !in p.props.Keys;
  }

  /** A header with and without the scheme carries the same token, so both are treated alike. */
  lemma SchemeIsOptional(t: string, verify: Val -> Option<Val>)
    requires !StartsWith(t, BearerPrefix) && |t| > 0
    ensures VerificarToken(Str(BearerPrefix + t), verify) == VerificarToken(Str(t), verify)
  {
    BearerTokenRoundTrip(t);
  }

  // ---------------------------------------------------------------------------
  // registroUser

  const MissingFields := "Todos los campos son obligatorios"
  const InvalidRole := "Rol inválido"
  const EmailTaken := "El correo ya está registrado"
  const RegisterFailed := "Error del servidor al crear el usuario"
  const RolesAllowed: seq<string> := ["admin", "user", "viewer"]

  /**
   * `POST /registroUser`. A null body, or a truthy role that is not a
   * string, throws outside the `try`: the request is left unanswered. A
   * password bcrypt cannot hash rejects inside the `try`: 500, nothing stored.
   */
  function RegistroUser(d: Dir, body: Val, hash: Val -> Val): (r: (Dir, Reply<CreatedUser>))
    ensures !r.1.Done? ==> r.0 == d
    ensures IsNullish(body) ==> r.1 == Unanswered
    ensures !IsNullish(body) ==>
      var correo, pass, rol := Member(body, "correo"), Member(body, "contraseña"), Member(body, "rol");
      && (r.1 == Fail(400, MissingFields) <==> !Truthy(correo) || !Truthy(pass) || !Truthy(rol))
      && (r.1 == Unanswered <==> Truthy(correo) && Truthy(pass) && Truthy(rol) && !rol.Str?)
      && (r.1 == Fail(400, InvalidRole) <==>
            Truthy(correo) && Truthy(pass) && rol.Str? && |rol.s| > 0 && ToLower(rol.s) !in RolesAllowed)
      && (r.1 == Fail(409, EmailTaken) <==>
            Truthy(correo) && Truthy(pass) && rol.Str? && ToLower(rol.s) in RolesAllowed
            && BuscarPorCorreo(d, correo).Some?)
      && (r.1 == Fail(500, RegisterFailed) <==>
            Truthy(correo) && Truthy(pass) && rol.Str? && ToLower(rol.s) in RolesAllowed
            && BuscarPorCorreo(d, correo).None? && !BcryptAccepts(pass))
      && (r.1.Done? <==>
            Truthy(correo) && Truthy(pass) && rol.Str? && ToLower(rol.s) in RolesAllowed
            && BuscarPorCorreo(d, correo).None? && BcryptAccepts(pass))
    ensures r.1.Done? ==>
      var correo, rol := Member(body, "correo"), Member(body, "rol");
      && r.1.status == 201
      && BuscarPorCorreo(d, correo).None?
      && r.1.value == CreatedUser(d.nextUserId, correo, Str(ToLower(rol.s)), Undef)
      && r.0.users == d.users + [UserRow(d.nextUserId, correo, Bound(hash(Member(body, "contraseña"))),
                                         Str(ToLower(rol.s)), Null)]
  {
    if IsNullish(body) then (d, Unanswered)
    else
      var correo, pass, rol := Member(body, "correo"), Member(body, "contraseña"), Member(body, "rol");
      if !Truthy(correo) || !Truthy(pass) || !Truthy(rol) then (d, Fail(400, MissingFields))
      else if !rol.Str? then (d, Unanswered)
      else if ToLower(rol.s) !in RolesAllowed then (d, Fail(400, InvalidRole))
      else if BuscarPorCorreo(d, correo).Some? then (d, Fail(409, EmailTaken))
      else if !BcryptAccepts(pass) then (d, Fail(500, RegisterFailed))
      else
        var (d', res) := Crear(d, correo, hash(pass), Str(ToLower(rol.s)), Undef);
        match res
        case Ok(u) => (d', Done(201, u))
        case Err(_) => (d, Fail(500, RegisterFailed))
  }

  /** A registered account's role is one of the three canonical lower-case names, whatever case was sent. */
  lemma RegisteredRoleIsCanonical(d: Dir, body: Val, hash: Val -> Val)
    requires RegistroUser(d, body, hash).1.Done?
    ensures RegistroUser(d, body, hash).1.value.rol.Str?
    ensures RegistroUser(d, body, hash).1.value.rol.s in RolesAllowed
  {
  }

  // ---------------------------------------------------------------------------
  // login

  const LoginFieldsRequired := "Correo y contraseña son obligatorios"
  const BadCredentials := "Credenciales incorrectas"
  const LoginFailed := "Error del servidor"

  /**
   * `POST /login`: the reply value is the account the tokens are signed for.
   * A password or stored hash bcrypt cannot compare rejects inside the `try`: 500.
   */
  function Login(d: Dir, body: Val, compare: (Val, Val) -> bool): (r: Reply<UserRow>)
    ensures IsNullish(body) ==> r == Unanswered
    ensures !IsNullish(body) ==>
      var correo, pass := Member(body, "correo"), Member(body, "contraseña");
      && (r == Fail(400, LoginFieldsRequired) <==> !Truthy(correo) || !Truthy(pass))
      && (r == Fail(404, BadCredentials) <==> Truthy(correo) && Truthy(pass) && BuscarPorCorreo(d, correo).None?)
      && (r == Fail(500, LoginFailed) <==>
            Truthy(correo) && Truthy(pass) && BuscarPorCorreo(d, correo).Some?
            && !(BcryptAccepts(pass) && BcryptAccepts(BuscarPorCorreo(d, correo).value.password)))
      && (r == Fail(401, BadCredentials) <==>
            Truthy(correo) && Truthy(pass) && BuscarPorCorreo(d, correo).Some?
            && BcryptAccepts(pass) && BcryptAccepts(BuscarPorCorreo(d, correo).value.password)
            && !compare(pass, BuscarPorCorreo(d, correo).value.password))
      && (r.Done? <==>
            Truthy(correo) && Truthy(pass) && BuscarPorCorreo(d, correo).Some?
            && BcryptAccepts(pass) && BcryptAccepts(BuscarPorCorreo(d, correo).value.password)
            && compare(pass, BuscarPorCorreo(d, correo).value.password))
      && (r.Done? ==>
            && r.status == 200 && r.value == BuscarPorCorreo(d, correo).value
            && compare(pass, r.value.password))
  {
    if IsNullish(body) then Unanswered
    else
      var correo, pass := Member(body, "correo"), Member(body, "contraseña");
      if !Truthy(correo) || !Truthy(pass) then Fail(400, LoginFieldsRequired)
      else
        match BuscarPorCorreo(d, correo)
        case None => Fail(404, BadCredentials)
        case Some(u) =>
          if !BcryptAccepts(pass) || !BcryptAccepts(u.password) then Fail(500, LoginFailed)
          else if !compare(pass, u.password) then Fail(401, BadCredentials)
          else Done(200, u)
  }

  /** An unknown e-mail and a wrong password are told apart only by status, never by message. */
  lemma LoginFailuresLookAlike(d: Dir, body: Val, compare: (Val, Val) -> bool)
    requires Login(d, body, compare).Fail? && Login(d, body, compare).status in {401, 404}
    ensures Login(d, body, compare).message == BadCredentials
  {
  }

  /**
   * Register then log in: with a hash that, like bcrypt's, turns a string
   * into a string the comparison accepts, the account a successful
   * registration creates can log in with the same e-mail and password, and
   * login answers with exactly that account.
   */
  lemma {:induction false} RegisterThenLogin(d: Dir, body: Val, hash: Val -> Val, compare: (Val, Val) -> bool)
    requires forall p :: BcryptAccepts(p) ==> BcryptAccepts(hash(p)) && compare(p, hash(p))
    requires RegistroUser(d, body, hash).1.Done?
    ensures var d' := RegistroUser(d, body, hash).0;
      && Login(d', body, compare).Done?
      && Login(d', body, compare).value.id == d.nextUserId
  {
    var correo, pass := Member(body, "correo"), Member(body, "contraseña");
    var d' := RegistroUser(d, body, hash).0;
    var row := UserRow(d.nextUserId, correo, Bound(hash(pass)), Str(ToLower(Member(body, "rol").s)), Null);
    assert d'.users == d.users + [row];
    assert BuscarPorCorreo(d, correo).None?;
    var p := (u: UserRow) => SqlEq(u.correo, correo);
    FindFirstAppend(d.users, row, p);
    assert BuscarPorCorreo(d', correo) == Some(row);
    assert BcryptAccepts(pass);
    assert BcryptAccepts(row.password) && compare(pass, row.password);
  }

  // ---------------------------------------------------------------------------
  // refresh

  const RefreshMissing := "Refresh token no proporcionado"
  const NotRefreshToken := "Token inválido"
  const RefreshInvalid := "Refresh token inválido o expirado"
  const UserGone := "Usuario no encontrado"

  /** `POST /refresh`: the account is looked up again so a changed role is picked up. */
  function Refresh(d: Dir, body: Val, verify: Val -> Option<Val>): (r: Reply<UserRow>)
    ensures IsNullish(body) ==> r == Unanswered
    ensures !IsNullish(body) ==>
      var token := Member(body, "refreshToken");
      && (r == Fail(403, RefreshMissing) <==> !Truthy(token))
      && (r == Fail(401, RefreshInvalid) <==>
            Truthy(token) && (verify(token).None? || IsNullish(verify(token).value)))
      && (r == Fail(403, NotRefreshToken) <==>
            Truthy(token) && verify(token).Some? && !IsNullish(verify(token).value)
            && Member(verify(token).value, "tipo") != Str("refresh"))
      && (r == Fail(404, UserGone) <==>
            Truthy(token) && verify(token).Some? && !IsNullish(verify(token).value)
            && Member(verify(token).value, "tipo") == Str("refresh")
            && BuscarPorCorreo(d, Member(verify(token).value, "correo")).None?)
      && (r.Done? <==>
            Truthy(token) && verify(token).Some? && !IsNullish(verify(token).value)
            && Member(verify(token).value, "tipo") == Str("refresh")
            && BuscarPorCorreo(d, Member(verify(token).value, "correo")).Some?)
      && (r.Done? ==>
            && r.status == 200
            && Member(verify(token).value, "tipo") == Str("refresh")
            && BuscarPorCorreo(d, Member(verify(token).value, "correo")) == Some(r.value))
  {
    if IsNullish(body) then Unanswered
    else
      var token := Member(body, "refreshToken");
      if !Truthy(token) then Fail(403, RefreshMissing)
      else
        match verify(token)
        case None => Fail(401, RefreshInvalid)
        case Some(claims) =>
          if IsNullish(claims) then Fail(401, RefreshInvalid)
          else if Member(claims, "tipo") != Str("refresh") then Fail(403, NotRefreshToken)
          else
            match BuscarPorCorreo(d, Member(claims, "correo"))
            case None => Fail(404, UserGone)
            case Some(u) => Done(200, u)
  }

  /** Refresh answers with the stored account, so a role changed since login is what the new tokens carry. */
  lemma RefreshReadsCurrentRole(d: Dir, body: Val, verify: Val -> Option<Val>)
    requires Refresh(d, body, verify).Done?
    ensures Refresh(d, body, verify).value in d.users
    ensures SqlEq(Refresh(d, body, verify).value.correo, Member(verify(Member(body, "refreshToken")).value, "correo"))
  {
  }

  // ---------------------------------------------------------------------------
  // /mis-animales

  /**
   * `GET /mis-animales`: an admin with a farm sees that farm's animals, an
   * admin without one sees every animal, anybody else is filtered by their
   * farm (a NULL parameter when they have none).
   */
  function MisAnimales(animals: seq<Animal>, principal: Val): (r: seq<Animal>)
    requires !IsNullish(principal)
    ensures Member(principal, "rol") == Str("admin") && !Truthy(Member(principal, "finca_id")) ==> r == animals
    ensures Member(principal, "rol") == Str("admin") && Truthy(Member(principal, "finca_id")) ==>
      forall a :: a in r <==> a in animals && SqlEq(a.fincaId, Member(principal, "finca_id"))
    ensures Member(principal, "rol") != Str("admin") ==>
      forall a :: a in r <==> a in animals && SqlEq(a.fincaId, Member(principal, "finca_id"))
  {
    var fincaId := Member(principal, "finca_id");
    if Member(principal, "rol") == Str("admin") && !Truthy(fincaId) then animals
    else Filter(animals, (a: Animal) => SqlEq(a.fincaId, Bound(fincaId)))
  }

  /**
   * Behind the token middleware the farm filter never applies: an admin
   * sees every animal (soft-deleted ones included) and anybody else sees none.
   */
  lemma {:induction false} MisAnimalesBehindToken(animals: seq<Animal>, header: Val, verify: Val -> Option<Val>)
    requires VerificarToken(header, verify).Passed?
    ensures var p := VerificarToken(header, verify).principal;
      && (Member(p, "rol") == Str("admin") ==> MisAnimales(animals, p) == animals)
      && (Member(p, "rol") != Str("admin") ==> MisAnimales(animals, p) == [])
  {
    var p := VerificarToken(header, verify).principal;
    PrincipalHasNoFarm(header, verify);
    if Member(p, "rol") != Str("admin") {
      var r := MisAnimales(animals, p);
      forall a | a in r ensures false {
        NullMatchesNothing(a.fincaId, Member(p, "finca_id"));
      }
      assert |r| == 0;
    }
  }
}

=== FILE: authorization.dfy ===
/**
 * The authorization middleware: role-list gates, the per-resource owner
 * check, and the write block for read-only accounts. The authenticated
 * principal is the `req.usuario` object the token middleware attached
 * (`Undef` when there is none).
 */
module Authorization {
  import opened Js
  import opened Store
  import opened Http

  const Admin := Str("admin")
  const User := Str("user")
  const Viewer := Str("viewer")

  /** `verificarRol(...allowed)`: 401 without a principal, 403 when its role is not listed. */
  function VerificarRol(allowed: seq<Val>, principal: Val): (g: Gate)
    ensures g == Halt(401) <==> !Truthy(principal)
    ensures g == Halt(403) <==> Truthy(principal) && Member(principal, "rol") !in allowed
    ensures g == Proceed <==> Truthy(principal) && Member(principal, "rol") in allowed
  {
    if !Truthy(principal) then Halt(401)
    else if Member(principal, "rol") !in allowed then Halt(403)
    else Proceed
  }

  const AdminOnly: seq<Val> := [Admin]
  const AdminOrUser: seq<Val> := [Admin, User]
  const AnyRole: seq<Val> := [Admin, User, Viewer]

  function SoloAdmin(principal: Val): Gate { VerificarRol(AdminOnly, principal) }

  /** `adminOUser`, also exported as `puedeModificar`. */
  function AdminOUser(principal: Val): Gate { VerificarRol(AdminOrUser, principal) }

  /** `cualquierUsuario`, also exported as `soloLectura`. */
  function CualquierUsuario(principal: Val): Gate { VerificarRol(AnyRole, principal) }

  /**
   * The role gates nest: whoever passes `soloAdmin` passes `adminOUser`, and
   * whoever passes that passes `cualquierUsuario`; a viewer passes only the last.
   */
  lemma RoleGatesNest(principal: Val)
    ensures SoloAdmin(principal) == Proceed ==> AdminOUser(principal) == Proceed
    ensures AdminOUser(principal) == Proceed ==> CualquierUsuario(principal) == Proceed
    ensures SoloAdmin(principal) == Proceed <==> Truthy(principal) && Member(principal, "rol") == Admin
    ensures Truthy(principal) && Member(principal, "rol") == Viewer ==>
      && CualquierUsuario(principal) == Proceed
      && AdminOUser(principal) == Halt(403)
      && SoloAdmin(principal) == Halt(403)
  {
  }

  /** `bloquearViewer`: 401 without a principal, 403 exactly for the `'viewer'` role. */
  function BloquearViewer(principal: Val): (g: Gate)
    ensures g == Halt(401) <==> !Truthy(principal)
    ensures g == Halt(403) <==> Truthy(principal) && Member(principal, "rol") == Viewer
    ensures g == Proceed <==> Truthy(principal) && Member(principal, "rol") != Viewer
  {
    if !Truthy(principal) then Halt(401)
    else if Member(principal, "rol") == Viewer then Halt(403)
    else Proceed
  }

  /**
   * `bloquearViewer` agrees with `adminOUser` on the three known roles, but
   * lets any other role string through, where `adminOUser` refuses it.
   */
  lemma BloquearViewerVersusAdminOUser(principal: Val)
    requires Truthy(principal)
    ensures Member(principal, "rol") in AnyRole ==> BloquearViewer(principal) == AdminOUser(principal)
    ensures Member(principal, "rol") !in AnyRole ==>
      BloquearViewer(principal) == Proceed && AdminOUser(principal) == Halt(403)
  {
  }

  /** A row of the table `verificarPropietario` consults, as a column map. */
  type Row = map<string, Val>

  /** The rows `SELECT usuario_id FROM <table> WHERE <column> = ?` returns, in table order. */
  function RowsWhere(rows: seq<Row>, column: string, key: Val): (r: seq<Row>)
    ensures forall x :: x in r <==> x in rows && SqlEq(Field(x, column), key)
  {
    Filter(rows, (x: Row) => SqlEq(Field(x, column), key))
  }

  /**
   * `verificarPropietario(table, column)`: an admin skips the lookup; anyone
   * else needs a resource id (`params[column] || params.id`), a row with that
   * key, and that row's `usuario_id` strictly equal to their own id. Reading
   * the principal's fields throws when there is no principal.
   */
  function VerificarPropietario(rows: seq<Row>, column: string, principal: Val, params: Val): (g: Gate)
    ensures IsNullish(principal) ==> g == Crash
    ensures !IsNullish(principal) && Member(principal, "rol") == Admin ==> g == Proceed
    ensures !IsNullish(principal) && Member(principal, "rol") != Admin ==>
      var key := Or(Member(params, column), Member(params, "id"));
      && (g == Halt(400) <==> !Truthy(key))
      && (g == Halt(404) <==> Truthy(key) && RowsWhere(rows, column, key) == [])
      && (g == Proceed <==> Truthy(key) && RowsWhere(rows, column, key) != []
                            && Field(RowsWhere(rows, column, key)[0], "usuario_id") == Member(principal, "id"))
      && (g == Halt(403) <==> Truthy(key) && RowsWhere(rows, column, key) != []
                              && Field(RowsWhere(rows, column, key)[0], "usuario_id") != Member(principal, "id"))
  {
    if IsNullish(principal) then Crash
    else if Member(principal, "rol") == Admin then Proceed
    else
      var key := Or(Member(params, column), Member(params, "id"));
      if !Truthy(key) then Halt(400)
      else
        var found := RowsWhere(rows, column, key);
        if found == [] then Halt(404)
        else if Field(found[0], "usuario_id") != Member(principal, "id") then Halt(403)
        else Proceed
  }

  /**
   * A non-admin gets through the owner check only for a resource that exists
   * and whose owner column is their id; an admin gets through even for a
   * resource that does not exist.
   */
  lemma OwnerCheckAdmitsOnlyOwners(rows: seq<Row>, column: string, principal: Val, params: Val)
    requires !IsNullish(principal)
    ensures VerificarPropietario(rows, column, principal, params) == Proceed && Member(principal, "rol") != Admin ==>
      exists x :: x in rows && SqlEq(Field(x, column), Or(Member(params, column), Member(params, "id")))
                 && Field(x, "usuario_id") == Member(principal, "id")
    ensures Member(principal, "rol") == Admin ==> VerificarPropietario([], column, principal, params) == Proceed
  {
    var key := Or(Member(params, column), Member(params, "id"));
    var found := RowsWhere(rows, column, key);
    if VerificarPropietario(rows, column, principal, params) == Proceed && Member(principal, "rol") != Admin {
      assert found[0] in found;
    }
  }
}

=== FILE: directory.dfy ===
/**
 * The account side of the store: users, the temporary-password log, and the
 * farms users and animals are attached to.
 */
module Directory {
  import opened Js
  import opened Store

  /** A row of `usuarios`; `password` holds the bcrypt hash, treated as an opaque value. */
  datatype UserRow = UserRow(id: nat, correo: Val, password: Val, rol: Val, fincaId: Val)

  /** A row of `contraseñas_temporales`. */
  datatype TempPassword = TempPassword(userId: Val, password: Val, active: bool)

  /** A row of `fincas`. */
  datatype Farm = Farm(id: nat, nombre: Val, nit: Val, direccion: Val, telefono: Val, correo: Val, activa: Val)

  datatype Dir = Dir(
    users: seq<UserRow>,
    nextUserId: nat,
    temps: seq<TempPassword>,
    farms: seq<Farm>,
    nextFarmId: nat)

  /**
   * What bcrypt's `hash` and `compare` take as a password or as a hash: a
   * string (a JSON body never carries a Buffer). Anything else makes the
   * returned promise reject.
   */
  predicate BcryptAccepts(v: Val) { v.Str? }

  predicate UserIdIs(u: UserRow, id: Val) { IdIs(u.id, id) }
  predicate FarmIdIs(f: Farm, id: Val) { IdIs(f.id, id) }
}

=== FILE: finca_model.dfy ===
/**
 * The farm model: lookups by id and NIT, creation with the duplicate-NIT
 * mapping, the partial-update field builder, activation, deletion with the
 * foreign-key mapping, and the existence test.
 */
module FincaModel {
  import opened Js
  import opened Store
  import opened Http
  import opened Directory

  /** `buscarPorId`: the farm with that id, or null. */
  function BuscarPorId(d: Dir, id: Val): (r: Option<Farm>)
    ensures r.None? <==> forall i :: 0 <= i < |d.farms| ==> !FarmIdIs(d.farms[i], id)
    ensures r.Some? ==> r.value in d.farms && FarmIdIs(r.value, id)
  {
    var i := FindFirst(d.farms, (f: Farm) => FarmIdIs(f, id));
    if i.None? then None else Some(d.farms[i.value])
  }

  predicate HasNit(f: Farm, nit: Val) { SqlEq(f.nit, nit) }

  /** `buscarPorNit`: the first farm with that NIT, or null. */
  function BuscarPorNit(d: Dir, nit: Val): (r: Option<Farm>)
    ensures r.None? <==> forall i :: 0 <= i < |d.farms| ==> !HasNit(d.farms[i], nit)
    ensures r.Some? ==> r.value in d.farms && HasNit(r.value, nit)
  {
    var i := FindFirst(d.farms, (f: Farm) => HasNit(f, nit));
    if i.None? then None else Some(d.farms[i.value])
  }

  const DuplicateNit := "El NIT ya está registrado"

  /** What `crear` returns: the inserted values under the new id. */
  datatype CreatedFarm = CreatedFarm(id: nat, nombre: Val, nit: Val, direccion: Val, telefono: Val, correo: Val, activa: Val)

  /** `crear`'s destructuring default: an `undefined` `activa` becomes 1. */
  function ActivaDefault(activa: Val): (r: Val)
    ensures activa.Undef? ==> r == Num(1)
    ensures !activa.Undef? ==> r == activa
  {
    if activa.Undef? then Num(1) else activa
  }

  /**
   * `crear`: a NIT already on file violates the unique index and is reported
   * as "El NIT ya está registrado"; otherwise one farm is appended.
   */
  function Crear(d: Dir, nombre: Val, nit: Val, direccion: Val, telefono: Val, correo: Val, activa: Val)
    : (r: (Dir, Result<CreatedFarm>))
    ensures r.1 == Err(DuplicateNit) <==> BuscarPorNit(d, nit).Some?
    ensures r.1.Err? ==> r.0 == d
    ensures r.1.Ok? ==>
      && r.1.value == CreatedFarm(d.nextFarmId, nombre, nit, direccion, telefono, correo, ActivaDefault(activa))
      && r.0.farms == d.farms + [Farm(d.nextFarmId, Bound(nombre), Bound(nit), Bound(direccion), Bound(telefono),
                                     Bound(correo), ActivaDefault(activa))]
      && r.0 == d.(farms := r.0.farms, nextFarmId := d.nextFarmId + 1)
  {
    if BuscarPorNit(d, nit).Some? then (d, Err(DuplicateNit))
    else
      var a := ActivaDefault(activa);
      var row := Farm(d.nextFarmId, Bound(nombre), Bound(nit), Bound(direccion), Bound(telefono), Bound(correo), a);
      (d.(farms := d.farms + [row], nextFarmId := d.nextFarmId + 1),
       Ok(CreatedFarm(d.nextFarmId, nombre, nit, direccion, telefono, correo, a)))
  }

  datatype FarmColumn = NombreCol | NitCol | DireccionCol | TelefonoCol | CorreoCol | ActivaCol
  {
    function Key(): string {
      match this
      case NombreCol => "nombre"
      case NitCol => "nit"
      case DireccionCol => "direccion"
      case TelefonoCol => "telefono"
      case CorreoCol => "correo"
      case ActivaCol => "activa"
    }
  }

  /** The columns in the order the update statement lists them. */
  const FarmColumns: seq<FarmColumn> := [NombreCol, NitCol, DireccionCol, TelefonoCol, CorreoCol, ActivaCol]

  /** `datos.<column> !== undefined` */
  predicate Provided(datos: Val, c: FarmColumn) {
    !Member(datos, c.Key()).Undef?
  }

  function Columns(a: seq<(FarmColumn, Val)>): (cs: seq<FarmColumn>)
    ensures |cs| == |a|
    ensures forall k :: 0 <= k < |a| ==> cs[k] == a[k].0
  {
    seq(|a|, k requires 0 <= k < |a| => a[k].0)
  }

  /**
   * The SET list of `actualizar`: the provided columns, kept in the fixed
   * column order, each paired with its value from `datos`.
   */
  function FarmAssignments(datos: Val): (a: seq<(FarmColumn, Val)>)
    requires !IsNullish(datos)
    ensures Columns(a) == Filter(FarmColumns, (c: FarmColumn) => Provided(datos, c))
    ensures forall k :: 0 <= k < |a| ==> a[k].1 == Member(datos, a[k].0.Key())
  {
    Pairs(datos, Filter(FarmColumns, (c: FarmColumn) => Provided(datos, c)))
  }

  /** Each of `cols`, in order, paired with its value from `datos`. */
  function Pairs(datos: Val, cols: seq<FarmColumn>): (a: seq<(FarmColumn, Val)>)
    requires !IsNullish(datos)
    ensures Columns(a) == cols
    ensures forall k :: 0 <= k < |a| ==> a[k].1 == Member(datos, a[k].0.Key())
  {
    var a := seq(|cols|, k requires 0 <= k < |cols| => (cols[k], Member(datos, cols[k].Key())));
    assert Columns(a) == cols;
    a
  }

  /** Exactly the provided columns are set. */
  lemma FarmAssignmentsExact(datos: Val, c: FarmColumn)
    requires !IsNullish(datos)
    ensures c in Columns(FarmAssignments(datos)) <==> Provided(datos, c)
    ensures FarmAssignments(datos) == [] <==> forall c' :: !Provided(datos, c')
  {
    FarmColumnListed(c);
    var a := FarmAssignments(datos);
    if a == [] {
      forall c' ensures !Provided(datos, c') {
        FarmColumnListed(c');
        assert c' !in Columns(a);
      }
    } else {
      assert Columns(a)[0] in Columns(a);
    }
  }

  lemma FarmColumnListed(c: FarmColumn)
    ensures c in FarmColumns
  {
    match c
    case NombreCol => assert FarmColumns[0] == c;
    case NitCol => assert FarmColumns[1] == c;
    case DireccionCol => assert FarmColumns[2] == c;
    case TelefonoCol => assert FarmColumns[3] == c;
    case CorreoCol => assert FarmColumns[4] == c;
    case ActivaCol => assert FarmColumns[5] == c;
  }

  function AssignFarm(f: Farm, a: seq<(FarmColumn, Val)>): Farm
    decreases |a|
  {
    if |a| == 0 then f
    else
      var v := Bound(a[0].1);
      var f' := match a[0].0
        case NombreCol => f.(nombre := v)
        case NitCol => f.(nit := v)
        case DireccionCol => f.(direccion := v)
        case TelefonoCol => f.(telefono := v)
        case CorreoCol => f.(correo := v)
        case ActivaCol => f.(activa := v);
      AssignFarm(f', a[1..])
  }

  /** The NIT an update writes, if it writes one. */
  function NewNit(a: seq<(FarmColumn, Val)>): Option<Val> {
    if |a| == 0 then None
    else if a[0].0 == NitCol then (var rest := NewNit(a[1..]); if rest.Some? then rest else Some(a[0].1))
    else NewNit(a[1..])
  }

  const NoFields := "No hay campos para actualizar"
  const FarmNotFoundOnUpdate := "Error al actualizar la finca: Finca no encontrada"

  /** Setting the NIT of the selected farms to `nit` would collide with a farm that keeps its own. */
  predicate NitClash(d: Dir, id: Val, nit: Val) {
    exists i :: 0 <= i < |d.farms| && !FarmIdIs(d.farms[i], id) && HasNit(d.farms[i], Bound(nit))
  }

  /**
   * `actualizar(id, datos)`: with nothing to set it throws before any query
   * (the message carries no prefix); a missing farm is reported with the
   * prefixed "Finca no encontrada"; a NIT that another farm holds trips the
   * unique index and is reported as "El NIT ya está registrado".
   */
  function Actualizar(d: Dir, id: Val, datos: Val): (r: (Dir, Result<nat>))
    requires !IsNullish(datos)
    ensures FarmAssignments(datos) == [] ==> r == (d, Err(NoFields))
    ensures FarmAssignments(datos) != [] && BuscarPorId(d, id).None? ==> r == (d, Err(FarmNotFoundOnUpdate))
    ensures r.1.Err? ==> r.0 == d
    ensures r.1 == Err(DuplicateNit) <==>
      FarmAssignments(datos) != [] && BuscarPorId(d, id).Some?
      && NewNit(FarmAssignments(datos)).Some? && NitClash(d, id, NewNit(FarmAssignments(datos)).value)
    ensures r.1.Ok? ==>
      && r.1.value > 0
      && |r.0.farms| == |d.farms|
      && r.0 == d.(farms := r.0.farms)
      && forall i :: 0 <= i < |d.farms| ==>
           r.0.farms[i] == (if FarmIdIs(d.farms[i], id) then AssignFarm(d.farms[i], FarmAssignments(datos)) else d.farms[i])
  {
    var a := FarmAssignments(datos);
    if a == [] then (d, Err(NoFields))
    else
      var target := (f: Farm) => FarmIdIs(f, id);
      var n := Count(d.farms, target);
      if n == 0 then (d, Err(FarmNotFoundOnUpdate))
      else if NewNit(a).Some? && NitClash(d, id, NewNit(a).value) then (d, Err(DuplicateNit))
      else (d.(farms := UpdateWhere(d.farms, target, (f: Farm) => AssignFarm(f, a))), Ok(n))
  }

  const FarmNotFoundOnEstado := "Error al cambiar estado de la finca: Finca no encontrada"

  /** `cambiarEstado(id, activa)`: sets `activa` on the farm, or reports it missing with the prefixed message. */
  function CambiarEstado(d: Dir, id: Val, activa: Val): (r: (Dir, Result<nat>))
    ensures r.1.Err? <==> BuscarPorId(d, id).None?
    ensures r.1.Err? ==> r == (d, Err(FarmNotFoundOnEstado))
    ensures r.1.Ok? ==>
      && |r.0.farms| == |d.farms|
      && r.0 == d.(farms := r.0.farms)
      && forall i :: 0 <= i < |d.farms| ==>
           r.0.farms[i] == (if FarmIdIs(d.farms[i], id) then d.farms[i].(activa := Bound(activa)) else d.farms[i])
  {
    var target := (f: Farm) => FarmIdIs(f, id);
    var n := Count(d.farms, target);
    if n == 0 then (d, Err(FarmNotFoundOnEstado))
    else (d.(farms := UpdateWhere(d.farms, target, (f: Farm) => f.(activa := Bound(activa)))), Ok(n))
  }

  /** Users attached to farm `f`. */
  function UsersOf(d: Dir, f: Farm): nat {
    Count(d.users, (u: UserRow) => IdIs(f.id, u.fincaId))
  }

  /** Animals attached to farm `f`. */
  function AnimalsOf(animals: seq<Animal>, f: Farm): nat {
    Count(animals, (a: Animal) => IdIs(f.id, a.fincaId))
  }

  /** Some selected farm is still referenced by a user or an animal (the foreign keys restrict deletion). */
  predicate Referenced(d: Dir, animals: seq<Animal>, id: Val) {
    exists i :: 0 <= i < |d.farms| && FarmIdIs(d.farms[i], id)
                && (UsersOf(d, d.farms[i]) > 0 || AnimalsOf(animals, d.farms[i]) > 0)
  }

  const InUseReason := "tiene usuarios o animales asociados"
  const FarmInUse := "No se puede eliminar la finca porque " + InUseReason
  const FarmNotFoundOnDelete := "Error al eliminar la finca: Finca no encontrada"

  /**
   * `eliminar(id)`: a farm still referenced by users or animals cannot be
   * removed (ER_ROW_IS_REFERENCED_2, mapped to its own message); a missing
   * farm is reported with the prefixed message; otherwise the farm is removed.
   */
  function Eliminar(d: Dir, animals: seq<Animal>, id: Val): (r: (Dir, Result<nat>))
    ensures BuscarPorId(d, id).None? ==> r == (d, Err(FarmNotFoundOnDelete))
    ensures BuscarPorId(d, id).Some? && Referenced(d, animals, id) ==> r == (d, Err(FarmInUse))
    ensures r.1.Ok? <==> BuscarPorId(d, id).Some? && !Referenced(d, animals, id)
    ensures r.1.Ok? ==>
      && r.0 == d.(farms := r.0.farms)
      && (forall f :: f in r.0.farms <==> f in d.farms && !FarmIdIs(f, id))
      && |r.0.farms| == |d.farms| - r.1.value
  {
    var target := (f: Farm) => FarmIdIs(f, id);
    var n := Count(d.farms, target);
    if n == 0 then (d, Err(FarmNotFoundOnDelete))
    else if Referenced(d, animals, id) then (d, Err(FarmInUse))
    else (d.(farms := DeleteWhere(d.farms, target)), Ok(n))
  }

  /** `existe(id)`: true exactly when some farm has that id. */
  function Existe(d: Dir, id: Val): (b: bool)
    ensures b <==> BuscarPorId(d, id).Some?
  {
    Count(d.farms, (f: Farm) => FarmIdIs(f, id)) > 0
  }
}

=== FILE: finca_routes.dfy ===
/**
 * The farm administration endpoints (`POST /`, `PUT /:id`,
 * `PATCH /:id/estado`, `DELETE /:id`), reached only after the token check
 * and the admin-only gate. `idParam` is the `:id` route parameter.
 */
module FincaRoutes {
  import opened Js
  import opened Store
  import opened Http
  import opened Directory
  import opened FincaModel

  const MissingNameOrNit := "Los campos 'nombre' y 'nit' son obligatorios"
  const NitHeldElsewhere := "El NIT ya está registrado en otra finca"
  const NothingToUpdate := "No se proporcionaron campos para actualizar"
  const FarmMissing := "Finca no encontrada"
  const ActivaRequired := "El campo 'activa' es requerido (true/false o 1/0)"
  const FarmHasData := "No se puede eliminar la finca porque tiene datos asociados"
  const CreateFailed := "Error al crear finca"
  const UpdateFailed := "Error al actualizar finca"
  const EstadoFailed := "Error al cambiar estado de finca"
  const DeleteFailed := "Error al eliminar finca"

  /** The catch blocks of create and update answer 409 with the model's message when it is about the NIT. */
  predicate AboutNit(m: string) { Contains(m, "NIT ya está registrado") }

  /** The catch block of delete answers 400 with the model's message when it is about references. */
  predicate AboutReferences(m: string) { Contains(m, InUseReason) }

  lemma DuplicateNitIsAboutNit()
    ensures AboutNit(DuplicateNit)
  {
    assert DuplicateNit == "El " + "NIT ya está registrado" + "";
    ContainsInfix("El ", "NIT ya está registrado", "");
  }

  lemma FarmInUseIsAboutReferences()
    ensures AboutReferences(FarmInUse)
  {
    assert FarmInUse == "No se puede eliminar la finca porque " + InUseReason + "";
    ContainsInfix("No se puede eliminar la finca porque ", InUseReason, "");
  }

  /** `POST /api/fincas`. */
  function CreateFarm(d: Dir, body: Val): (r: (Dir, Reply<CreatedFarm>))
    ensures IsNullish(body) ==> r == (d, Unanswered)
    ensures !IsNullish(body) ==>
      var nombre, nit := Member(body, "nombre"), Member(body, "nit");
      && (r.1 == Fail(400, MissingNameOrNit) <==> !Truthy(nombre) || !Truthy(nit))
      && (r.1 == Fail(409, DuplicateNit) <==> Truthy(nombre) && Truthy(nit) && BuscarPorNit(d, nit).Some?)
      && (r.1.Done? <==> Truthy(nombre) && Truthy(nit) && BuscarPorNit(d, nit).None?)
    ensures !r.1.Done? ==> r.0 == d
    ensures r.1.Done? ==>
      && r.1.status == 201
      && r.1.value.nombre == Member(body, "nombre") && r.1.value.nit == Member(body, "nit")
      && r.1.value.direccion == OrNull(Member(body, "direccion"))
      && r.1.value.telefono == OrNull(Member(body, "telefono"))
      && r.1.value.correo == OrNull(Member(body, "correo"))
      && (Member(body, "activa").Undef? ==> r.1.value.activa == Num(1))
      && (!Member(body, "activa").Undef? ==> r.1.value.activa == Member(body, "activa"))
      && r.1.value.id == d.nextFarmId
      && r.0 == d.(farms := d.farms + [Farm(d.nextFarmId, Member(body, "nombre"), Member(body, "nit"),
                                            r.1.value.direccion, r.1.value.telefono, r.1.value.correo, r.1.value.activa)],
                   nextFarmId := d.nextFarmId + 1)
  {
    if IsNullish(body) then (d, Unanswered)
    else
      var nombre, nit := Member(body, "nombre"), Member(body, "nit");
      if !Truthy(nombre) || !Truthy(nit) then (d, Fail(400, MissingNameOrNit))
      else if BuscarPorNit(d, nit).Some? then (d, Fail(409, DuplicateNit))
      else
        var activa := if Member(body, "activa").Undef? then Num(1) else Member(body, "activa");
        var (d', res) := Crear(d, nombre, nit, OrNull(Member(body, "direccion")), OrNull(Member(body, "telefono")),
                               OrNull(Member(body, "correo")), activa);
        match res
        case Ok(f) => (d', Done(201, f))
        case Err(m) => (d', if AboutNit(m) then Fail(409, m) else Fail(500, CreateFailed))
  }

  /** No two farms share a NIT (in the sense of SQL equality). */
  ghost predicate NitsUnique(farms: seq<Farm>) {
    forall i, j :: 0 <= i < j < |farms| ==> !SqlEq(farms[i].nit, farms[j].nit)
  }

  /** Creating a farm keeps NITs unique: a taken NIT is refused before anything is written. */
  lemma {:induction false} CreateKeepsNitsUnique(d: Dir, body: Val)
    requires NitsUnique(d.farms)
    ensures NitsUnique(CreateFarm(d, body).0.farms)
  {
    var r := CreateFarm(d, body);
    if r.1.Done? {
      var nit := Member(body, "nit");
      assert BuscarPorNit(d, nit).None?;
      var farms := r.0.farms;
      assert farms[|d.farms|].nit == Bound(nit);
      forall i, j | 0 <= i < j < |farms|
        ensures !SqlEq(farms[i].nit, farms[j].nit)
      {
        if j == |d.farms| {
          assert farms[i] == d.farms[i];
          assert !HasNit(d.farms[i], nit);
        } else {
          assert farms[i] == d.farms[i] && farms[j] == d.farms[j];
        }
      }
    }
  }

  /**
   * The route's own NIT check: a truthy NIT that differs from the farm's
   * current one and is held by a farm whose id is not `parseInt(id)`.
   */
  predicate NitHeldElsewhereBy(d: Dir, idParam: Val, body: Val)
    requires !IsNullish(body) && BuscarPorId(d, idParam).Some?
  {
    var nit := Member(body, "nit");
    var other := BuscarPorNit(d, nit);
    Truthy(nit) && nit != BuscarPorId(d, idParam).value.nit && other.Some? && ParseInt(idParam) != Some(other.value.id)
  }

  /** A successful update rewrites every farm with the id by the SET list and leaves the rest of the store alone. */
  predicate FarmUpdated(d: Dir, d': Dir, idParam: Val, body: Val)
    requires !IsNullish(body)
  {
    && |d'.farms| == |d.farms|
    && d' == d.(farms := d'.farms)
    && forall i :: 0 <= i < |d.farms| ==>
         d'.farms[i] == (if FarmIdIs(d.farms[i], idParam) then AssignFarm(d.farms[i], FarmAssignments(body)) else d.farms[i])
  }

  /** `PUT /api/fincas/:id`. */
  function UpdateFarm(d: Dir, idParam: Val, body: Val): (r: (Dir, Reply<Option<Farm>>))
    ensures IsNullish(body) ==> r == (d, Unanswered)
    ensures !IsNullish(body) ==> (r == (d, Fail(404, FarmMissing)) <==> BuscarPorId(d, idParam).None?)
    ensures !IsNullish(body) && BuscarPorId(d, idParam).Some? ==>
      var held := NitHeldElsewhereBy(d, idParam, body);
      var fields := FarmAssignments(body);
      var clash := NewNit(fields).Some? && NitClash(d, idParam, NewNit(fields).value);
      && (r.1 == Fail(409, NitHeldElsewhere) <==> held)
      && (r.1 == Fail(400, NothingToUpdate) <==> !held && fields == [])
      && (r.1 == Fail(409, DuplicateNit) <==> !held && fields != [] && clash)
      && (r.1.Done? <==> !held && fields != [] && !clash)
    ensures !r.1.Done? ==> r.0 == d
    ensures r.1.Done? ==> r.1.status == 200 && FarmUpdated(d, r.0, idParam, body) && r.1.value == BuscarPorId(r.0, idParam)
  {
    if IsNullish(body) then (d, Unanswered)
    else if BuscarPorId(d, idParam).None? then (d, Fail(404, FarmMissing))
    else UpdateFound(d, idParam, body)
  }

  /** The update once the farm is found: the route's own NIT check, the empty-update check, then the model. */
  function UpdateFound(d: Dir, idParam: Val, body: Val): (r: (Dir, Reply<Option<Farm>>))
    requires !IsNullish(body) && BuscarPorId(d, idParam).Some?
    ensures var held := NitHeldElsewhereBy(d, idParam, body);
      var fields := FarmAssignments(body);
      var clash := NewNit(fields).Some? && NitClash(d, idParam, NewNit(fields).value);
      && (r.1 == Fail(409, NitHeldElsewhere) <==> held)
      && (r.1 == Fail(400, NothingToUpdate) <==> !held && fields == [])
      && (r.1 == Fail(409, DuplicateNit) <==> !held && fields != [] && clash)
      && (r.1.Done? <==> !held && fields != [] && !clash)
    ensures !r.1.Done? ==> r.0 == d
    ensures r.1.Done? ==> r.1.status == 200 && FarmUpdated(d, r.0, idParam, body) && r.1.value == BuscarPorId(r.0, idParam)
  {
    assert |NitHeldElsewhere| != |DuplicateNit|;
    if NitHeldElsewhereBy(d, idParam, body) then (d, Fail(409, NitHeldElsewhere))
    else if FarmAssignments(body) == [] then (d, Fail(400, NothingToUpdate))
    else CommitFarmUpdate(d, idParam, body)
  }

  /** The model call of an update that passed the route's checks, and the catch block's mapping of its error. */
  function CommitFarmUpdate(d: Dir, idParam: Val, body: Val): (r: (Dir, Reply<Option<Farm>>))
    requires !IsNullish(body) && BuscarPorId(d, idParam).Some? && FarmAssignments(body) != []
    ensures var fields := FarmAssignments(body);
      var clash := NewNit(fields).Some? && NitClash(d, idParam, NewNit(fields).value);
      && (clash ==> r == (d, Fail(409, DuplicateNit)))
      && (r.1.Done? <==> !clash)
    ensures r.1.Done? ==> r.1.status == 200 && FarmUpdated(d, r.0, idParam, body) && r.1.value == BuscarPorId(r.0, idParam)
  {
    var (d', res) := Actualizar(d, idParam, body);
    match res
    case Ok(_) => (d', Done(200, BuscarPorId(d', idParam)))
    case Err(m) =>
      DuplicateNitIsAboutNit();
      (d', if AboutNit(m) then Fail(409, m) else Fail(500, UpdateFailed))
  }

  /**
   * The update endpoint never surfaces the model's "no fields" error (it
   * answers 400 first), and a NIT another farm keeps is always answered 409,
   * either by the route's own check or from the unique index.
   */
  lemma {:induction false} UpdateNitConflictsAre409(d: Dir, idParam: Val, body: Val)
    requires !IsNullish(body) && BuscarPorId(d, idParam).Some?
    requires Actualizar(d, idParam, body).1 == Err(DuplicateNit)
    ensures UpdateFarm(d, idParam, body).1.Is(409)
    ensures UpdateFarm(d, idParam, body).0 == d
  {
    DuplicateNitIsAboutNit();
  }

  /** `activa === true || activa === 1 || activa === '1'` */
  predicate ActivatesFarm(activa: Val) {
    activa == Bool(true) || activa == Num(1) || activa == Str("1")
  }

  /** `PATCH /api/fincas/:id/estado`: the reply value is the new activation flag. */
  function SetFarmState(d: Dir, idParam: Val, body: Val): (r: (Dir, Reply<bool>))
    ensures IsNullish(body) ==> r == (d, Unanswered)
    ensures !IsNullish(body) && Member(body, "activa").Undef? ==> r == (d, Fail(400, ActivaRequired))
    ensures !IsNullish(body) && !Member(body, "activa").Undef? && BuscarPorId(d, idParam).None? ==>
      r == (d, Fail(404, FarmMissing))
    ensures !IsNullish(body) && !Member(body, "activa").Undef? && BuscarPorId(d, idParam).Some? ==>
      var on := ActivatesFarm(Member(body, "activa"));
      && r.1 == Done(200, on)
      && r.0 == CambiarEstado(d, idParam, Num(if on then 1 else 0)).0
      && forall i :: 0 <= i < |d.farms| && FarmIdIs(d.farms[i], idParam) ==>
           r.0.farms[i].activa == Num(if on then 1 else 0)
  {
    if IsNullish(body) then (d, Unanswered)
    else
      var activa := Member(body, "activa");
      if activa.Undef? then (d, Fail(400, ActivaRequired))
      else if BuscarPorId(d, idParam).None? then (d, Fail(404, FarmMissing))
      else
        var on := ActivatesFarm(activa);
        var (d', res) := CambiarEstado(d, idParam, Num(if on then 1 else 0));
        if res.Err? then (d', Fail(500, EstadoFailed)) else (d', Done(200, on))
  }

  /**
   * `DELETE /api/fincas/:id`: the statistics of the farm found decide the
   * 400; when another farm with the same id is still referenced, the
   * foreign key refuses the delete with the model's message. The reply
   * value is the removed farm's id.
   */
  function DeleteFarm(d: Dir, animals: seq<Animal>, idParam: Val): (r: (Dir, Reply<nat>))
    ensures r == (d, Fail(404, FarmMissing)) <==> BuscarPorId(d, idParam).None?
    ensures BuscarPorId(d, idParam).Some? ==>
      var f := BuscarPorId(d, idParam).value;
      var inUse := UsersOf(d, f) > 0 || AnimalsOf(animals, f) > 0;
      && (r == (d, Fail(400, FarmHasData)) <==> inUse)
      && (r == (d, Fail(400, FarmInUse)) <==> !inUse && Referenced(d, animals, idParam))
      && (r.1.Done? <==> !inUse && !Referenced(d, animals, idParam))
    ensures !r.1.Done? ==> r.0 == d
    ensures r.1.Done? ==>
      && r.1 == Done(200, BuscarPorId(d, idParam).value.id)
      && r.0 == d.(farms := r.0.farms)
      && (forall g :: g in r.0.farms <==> g in d.farms && !FarmIdIs(g, idParam))
      && forall i :: 0 <= i < |d.farms| && FarmIdIs(d.farms[i], idParam) ==>
           UsersOf(d, d.farms[i]) == 0 && AnimalsOf(animals, d.farms[i]) == 0
  {
    var existing := BuscarPorId(d, idParam);
    if existing.None? then (d, Fail(404, FarmMissing))
    else
      var f := existing.value;
      if UsersOf(d, f) > 0 || AnimalsOf(animals, f) > 0 then (d, Fail(400, FarmHasData))
      else CommitFarmDelete(d, animals, idParam, f)
  }

  /** The model call of a delete that passed the statistics check, and the catch block's mapping of its error. */
  function CommitFarmDelete(d: Dir, animals: seq<Animal>, idParam: Val, f: Farm): (r: (Dir, Reply<nat>))
    requires BuscarPorId(d, idParam) == Some(f)
    ensures Referenced(d, animals, idParam) ==> r == (d, Fail(400, FarmInUse))
    ensures r.1.Done? <==> !Referenced(d, animals, idParam)
    ensures r.1.Done? ==>
      && r.1 == Done(200, f.id)
      && r.0 == d.(farms := r.0.farms)
      && (forall g :: g in r.0.farms <==> g in d.farms && !FarmIdIs(g, idParam))
  {
    var (d', res) := Eliminar(d, animals, idParam);
    match res
    case Ok(_) => (d', Done(200, f.id))
    case Err(m) =>
      FarmInUseIsAboutReferences();
      (d', if AboutReferences(m) then Fail(400, m) else Fail(500, DeleteFailed))
  }

  /**
   * When more than one farm answers to the id (so the statistics of the first
   * pass the guard but another is still referenced), the foreign-key error
   * is answered 400 with the model's own message.
   */
  lemma {:induction false} ReferencedFarmIsRefused(d: Dir, animals: seq<Animal>, idParam: Val)
    requires BuscarPorId(d, idParam).Some? && Referenced(d, animals, idParam)
    ensures DeleteFarm(d, animals, idParam).1.Is(400)
    ensures DeleteFarm(d, animals, idParam).0 == d
  {
    FarmInUseIsAboutReferences();
  }

  /** For a route id (a string) the reported id is `parseInt(id)`, as the source writes it. */
  lemma DeletedFarmIdIsParsed(d: Dir, animals: seq<Animal>, idParam: Val)
    requires idParam.Str? && DeleteFarm(d, animals, idParam).1.Done?
    ensures ParseInt(idParam) == Some(DeleteFarm(d, animals, idParam).1.value)
  {
    RouteIdParses(BuscarPorId(d, idParam).value.id, idParam);
  }

  /** After a state change the farm, read back by id, carries the new flag and is otherwise unchanged. */
  lemma {:induction false} SetStateThenRead(d: Dir, idParam: Val, body: Val)
    requires SetFarmState(d, idParam, body).1.Done?
    ensures var (d', reply) := SetFarmState(d, idParam, body);
      && BuscarPorId(d', idParam).Some?
      && BuscarPorId(d', idParam).value == BuscarPorId(d, idParam).value.(activa := Num(if reply.value then 1 else 0))
  {
    var (d', reply) := SetFarmState(d, idParam, body);
    var on := ActivatesFarm(Member(body, "activa"));
    assert reply.value == on;
    var p := (f: Farm) => FarmIdIs(f, idParam);
    forall i | 0 <= i < |d.farms| ensures p(d'.farms[i]) == p(d.farms[i]) {
    }
    FindFirstSamePattern(d.farms, d'.farms, p);
    var j := FindFirst(d.farms, p).value;
    assert BuscarPorId(d, idParam) == Some(d.farms[j]);
    assert BuscarPorId(d', idParam) == Some(d'.farms[j]);
  }
}

=== FILE: http.dfy ===
/**
 * What a request handler hands back to the client: an error status with its
 * message, a success status with a payload, or nothing at all when the
 * handler throws outside any `try` (the request is then left unanswered).
 */
module Http {

  datatype Reply<T> =
    | Fail(status: int, message: string)
    | Done(status: int, value: T)
    | Unanswered
  {
    predicate Is(code: int) {
      (Fail? && status == code) || (Done? && status == code)
    }
  }

  /** A model-layer call: its value, or the message of the `Error` it throws. */
  datatype Result<T> = Ok(value: T) | Err(message: string)

  /** A middleware either passes the request on (`next()`) or answers it itself. */
  datatype Gate = Proceed | Halt(status: int) | Crash
}

=== FILE: js.dfy ===
/**
 * JavaScript value semantics that the request handlers rely on: the shape of
 * a decoded JSON/form value, truthiness, `x || fallback`, property access
 * (which throws on `null`/`undefined`), and the few string operations the
 * handlers call (`toLowerCase`, `startsWith`, `includes`, `split(c)[0]`,
 * `parseInt`, `Array.prototype.join`).
 *
 * Numbers are modelled as integers: weights, prices and identifiers are
 * treated as opaque integer values, and NaN/floating point are not modelled.
 */
module Js {

  datatype Option<+T> = None | Some(value: T)

  /** A decoded JavaScript value as it reaches a handler (body, params, claims, rows). */
  datatype Val =
    | Undef
    | Null
    | Bool(b: bool)
    | Num(n: int)
    | Str(s: string)
    | Arr(items: seq<Val>)
    | Obj(props: map<string, Val>)

  predicate IsNullish(v: Val) {
    v.Undef? || v.Null?
  }

  /** JavaScript truthiness: `undefined`, `null`, `false`, `0` and `""` are falsy. */
  predicate Truthy(v: Val) {
    match v
    case Undef => false
    case Null => false
    case Bool(b) => b
    case Num(n) => n != 0
    case Str(s) => |s| > 0
    case Arr(_) => true
    case Obj(_) => true
  }

  /** `v || fallback` */
  function Or(v: Val, fallback: Val): (r: Val)
    ensures Truthy(v) ==> r == v
    ensures !Truthy(v) ==> r == fallback
  {
    if Truthy(v) then v else fallback
  }

  /** `v || null`: the handlers' idiom for "store NULL when the field is falsy". */
  function OrNull(v: Val): (r: Val)
    ensures Truthy(v) <==> Truthy(r)
    ensures Truthy(r) ==> r == v
    ensures !Truthy(r) ==> r == Null
  {
    Or(v, Null)
  }

  /**
   * Property read `v.key`. `None` stands for the TypeError thrown when `v` is
   * `null` or `undefined`; a missing property of any other value reads as
   * `undefined`.
   */
  function Prop(v: Val, key: string): (r: Option<Val>)
    ensures r.None? <==> IsNullish(v)
    ensures v.Obj? && key in v.props ==> r == Some(v.props[key])
    ensures v.Obj? && key !in v.props ==> r == Some(Undef)
  {
    match v
    case Undef => None
    case Null => None
    case Obj(m) => Some(if key in m then m[key] else Undef)
    case _ => Some(Undef)
  }

  /** `v.key` once `v` is known not to be `null`/`undefined` (reads `undefined` otherwise). */
  function Member(v: Val, key: string): (r: Val)
    ensures !IsNullish(v) ==> Prop(v, key) == Some(r)
  {
    match Prop(v, key)
    case Some(x) => x
    case None => Undef
  }

  /** Property read on an object known to exist (a parsed body, a claims object). */
  function Field(m: map<string, Val>, key: string): (r: Val)
    ensures key !in m ==> r == Undef
    ensures key in m ==> r == m[key]
  {
    if key in m then m[key] else Undef
  }

  /** ASCII lower-casing of one character. */
  function LowerChar(c: char): (r: char)
    ensures 'A' <= c <= 'Z' ==> 'a' <= r <= 'z'
    ensures !('A' <= c <= 'Z') ==> r == c
  {
    if 'A' <= c <= 'Z' then (c as int - 'A' as int + 'a' as int) as char else c
  }

  /** `s.toLowerCase()`, restricted to ASCII letters. */
  function ToLower(s: string): (r: string)
    ensures |r| == |s|
    ensures forall i :: 0 <= i < |s| ==> r[i] == LowerChar(s[i])
  {
    if |s| == 0 then "" else [LowerChar(s[0])] + ToLower(s[1..])
  }

  lemma {:induction false} ToLowerIdempotent(s: string)
    ensures ToLower(ToLower(s)) == ToLower(s)
  {
    var t := ToLower(s);
    var u := ToLower(t);
    assert |u| == |t|;
    forall i | 0 <= i < |t|
      ensures u[i] == t[i]
    {
      assert t[i] == LowerChar(s[i]);
    }
  }

  predicate StartsWith(s: string, prefix: string) {
    |prefix| <= |s| && s[..|prefix|] == prefix
  }

  /** `s.includes(sub)` */
  predicate Contains(s: string, sub: string) {
    exists i :: 0 <= i <= |s| - |sub| && OccursAt(s, sub, i)
  }

  predicate OccursAt(s: string, sub: string, i: int) {
    0 <= i <= |s| - |sub| && s[i..i + |sub|] == sub
  }

  /** A string contains each of its infixes. */
  lemma ContainsInfix(a: string, b: string, c: string)
    ensures Contains(a + b + c, b)
  {
    assert (a + b + c)[|a|..|a| + |b|] == b;
    assert OccursAt(a + b + c, b, |a|);
  }

  /** `s.split(c)[0]`: the part of `s` before the first `c`, or all of `s`. */
  function BeforeFirst(s: string, c: char): (r: string)
    ensures r <= s
    ensures c !in r
    ensures |r| < |s| ==> s[|r|] == c
  {
    if |s| == 0 then ""
    else if s[0] == c then ""
    else [s[0]] + BeforeFirst(s[1..], c)
  }

  /** Decimal spelling of an integer, as `String(n)` prints it. */
  function IntToString(n: int): (r: string)
    ensures |r| > 0
    decreases if n < 0 then 1 - n else n
  {
    if n < 0 then "-" + IntToString(-n)
    else if n < 10 then [DigitChar(n)]
    else IntToString(n / 10) + [DigitChar(n % 10)]
  }

  function DigitChar(d: int): char
    requires 0 <= d < 10
  {
    ('0' as int + d) as char
  }

  predicate IsDigit(c: char) {
    '0' <= c <= '9'
  }

  /** `String(v)`, and the element spelling used by `Array.prototype.join`. */
  function ToStr(v: Val): string
    decreases v
  {
    match v
    case Undef => "undefined"
    case Null => "null"
    case Bool(b) => if b then "true" else "false"
    case Num(n) => IntToString(n)
    case Str(s) => s
    case Arr(items) =>
      JoinStrings(seq(|items|, i requires 0 <= i < |items| =>
        if IsNullish(items[i]) then "" else ToStr(items[i])), ",")
    case Obj(_) => "[object Object]"
  }

  function JoinStrings(parts: seq<string>, sep: string): (r: string)
    ensures |parts| == 1 ==> r == parts[0]
  {
    if |parts| == 0 then ""
    else if |parts| == 1 then parts[0]
    else parts[0] + sep + JoinStrings(parts[1..], sep)
  }

  /**
   * The characters `parseInt` skips before the sign: ECMAScript's WhiteSpace
   * (tab, vertical tab, form feed, space, no-break space, the byte-order mark
   * and the space separators) and LineTerminator (line feed, carriage return,
   * line and paragraph separators).
   */
  predicate IsSpace(c: char) {
    || c == '\t' || c == '\U{000B}' || c == '\U{000C}' || c == ' ' || c == '\U{00A0}' || c == '\U{FEFF}'
    || c == '\U{1680}' || '\U{2000}' <= c <= '\U{200A}' || c == '\U{202F}' || c == '\U{205F}' || c == '\U{3000}'
    || c == '\n' || c == '\r' || c == '\U{2028}' || c == '\U{2029}'
  }

  function TrimStart(s: string): (r: string)
    ensures |r| <= |s|
    ensures r == s[|s| - |r|..]
    ensures |r| > 0 ==> !IsSpace(r[0])
  {
    if |s| > 0 && IsSpace(s[0]) then TrimStart(s[1..]) else s
  }

  /** A digit of base `radix` (10 or 16); hexadecimal digits are read in either case. */
  predicate IsDigitIn(c: char, radix: nat) {
    IsDigit(c) || (radix == 16 && ('a' <= c <= 'f' || 'A' <= c <= 'F'))
  }

  function DigitValue(c: char): nat
    requires IsDigitIn(c, 16)
  {
    if IsDigit(c) then c as int - '0' as int
    else if 'a' <= c <= 'f' then c as int - 'a' as int + 10
    else c as int - 'A' as int + 10
  }

  /** Length of the longest prefix of `s` made of digits of base `radix`. */
  function DigitRun(s: string, radix: nat): (k: nat)
    ensures k <= |s|
    ensures forall i :: 0 <= i < k ==> IsDigitIn(s[i], radix)
    ensures k < |s| ==> !IsDigitIn(s[k], radix)
  {
    if |s| > 0 && IsDigitIn(s[0], radix) then 1 + DigitRun(s[1..], radix) else 0
  }

  /** Value of a string of digits of base `radix`. */
  function DigitsValue(s: string, radix: nat): (n: nat)
    requires forall i :: 0 <= i < |s| ==> IsDigitIn(s[i], radix)
  {
    if |s| == 0 then 0
    else
      assert IsDigitIn(s[|s| - 1], radix);
      DigitsValue(s[..|s| - 1], radix) * radix + DigitValue(s[|s| - 1])
  }

  /** Whether the text after the sign starts with `0x` or `0X`, which selects base 16. */
  predicate HexPrefixed(u: string) {
    |u| >= 2 && u[0] == '0' && (u[1] == 'x' || u[1] == 'X')
  }

  /** The text after an optional leading sign. */
  function Unsigned(t: string): (u: string)
    ensures |u| <= |t|
  {
    if |t| > 0 && (t[0] == '-' || t[0] == '+') then t[1..] else t
  }

  /**
   * The unsigned magnitude `parseInt` reads: a `0x`/`0X` prefix selects
   * base 16 (base 10 otherwise) and the longest run of digits of that base
   * is read; no digits at all is NaN (`None`).
   */
  function Magnitude(u: string): Option<nat> {
    var radix := if HexPrefixed(u) then 16 else 10;
    var body := if HexPrefixed(u) then u[2..] else u;
    var k := DigitRun(body, radix);
    if k == 0 then None else Some(DigitsValue(body[..k], radix))
  }

  /** `parseInt(s)` with the default radix: leading blanks are skipped and one sign is accepted before the magnitude. */
  function ParseIntString(s: string): Option<int> {
    ParseTrimmed(TrimStart(s))
  }

  /** The number read from a string whose leading blanks are gone: an optional sign, then the magnitude. */
  function ParseTrimmed(t: string): Option<int> {
    match Magnitude(Unsigned(t))
    case None => None
    case Some(m) => var v: int := m; Some(if |t| > 0 && t[0] == '-' then -v else v)
  }

  /** A `0x` prefix selects base 16. */
  lemma HexPrefixExample()
    ensures ParseIntString("0x5") == Some(5)
  {
    assert TrimStart("0x5") == "0x5";
    assert Unsigned("0x5") == "0x5";
    assert Magnitude("0x5") == Some(5) by {
      assert HexPrefixed("0x5") && "0x5"[2..] == "5";
      assert DigitRun("5", 16) == 1 && "5"[..1] == "5";
      assert DigitsValue("5", 16) == 5;
    }
  }

  /** The prefix alone has no digits after it: NaN. */
  lemma BarePrefixExample()
    ensures ParseIntString("0x") == None
  {
    assert TrimStart("0x") == "0x";
    assert Unsigned("0x") == "0x";
    assert Magnitude("0x") == None by {
      assert HexPrefixed("0x") && "0x"[2..] == "";
    }
  }

  /** A leading zero without the `x` is read in base 10. */
  lemma LeadingZeroExample()
    ensures ParseIntString("05") == Some(5)
  {
    assert TrimStart("05") == "05";
    assert Unsigned("05") == "05";
    assert Magnitude("05") == Some(5) by {
      assert !HexPrefixed("05");
      assert DigitRun("05", 10) == 2 && "05"[..2] == "05";
      assert "05"[..1] == "0" && DigitsValue("0", 10) == 0;
      assert DigitsValue("05", 10) == 5;
    }
  }

  /** The prefix may follow blanks and a sign and be upper-case; hexadecimal digits are read in either case. */
  lemma SignedHexExample()
    ensures ParseIntString(" -0X1f") == Some(-31)
  {
    SignedHexSpelling();
    HexDigitsExample();
  }

  /** Blanks are skipped and the sign is split off before the magnitude. */
  lemma SignedHexSpelling()
    ensures TrimStart(" -0X1f") == "-0X1f"
    ensures Unsigned("-0X1f") == "0X1f"
  {
    var t := "-0X1f";
    assert !IsSpace(t[0]);
    assert TrimStart(t) == t;
    assert " -0X1f"[1..] == t;
    assert t[1..] == "0X1f";
  }

  /** The digits `1f` after the prefix read as 31. */
  lemma HexDigitsExample()
    ensures Magnitude("0X1f") == Some(31)
  {
    assert HexPrefixed("0X1f") && "0X1f"[2..] == "1f";
    assert DigitRun("1f", 16) == 2 && "1f"[..2] == "1f";
    assert "1f"[..1] == "1" && DigitsValue("1", 16) == 1;
    assert DigitsValue("1f", 16) == 31;
  }

  /** Trimming drops every leading blank, whichever of the whitespace characters it is. */
  lemma {:induction false} TrimSkipsBlanks(blanks: string, s: string)
    requires forall i :: 0 <= i < |blanks| ==> IsSpace(blanks[i])
    ensures TrimStart(blanks + s) == TrimStart(s)
    decreases |blanks|
  {
    if |blanks| > 0 {
      assert (blanks + s)[0] == blanks[0];
      assert (blanks + s)[1..] == blanks[1..] + s;
      assert TrimStart(blanks + s) == TrimStart(blanks[1..] + s);
      TrimSkipsBlanks(blanks[1..], s);
    } else {
      assert blanks + s == s;
    }
  }

  /** Leading blanks do not change what `parseInt` reads: `parseInt("\v5")` is 5. */
  lemma BlanksIgnored(blanks: string, s: string)
    requires forall i :: 0 <= i < |blanks| ==> IsSpace(blanks[i])
    ensures ParseIntString(blanks + s) == ParseIntString(s)
  {
    TrimSkipsBlanks(blanks, s);
  }

  /** `parseInt(v)`: the value is first converted with `String(v)`. */
  function ParseInt(v: Val): Option<int> {
    ParseIntString(ToStr(v))
  }

  /** `parseInt("0x5")` and `parseInt(5)` are the same number. */
  lemma HexFive()
    ensures ParseInt(Str("0x5")) == Some(5)
    ensures ParseInt(Num(5)) == Some(5)
  {
    assert ParseInt(Str("0x5")) == Some(5) by {
      assert ToStr(Str("0x5")) == "0x5";
      HexPrefixExample();
    }
    assert ParseInt(Num(5)) == Some(5) by {
      ParseIntOfDecimal(5);
    }
  }

  /** The decimal spelling of a natural number is all digits and reads back as the number. */
  lemma {:induction false} DecimalDigits(n: nat)
    ensures forall i :: 0 <= i < |IntToString(n)| ==> IsDigit(IntToString(n)[i])
    ensures DigitsValue(IntToString(n), 10) == n
    decreases n
  {
    if n >= 10 {
      DecimalDigits(n / 10);
      var s := IntToString(n);
      var p := IntToString(n / 10);
      assert s == p + [DigitChar(n % 10)];
      assert s[..|s| - 1] == p;
    }
  }

  /** A non-empty run of decimal digits reads as its value. */
  lemma {:induction false} MagnitudeOfDigits(digits: string)
    requires |digits| > 0 && forall i :: 0 <= i < |digits| ==> IsDigit(digits[i])
    ensures Magnitude(digits) == Some(DigitsValue(digits, 10))
  {
    assert !HexPrefixed(digits);
    assert DigitRun(digits, 10) == |digits|;
    assert digits[..|digits|] == digits;
  }

  /** A non-empty run of digits parses to its value. */
  lemma {:induction false} ParseDigits(digits: string)
    requires |digits| > 0 && forall i :: 0 <= i < |digits| ==> IsDigit(digits[i])
    ensures ParseIntString(digits) == Some(DigitsValue(digits, 10) as int)
  {
    assert !IsSpace(digits[0]);
    assert TrimStart(digits) == digits;
    assert Unsigned(digits) == digits;
    MagnitudeOfDigits(digits);
  }

  /** A minus sign before a non-empty run of digits negates its value. */
  lemma {:induction false} ParseNegativeDigits(s: string, digits: string, m: nat)
    requires |digits| > 0 && forall i :: 0 <= i < |digits| ==> IsDigit(digits[i])
    requires s == "-" + digits && DigitsValue(digits, 10) == m
    ensures ParseIntString(s) == Some(-(m as int))
  {
    assert !IsSpace(s[0]);
    assert TrimStart(s) == s;
    assert Unsigned(s) == digits;
    MagnitudeOfDigits(digits);
  }

  /** The decimal spelling of a negative number is a minus sign before that of its magnitude. */
  lemma NegativeSpelling(n: int)
    requires n < 0
    ensures IntToString(n) == "-" + IntToString(-n)
  {
  }

  /** Parsing undoes the decimal spelling of every integer. */
  lemma {:induction false} ParseDecimal(n: int)
    ensures ParseIntString(IntToString(n)) == Some(n)
  {
    if n < 0 {
      ParseNegativeDecimal(n);
    } else {
      DecimalDigits(n);
      ParseDigits(IntToString(n));
    }
  }

  lemma {:induction false} ParseNegativeDecimal(n: int)
    requires n < 0
    ensures ParseIntString(IntToString(n)) == Some(n)
  {
    NegativeSpelling(n);
    DecimalDigits(-n);
    ParseNegativeDigits(IntToString(n), IntToString(-n), -n);
  }

  /** `parseInt(String(n)) === n`, for a number and for its decimal string. */
  lemma {:induction false} ParseIntOfDecimal(n: int)
    ensures ParseIntString(IntToString(n)) == Some(n)
    ensures ParseInt(Num(n)) == Some(n)
    ensures ParseInt(Str(IntToString(n))) == Some(n)
  {
    ParseDecimal(n);
    assert ToStr(Num(n)) == IntToString(n);
    assert ToStr(Str(IntToString(n))) == IntToString(n);
  }
}

=== FILE: register_routes.dfy ===
/**
 * The animal registration endpoints `POST /add` and
 * `PUT /update/:chip_animal`. `principal` is `req.usuario`; `file` is the
 * stored name of the uploaded photo (`None` when no file came with the
 * request). The upload itself is not modelled.
 */
module RegisterRoutes {
  import opened Js
  import opened Store
  import opened Http
  import opened SyncEngine

  const NotAuthenticated := "Usuario no autenticado"
  const NoPhoto := "No se subió una foto"
  const MissingFields := "Faltan campos obligatorios"
  const ChipRegistered := "El chip ya está registrado"
  const RegisterFailed := "Error al registrar el animal"
  const RecordMissing := "Registro no encontrado"
  const UpdateFailed := "Error al actualizar el registro"

  /** The catalog id the handlers fall back to for an unknown breed ("Otra Raza"). */
  const BreedSentinel := 25

  /** The body fields `/add` requires, all truthy. */
  predicate AddFieldsPresent(body: Val) {
    && Truthy(Member(body, "chip_animal")) && Truthy(Member(body, "peso_nacimiento"))
    && Truthy(Member(body, "raza_id_raza")) && Truthy(Member(body, "fecha_nacimiento"))
  }

  /**
   * `POST /add`. Validation answers 400 in this order: no caller id, no
   * photo, a missing required field, a chip already on any row (whatever
   * its owner or state). Past validation the statement's values refer to
   * identifiers the module never declares, so every request that gets that
   * far is answered 500 and nothing is written; no reply carries an id.
   */
  function AddAnimal(db: Db, principal: Val, body: Val, file: Option<string>): (r: Reply<nat>)
    ensures !r.Done?
    ensures var caller := if IsNullish(principal) then Undef else Member(principal, "id");
      && (r == Fail(400, NotAuthenticated) <==> !Truthy(caller))
      && (r == Unanswered <==> Truthy(caller) && IsNullish(body))
      && (r == Fail(400, NoPhoto) <==> Truthy(caller) && !IsNullish(body) && file.None?)
      && (r == Fail(400, MissingFields) <==>
            Truthy(caller) && !IsNullish(body) && file.Some? && !AddFieldsPresent(body))
      && (r == Fail(400, ChipRegistered) <==>
            Truthy(caller) && !IsNullish(body) && file.Some? && AddFieldsPresent(body)
            && ChipTaken(db.animals, Member(body, "chip_animal")))
      && (r == Fail(500, RegisterFailed) <==>
            Truthy(caller) && !IsNullish(body) && file.Some? && AddFieldsPresent(body)
            && !ChipTaken(db.animals, Member(body, "chip_animal")))
  {
    var caller := if IsNullish(principal) then Undef else Member(principal, "id");
    if !Truthy(caller) then Fail(400, NotAuthenticated)
    else if IsNullish(body) then Unanswered
    else if file.None? then Fail(400, NoPhoto)
    else if !AddFieldsPresent(body) then Fail(400, MissingFields)
    else if ChipTaken(db.animals, Member(body, "chip_animal")) then Fail(400, ChipRegistered)
    else Fail(500, RegisterFailed)
  }

  // ---------------------------------------------------------------------------
  // PUT /update/:chip_animal

  /** `enfermedades` as the update binds it: an array is comma-joined, a string kept, anything else NULL. */
  function DiseasesValue(enfermedades: Val): (r: Val)
    ensures !Truthy(enfermedades) ==> r == Null
    ensures Truthy(enfermedades) && enfermedades.Str? ==> r == enfermedades
    ensures Truthy(enfermedades) && enfermedades.Arr? ==> r == Str(ToStr(enfermedades))
    ensures Truthy(enfermedades) && !enfermedades.Str? && !enfermedades.Arr? ==> r == Null
  {
    if !Truthy(enfermedades) then Null
    else if enfermedades.Arr? then Str(ToStr(enfermedades))
    else if enfermedades.Str? then enfermedades
    else Null
  }

  /** A list of strings is stored as the strings joined with commas; a one-element list as that element. */
  lemma DiseasesJoined(parts: seq<string>)
    requires |parts| > 0
    ensures DiseasesValue(Arr(seq(|parts|, i requires 0 <= i < |parts| => Str(parts[i])))) ==
      Str(JoinStrings(parts, ","))
    ensures |parts| == 1 ==> DiseasesValue(Arr([Str(parts[0])])) == Str(parts[0])
  {
    var items := seq(|parts|, i requires 0 <= i < |parts| => Str(parts[i]));
    var strs := seq(|items|, i requires 0 <= i < |items| => if IsNullish(items[i]) then "" else ToStr(items[i]));
    assert forall i :: 0 <= i < |parts| ==> strs[i] == parts[i];
    assert strs == parts;
    assert ToStr(Arr(items)) == JoinStrings(strs, ",");
    if |parts| == 1 {
      assert [Str(parts[0])] == items;
    }
  }

  /** `fecha_nacimiento` as the update binds it: the part before the first `T` when truthy, NULL otherwise. */
  function BirthDateValue(fecha: Val): (r: Val)
    requires !Truthy(fecha) || fecha.Str?
    ensures !Truthy(fecha) ==> r == Null
    ensures Truthy(fecha) ==> r.Str? && r.s <= fecha.s && 'T' !in r.s
  {
    if Truthy(fecha) then Str(BeforeFirst(fecha.s, 'T')) else Null
  }

  /** An ISO timestamp is cut back to its date. */
  lemma BirthDateDropsTime(date: string, time: string)
    requires 'T' !in date && |date| > 0
    ensures BirthDateValue(Str(date + "T" + time)) == Str(date)
  {
    var s := date + "T" + time;
    var r := BeforeFirst(s, 'T');
    assert s[|date|] == 'T';
    assert s[..|date|] == date;
  }

  /** The row `SET` list of the update applied to one matched animal. */
  function Rewritten(a: Animal, body: Val, file: Option<string>): (b: Animal)
    requires !IsNullish(body)
    requires !Truthy(Member(body, "fecha_nacimiento")) || Member(body, "fecha_nacimiento").Str?
    ensures b.id == a.id && b.owner == a.owner && b.estado == a.estado && b.fincaId == a.fincaId
    ensures b.chip == Bound(Member(body, "chip_animal"))
    ensures b.attrs.idMadre == OrNull(Member(body, "id_madre")) && b.attrs.idPadre == OrNull(Member(body, "id_padre"))
    ensures b.attrs.observaciones == OrNull(Member(body, "observaciones"))
    ensures b.attrs.foto == (if file.Some? then Str(file.value) else a.attrs.foto)
    ensures b.attrs.procedencia == a.attrs.procedencia && b.attrs.hierro == a.attrs.hierro
    ensures b.attrs.categoria == a.attrs.categoria && b.attrs.ubicacion == a.attrs.ubicacion
    ensures b.attrs.pesoNacimiento == Bound(Member(body, "peso_nacimiento"))
    ensures b.attrs.razaId == Bound(Member(body, "raza_id_raza"))
    ensures b.attrs.fechaNacimiento == BirthDateValue(Member(body, "fecha_nacimiento"))
    ensures b.attrs.enfermedades == DiseasesValue(Member(body, "enfermedades"))
    ensures b.attrs.numeroParto == a.attrs.numeroParto && b.attrs.precocidad == a.attrs.precocidad
    ensures b.attrs.tipoMonta == a.attrs.tipoMonta
    ensures b.createdAt == a.createdAt && b.updatedAt == a.updatedAt
  {
    a.(chip := Bound(Member(body, "chip_animal")),
       attrs := a.attrs.(
         pesoNacimiento := Bound(Member(body, "peso_nacimiento")),
         razaId := Bound(Member(body, "raza_id_raza")),
         fechaNacimiento := BirthDateValue(Member(body, "fecha_nacimiento")),
         idMadre := OrNull(Member(body, "id_madre")),
         idPadre := OrNull(Member(body, "id_padre")),
         enfermedades := DiseasesValue(Member(body, "enfermedades")),
         observaciones := OrNull(Member(body, "observaciones")),
         foto := if file.Some? then Str(file.value) else a.attrs.foto))
  }

  /**
   * `PUT /update/:chip_animal`. A truthy non-string birth date has no
   * `split`, and an unknown breed makes the handler assign to a `const`
   * binding: both throw inside the `try` and are answered 500. Rows are
   * selected by the original chip alone; the caller's ownership is not
   * consulted.
   */
  function UpdateAnimal(db: Db, chipOriginal: Val, body: Val, file: Option<string>): (r: (Db, Reply<()>))
    ensures !r.1.Done? ==> r.0 == db
    ensures IsNullish(body) ==> r.1 == Unanswered
    ensures !IsNullish(body) ==>
      var fecha := Member(body, "fecha_nacimiento");
      var valid := (!Truthy(fecha) || fecha.Str?) && InCatalog(db.breeds, Member(body, "raza_id_raza"));
      var hits := Count(db.animals, (a: Animal) => SqlEq(a.chip, chipOriginal));
      && (r.1 == Fail(500, UpdateFailed) <==> !valid)
      && (r.1 == Fail(404, RecordMissing) <==> valid && hits == 0)
      && (r.1.Done? <==> valid && hits > 0)
    ensures r.1.Done? ==>
      && |r.0.animals| == |db.animals|
      && r.0 == db.(animals := r.0.animals)
      && forall i :: 0 <= i < |db.animals| ==>
           r.0.animals[i] == (if SqlEq(db.animals[i].chip, chipOriginal) then Rewritten(db.animals[i], body, file)
                              else db.animals[i])
  {
    if IsNullish(body) then (db, Unanswered)
    else
      var fecha := Member(body, "fecha_nacimiento");
      if Truthy(fecha) && !fecha.Str? then (db, Fail(500, UpdateFailed))
      else if !InCatalog(db.breeds, Member(body, "raza_id_raza")) then (db, Fail(500, UpdateFailed))
      else
        var target := (a: Animal) => SqlEq(a.chip, chipOriginal);
        if Count(db.animals, target) == 0 then (db, Fail(404, RecordMissing))
        else (db.(animals := UpdateWhere(db.animals, target, (a: Animal) => Rewritten(a, body, file))), Done(200, ()))
  }

  /** Rewriting a row that the same request already rewrote changes nothing. */
  lemma RewrittenIdempotent(a: Animal, body: Val, file: Option<string>)
    requires !IsNullish(body)
    requires !Truthy(Member(body, "fecha_nacimiento")) || Member(body, "fecha_nacimiento").Str?
    ensures Rewritten(Rewritten(a, body, file), body, file) == Rewritten(a, body, file)
  {
  }

  /**
   * Sending the same update twice, keeping the chip, is answered 200 both
   * times and the second request leaves the store as the first left it: the
   * rewritten rows still carry the chip they are selected by, and every
   * other row is still not selected.
   */
  lemma {:induction false} UpdateAnimalTwice(db: Db, chip: Val, body: Val, file: Option<string>)
    requires UpdateAnimal(db, chip, body, file).1.Done?
    requires !IsNullish(body) && Member(body, "chip_animal") == chip
    ensures var db' := UpdateAnimal(db, chip, body, file).0;
      UpdateAnimal(db', chip, body, file) == (db', Done(200, ()))
  {
    var db' := UpdateAnimal(db, chip, body, file).0;
    var target := (a: Animal) => SqlEq(a.chip, chip);
    assert !IsNullish(chip) by {
      var i :| 0 <= i < |db.animals| && target(db.animals[i]);
    }
    forall i | 0 <= i < |db.animals|
      ensures target(db'.animals[i]) == target(db.animals[i])
      ensures target(db'.animals[i]) ==> Rewritten(db'.animals[i], body, file) == db'.animals[i]
    {
      if target(db.animals[i]) {
        RewrittenIdempotent(db.animals[i], body, file);
      }
    }
    assert Count(db'.animals, target) > 0;
    var db'' := UpdateAnimal(db', chip, body, file).0;
    assert db''.animals == db'.animals;
  }

  /** Unlike `/add`, the update never substitutes the sentinel: an unknown breed fails the whole request. */
  lemma UpdateRefusesUnknownBreed(db: Db, chipOriginal: Val, body: Val, file: Option<string>)
    requires !IsNullish(body) && !InCatalog(db.breeds, Member(body, "raza_id_raza"))
    ensures UpdateAnimal(db, chipOriginal, body, file) == (db, Fail(500, UpdateFailed))
  {
  }
}

=== FILE: store.dfy ===
/**
 * The relational store as an immutable value: the three livestock tables the
 * synchronization engine reconciles (animals, weighings, vaccinations), their
 * auto-increment counters, and the catalogs that the handlers look ids up in.
 * SQL statements become functions over these sequences.
 */
module Store {
  import opened Js

  /**
   * SQL `a = b` on bound parameters: NULL (and an unbound `undefined`) never
   * matches; equal values match; a number matches its canonical decimal
   * spelling and a boolean matches 1/0, as MySQL's implicit conversion does.
   */
  predicate SqlEq(a: Val, b: Val) {
    && !IsNullish(a) && !IsNullish(b)
    && (a == b || Converts(a, b) || Converts(b, a))
  }

  predicate Converts(a: Val, b: Val) {
    || (a.Num? && b.Str? && b.s == IntToString(a.n))
    || (a.Bool? && b.Num? && b.n == (if a.b then 1 else 0))
  }

  /** A statement parameter as the driver binds it: `undefined` is sent as NULL. */
  function Bound(v: Val): (r: Val)
    ensures v.Undef? ==> r == Null
    ensures !v.Undef? ==> r == v
    ensures forall w :: SqlEq(r, w) <==> SqlEq(v, w)
  {
    if v.Undef? then Null else v
  }

  lemma SqlEqSymmetric(a: Val, b: Val)
    ensures SqlEq(a, b) <==> SqlEq(b, a)
  {
  }

  /** A SQL parameter bound to `null`/`undefined` selects no row. */
  lemma NullMatchesNothing(a: Val, b: Val)
    requires IsNullish(b)
    ensures !SqlEq(a, b)
  {
  }

  /** Columns of `registro_animal` besides the key, owner, chip and bookkeeping columns. */
  datatype AnimalAttrs = AnimalAttrs(
    foto: Val,
    pesoNacimiento: Val,
    razaId: Val,
    fechaNacimiento: Val,
    idMadre: Val,
    idPadre: Val,
    enfermedades: Val,
    observaciones: Val,
    procedencia: Val,
    hierro: Val,
    categoria: Val,
    ubicacion: Val,
    numeroParto: Val,
    precocidad: Val,
    tipoMonta: Val)

  /** A row of `registro_animal`; `estado` is 1 for active and 0 for soft-deleted. */
  datatype Animal = Animal(
    id: nat,
    chip: Val,
    owner: Val,
    estado: int,
    fincaId: Val,
    createdAt: int,
    updatedAt: int,
    attrs: AnimalAttrs)

  /** Columns of `historico_pesaje` besides the key, parent links and bookkeeping columns. */
  datatype WeighingAttrs = WeighingAttrs(
    fechaPesaje: Val,
    pesoKg: Val,
    costoCompra: Val,
    costoVenta: Val,
    precioKgCompra: Val,
    precioKgVenta: Val,
    tipoSeguimiento: Val,
    gananciaPeso: Val,
    gananciaValor: Val,
    gananciaPesoParcial: Val,
    tiempoMeses: Val)

  /** A row of `historico_pesaje`: linked to its animal by id and, redundantly, by chip. */
  datatype Weighing = Weighing(
    id: nat,
    animalId: Val,
    chip: Val,
    createdAt: int,
    updatedAt: int,
    attrs: WeighingAttrs)

  datatype VaccinationAttrs = VaccinationAttrs(
    fechaVacuna: Val,
    tipoVacunaId: Val,
    nombreVacunaId: Val,
    dosis: Val,
    observaciones: Val)

  /** A row of `historico_vacuna`, linked to its animal by id only. */
  datatype Vaccination = Vaccination(
    id: nat,
    animalId: Val,
    createdAt: int,
    updatedAt: int,
    attrs: VaccinationAttrs)

  datatype Db = Db(
    animals: seq<Animal>,
    weighings: seq<Weighing>,
    vaccinations: seq<Vaccination>,
    nextAnimalId: nat,
    nextWeighingId: nat,
    nextVaccinationId: nat,
    breeds: set<int>,
    vaccineNames: set<int>,
    vaccineTypes: set<int>)

  /** Auto-increment bookkeeping: every id is below its counter and animal ids are distinct. */
  ghost predicate Wf(db: Db) {
    && (forall i :: 0 <= i < |db.animals| ==> db.animals[i].id < db.nextAnimalId)
    && (forall i, j :: 0 <= i < j < |db.animals| ==> db.animals[i].id != db.animals[j].id)
    && (forall i :: 0 <= i < |db.weighings| ==> db.weighings[i].id < db.nextWeighingId)
    && (forall i :: 0 <= i < |db.vaccinations| ==> db.vaccinations[i].id < db.nextVaccinationId)
  }

  /** The natural-key invariant: no two animal rows carry matching chips. */
  ghost predicate ChipsUnique(animals: seq<Animal>) {
    forall i, j :: 0 <= i < j < |animals| ==> !SqlEq(animals[i].chip, animals[j].chip)
  }

  /** `WHERE id = ?` against a server-assigned integer key. */
  predicate IdIs(id: nat, param: Val) {
    SqlEq(Num(id), param)
  }

  /** A string route parameter that selects row `id` is its decimal spelling, so `parseInt` reads it back as `id`. */
  lemma RouteIdParses(id: nat, param: Val)
    requires IdIs(id, param) && param.Str?
    ensures ParseInt(param) == Some(id)
  {
    assert param.s == IntToString(id);
    ParseIntOfDecimal(id);
  }

  /** A key parameter selects at most one id: under a primary key, `WHERE id = ?` matches at most one row. */
  lemma IdIsDeterminesId(a: nat, b: nat, param: Val)
    requires IdIs(a, param) && IdIs(b, param)
    ensures a == b
  {
    if param.Str? {
      RouteIdParses(a, param);
      RouteIdParses(b, param);
    }
  }

  /** Ownership as the queries test it: `id_usuario = ?` bound to the caller's id. */
  predicate OwnedBy(a: Animal, caller: Val) {
    SqlEq(a.owner, caller)
  }

  /** `SELECT id FROM registro_animal WHERE id = ? AND id_usuario = ?` finds a row. */
  predicate ParentOwned(animals: seq<Animal>, parent: Val, caller: Val) {
    exists i :: 0 <= i < |animals| && IdIs(animals[i].id, parent) && OwnedBy(animals[i], caller)
  }

  /** `SELECT ... FROM <catalog> WHERE <id> = ?` finds a row. */
  predicate InCatalog(ids: set<int>, param: Val) {
    exists n :: n in ids && SqlEq(Num(n), param)
  }

  /** The handlers' fallback for an id the catalog lookup does not find: a fixed sentinel id. */
  function CatalogOr(ids: set<int>, param: Val, sentinel: int): (r: Val)
    ensures InCatalog(ids, param) ==> r == param
    ensures !InCatalog(ids, param) ==> r == Num(sentinel)
  {
    if InCatalog(ids, param) then param else Num(sentinel)
  }

  /** With the sentinel in the catalog, the id a handler settles on always names a catalog row. */
  lemma CatalogOrInCatalog(ids: set<int>, param: Val, sentinel: int)
    requires sentinel in ids
    ensures InCatalog(ids, CatalogOr(ids, param, sentinel))
  {
    if !InCatalog(ids, param) {
      assert SqlEq(Num(sentinel), Num(sentinel));
    }
  }

  // ---------------------------------------------------------------------------
  // The ownership test the REST handlers make in code. They compare the
  // animal's owner with the caller's id using JavaScript `!==`, so it is value
  // identity here, not the SQL comparison the queries use.

  /** `rolUsuario === 'admin'` */
  predicate IsAdmin(principal: Val) {
    Member(principal, "rol") == Str("admin")
  }

  /** The in-handler ownership test: admins pass, others must be the owner by value. */
  predicate MayTouch(principal: Val, owner: Val) {
    IsAdmin(principal) || owner == Member(principal, "id")
  }

  /** `SELECT ... FROM registro_animal WHERE chip_animal = ?` and its first row. */
  function AnimalByChip(animals: seq<Animal>, chip: Val): (r: Option<Animal>)
    ensures r.None? <==> forall i :: 0 <= i < |animals| ==> !SqlEq(animals[i].chip, chip)
    ensures r.Some? ==> r.value in animals && SqlEq(r.value.chip, chip)
  {
    var i := FindFirst(animals, (a: Animal) => SqlEq(a.chip, chip));
    if i.None? then None else Some(animals[i.value])
  }

  // ---------------------------------------------------------------------------
  // Generic sequence queries used to express SELECT / UPDATE / DELETE.

  /** Index of the first element satisfying `p` (the row a `LIMIT 1`/`[0]` read sees). */
  function FindFirst<T>(s: seq<T>, p: T -> bool): (r: Option<nat>)
    ensures r.Some? ==> r.value < |s| && p(s[r.value])
    ensures r.Some? ==> forall j :: 0 <= j < r.value ==> !p(s[j])
    ensures r.None? <==> forall i :: 0 <= i < |s| ==> !p(s[i])
  {
    if |s| == 0 then None
    else if p(s[0]) then Some(0)
    else
      var rest := FindFirst(s[1..], p);
      if rest.None? then None else Some(rest.value + 1)
  }

  /** Number of elements satisfying `p` (a statement's `affectedRows`). */
  function Count<T>(s: seq<T>, p: T -> bool): (n: nat)
    ensures n <= |s|
    ensures n == 0 <==> forall i :: 0 <= i < |s| ==> !p(s[i])
  {
    if |s| == 0 then 0 else (if p(s[0]) then 1 else 0) + Count(s[1..], p)
  }

  /** Order-preserving selection (`WHERE`). */
  function Filter<T(!new)>(s: seq<T>, p: T -> bool): (r: seq<T>)
    ensures |r| <= |s|
    ensures forall x :: x in r <==> x in s && p(x)
    ensures |r| == Count(s, p)
  {
    if |s| == 0 then []
    else if p(s[0]) then [s[0]] + Filter(s[1..], p)
    else Filter(s[1..], p)
  }

  /** `UPDATE ... SET ... WHERE p`: rows satisfying `p` are rewritten by `f`, the rest are kept. */
  function UpdateWhere<T>(s: seq<T>, p: T -> bool, f: T -> T): (r: seq<T>)
    ensures |r| == |s|
    ensures forall i :: 0 <= i < |s| && p(s[i]) ==> r[i] == f(s[i])
    ensures forall i :: 0 <= i < |s| && !p(s[i]) ==> r[i] == s[i]
  {
    seq(|s|, i requires 0 <= i < |s| => if p(s[i]) then f(s[i]) else s[i])
  }

  /** `DELETE ... WHERE p`. */
  function DeleteWhere<T(!new)>(s: seq<T>, p: T -> bool): (r: seq<T>)
    ensures forall x :: x in r <==> x in s && !p(x)
    ensures |r| + Count(s, p) == |s|
  {
    CountComplement(s, p);
    Filter(s, x => !p(x))
  }

  lemma {:induction false} CountComplement<T>(s: seq<T>, p: T -> bool)
    ensures Count(s, x => !p(x)) + Count(s, p) == |s|
  {
    if |s| > 0 {
      CountComplement(s[1..], p);
    }
  }

  lemma {:induction false} CountAppend<T>(s: seq<T>, x: T, p: T -> bool)
    ensures Count(s + [x], p) == Count(s, p) + (if p(x) then 1 else 0)
  {
    if |s| > 0 {
      assert (s + [x])[1..] == s[1..] + [x];
      CountAppend(s[1..], x, p);
    }
  }

  lemma {:induction false} FindFirstAppend<T>(s: seq<T>, x: T, p: T -> bool)
    requires forall i :: 0 <= i < |s| ==> !p(s[i])
    requires p(x)
    ensures FindFirst(s + [x], p) == Some(|s|)
  {
    var r := FindFirst(s + [x], p);
    assert (s + [x])[|s|] == x;
  }

  /** `FindFirst` sees only which rows satisfy `p`: two tables that agree on that give the same index. */
  lemma FindFirstSamePattern<T>(s: seq<T>, t: seq<T>, p: T -> bool)
    requires |s| == |t|
    requires forall i :: 0 <= i < |s| ==> p(s[i]) == p(t[i])
    ensures FindFirst(s, p) == FindFirst(t, p)
  {
  }
}

=== FILE: sync_batch.dfy ===
/**
 * The `/batch` coordinator: a left fold of the per-operation router over the
 * submitted operations inside one transaction. Each operation contributes
 * exactly one slot to `results`; a thrown error is caught and turned into a
 * failure result, and the loop carries on with the next operation.
 */
module SyncBatch {
  import opened Js
  import opened Store
  import opened SyncEngine
  import opened SyncFrame

  /**
   * What the loop pushes onto `results` for one operation: the returned
   * object, `undefined` (`None`) when the reconciler fell through, or the
   * failure object built in the `catch`.
   */
  function ToSlot(op: Val, outcome: Outcome): (slot: Option<SyncResult>)
    ensures slot.None? <==> outcome.FellThrough?
    ensures outcome.Returned? ==> slot == Some(outcome.result)
    ensures outcome.Threw? ==> slot == Some(Faulted(op, outcome.fault))
  {
    match outcome
    case Returned(r) => Some(r)
    case FellThrough => None
    case Threw(f) => Some(Faulted(op, f))
  }

  datatype Run = Run(db: Db, slots: seq<Option<SyncResult>>)

  /**
   * The loop body applied to `ops` in order; operation `i` runs at time
   * `clock(i)` against the store left by the operations before it.
   */
  function RunOps(db: Db, ops: seq<Val>, caller: Val, clock: nat -> int): (r: Run)
    ensures |r.slots| == |ops|
    decreases |ops|
  {
    if |ops| == 0 then Run(db, [])
    else
      var k := |ops| - 1;
      var prev := RunOps(db, ops[..k], caller, clock);
      var s := ProcessOperation(prev.db, ops[k], caller, clock(k));
      Run(s.db, prev.slots + [ToSlot(ops[k], s.outcome)])
  }

  /** The store in which operation `i` of `ops` runs. */
  function StoreBefore(db: Db, ops: seq<Val>, caller: Val, clock: nat -> int, i: nat): Db
    requires i <= |ops|
  {
    RunOps(db, ops[..i], caller, clock).db
  }

  /** Slot `i` is the outcome of operation `i` run against the store its predecessors left. */
  lemma {:induction false} RunOpsSlot(db: Db, ops: seq<Val>, caller: Val, clock: nat -> int, i: nat)
    requires i < |ops|
    ensures RunOps(db, ops, caller, clock).slots[i] ==
      ToSlot(ops[i], ProcessOperation(StoreBefore(db, ops, caller, clock, i), ops[i], caller, clock(i)).outcome)
    decreases |ops|
  {
    var k := |ops| - 1;
    if i < k {
      RunOpsSlot(db, ops[..k], caller, clock, i);
      assert ops[..k][..i] == ops[..i];
      assert ops[..k][i] == ops[i];
    } else {
      assert ops[..k] == ops[..i];
    }
  }

  /** The fold keeps the store invariants and the ownership frame of every step. */
  lemma {:induction false} RunOpsIsSafe(db: Db, ops: seq<Val>, caller: Val, clock: nat -> int)
    ensures SafeStep(db, RunOps(db, ops, caller, clock).db, caller)
    decreases |ops|
  {
    if |ops| == 0 {
      assert SafeStep(db, db, caller);
    } else {
      var k := |ops| - 1;
      var prev := RunOps(db, ops[..k], caller, clock);
      RunOpsIsSafe(db, ops[..k], caller, clock);
      StepIsSafe(prev.db, ops[k], caller, clock(k));
      var next := ProcessOperation(prev.db, ops[k], caller, clock(k)).db;
      ExtendsTransitive(db, prev.db, next);
      ForeignRowsKeptTransitive(db, prev.db, next, caller);
    }
  }

  predicate Succeeded(r: SyncResult) {
    r.Success()
  }

  predicate Failed(r: SyncResult) {
    !r.Success()
  }

  lemma {:induction false} SuccessFailPartition(results: seq<SyncResult>)
    ensures Count(results, Succeeded) + Count(results, Failed) == |results|
  {
    if |results| > 0 {
      SuccessFailPartition(results[1..]);
    }
  }

  /** The response of `POST /sync/batch`. */
  datatype BatchReply =
    | Unauthenticated                                                  // 401
    | MissingOperations                                                // 400
    | Synced(results: seq<SyncResult>, successCount: nat, failCount: nat)  // 200
    | BatchFailed                                                      // 500 after the commit
    | NoReply                                                          // the handler threw before its try

  datatype BatchOutcome = BatchOutcome(db: Db, reply: BatchReply)

  /** `operations` passes the guard: truthy and an array. */
  predicate IsOpArray(v: Val) {
    Truthy(v) && v.Arr?
  }

  predicate AllDefined(slots: seq<Option<SyncResult>>) {
    forall i :: 0 <= i < |slots| ==> slots[i].Some?
  }

  function Unwrap(slots: seq<Option<SyncResult>>): (rs: seq<SyncResult>)
    requires AllDefined(slots)
    ensures |rs| == |slots|
    ensures forall i :: 0 <= i < |slots| ==> Some(rs[i]) == slots[i]
  {
    seq(|slots|, i requires 0 <= i < |slots| => slots[i].value)
  }

  /**
   * `POST /sync/batch`. `caller` is `req.usuario?.id`; `body` is the parsed
   * request body. The transaction commits whatever the operations did; when
   * some reconciler fell through, the `undefined` slot makes the success
   * count throw after the commit, so the response is 500 but the writes stay.
   */
  function Batch(db: Db, caller: Val, body: Val, clock: nat -> int): (out: BatchOutcome)
    ensures !Truthy(caller) ==> out == BatchOutcome(db, Unauthenticated)
    ensures Truthy(caller) && IsNullish(body) ==> out == BatchOutcome(db, NoReply)
    ensures Truthy(caller) && !IsNullish(body) && !IsOpArray(Member(body, "operations")) ==>
      out == BatchOutcome(db, MissingOperations)
    ensures out.reply.Synced? || out.reply.BatchFailed? ==>
      && Truthy(caller) && !IsNullish(body) && IsOpArray(Member(body, "operations"))
      && out.db == RunOps(db, Member(body, "operations").items, caller, clock).db
    ensures out.reply.Synced? ==>
      && |out.reply.results| == |Member(body, "operations").items|
      && out.reply.successCount == Count(out.reply.results, Succeeded)
      && out.reply.failCount == Count(out.reply.results, Failed)
      && out.reply.successCount + out.reply.failCount == |out.reply.results|
  {
    if !Truthy(caller) then BatchOutcome(db, Unauthenticated)
    else if IsNullish(body) then BatchOutcome(db, NoReply)
    else
      var operations := Member(body, "operations");
      if !IsOpArray(operations) then BatchOutcome(db, MissingOperations)
      else
        var run := RunOps(db, operations.items, caller, clock);
        if AllDefined(run.slots) then
          var results := Unwrap(run.slots);
          SuccessFailPartition(results);
          BatchOutcome(run.db, Synced(results, Count(results, Succeeded), Count(results, Failed)))
        else
          BatchOutcome(run.db, BatchFailed)
  }

  /** The operation list a well-formed request carries. */
  function Ops(body: Val): seq<Val>
    requires !IsNullish(body) && IsOpArray(Member(body, "operations"))
  {
    Member(body, "operations").items
  }

  /**
   * One result per operation, in submission order: result `i` is what
   * operation `i` returned, or the failure built from what it threw, run
   * against the store left by the operations before it. An operation that
   * throws does not stop the ones after it.
   */
  lemma BatchResultsInOrder(db: Db, caller: Val, body: Val, clock: nat -> int, i: nat)
    requires Batch(db, caller, body, clock).reply.Synced?
    requires i < |Batch(db, caller, body, clock).reply.results|
    ensures !IsNullish(body) && IsOpArray(Member(body, "operations"))
    ensures var ops := Ops(body);
      var s := ProcessOperation(StoreBefore(db, ops, caller, clock, i), ops[i], caller, clock(i));
      var r := Batch(db, caller, body, clock).reply.results[i];
      && (s.outcome.Returned? ==> r == s.outcome.result)
      && (s.outcome.Threw? ==> r == Faulted(ops[i], s.outcome.fault))
      && !s.outcome.FellThrough?
  {
    RunOpsSlot(db, Ops(body), caller, clock, i);
  }

  /**
   * The response is 500 exactly when some reconciler fell through (returned
   * `undefined`); the writes of the batch are committed either way.
   */
  lemma BatchFailsOnlyOnFallThrough(db: Db, caller: Val, body: Val, clock: nat -> int)
    requires Truthy(caller) && !IsNullish(body) && IsOpArray(Member(body, "operations"))
    ensures Batch(db, caller, body, clock).reply.BatchFailed? <==>
      exists i :: 0 <= i < |Ops(body)| &&
        ProcessOperation(StoreBefore(db, Ops(body), caller, clock, i), Ops(body)[i], caller, clock(i)).outcome.FellThrough?
  {
    var ops := Ops(body);
    forall i | 0 <= i < |ops|
      ensures RunOps(db, ops, caller, clock).slots[i].None? <==>
        ProcessOperation(StoreBefore(db, ops, caller, clock, i), ops[i], caller, clock(i)).outcome.FellThrough?
    {
      RunOpsSlot(db, ops, caller, clock, i);
    }
  }

  /** A rejected request (401, 400, or a throw before the try) leaves the store as it was. */
  lemma RejectedRequestChangesNothing(db: Db, caller: Val, body: Val, clock: nat -> int)
    requires !(Truthy(caller) && !IsNullish(body) && IsOpArray(Member(body, "operations")))
    ensures Batch(db, caller, body, clock).db == db
    ensures !Batch(db, caller, body, clock).reply.Synced? && !Batch(db, caller, body, clock).reply.BatchFailed?
  {
  }

  /**
   * A batch keeps the auto-increment and chip-uniqueness invariants, never
   * removes or re-keys a row, leaves other users' rows untouched, and
   * creates rows only for the caller.
   */
  lemma BatchIsSafe(db: Db, caller: Val, body: Val, clock: nat -> int)
    ensures SafeStep(db, Batch(db, caller, body, clock).db, caller)
    ensures Wf(db) ==> Wf(Batch(db, caller, body, clock).db)
    ensures ChipsUnique(db.animals) ==> ChipsUnique(Batch(db, caller, body, clock).db.animals)
  {
    if Truthy(caller) && !IsNullish(body) && IsOpArray(Member(body, "operations")) {
      RunOpsIsSafe(db, Ops(body), caller, clock);
    } else {
      assert SafeStep(db, db, caller);
    }
  }
}

=== FILE: sync_engine.dfy ===
/**
 * The per-operation half of the offline synchronization engine: one
 * reconciler per table (animal record, weighing history, vaccination
 * history) and the router that dispatches an operation on its `table` tag.
 *
 * Each reconciler is a pure function from the store, the operation's fields
 * and the caller's id to the new store and an outcome. An outcome is what the
 * handler hands back to the batch loop: a result object, `undefined` (an
 * action the reconciler has no branch for), or a thrown error.
 */
module SyncEngine {
  import opened Js
  import opened Store

  datatype Table = AnimalTable | WeighingTable | VaccinationTable
  {
    function Name(): string {
      match this
      case AnimalTable => "registro_animal"
      case WeighingTable => "historico_pesaje"
      case VaccinationTable => "historico_vacuna"
    }
  }

  datatype Action = Insert | Update | Delete

  /** Why an operation threw: a property read on null/undefined, or an unknown table tag. */
  datatype Fault = TypeError | UnsupportedTable(table: Val)

  /** The result object a reconciler returns, or the batch loop builds from a thrown error. */
  datatype SyncResult =
    | Inserted(table: Table, serverId: nat, localId: Val)
    | Affected(action: Action, table: Table, affectedRows: nat)
    | Rejected(action: Action, table: Table, error: string, existingId: Option<nat>)
    | Faulted(operation: Val, fault: Fault)
  {
    /** The `success` flag of the result object. */
    predicate Success() {
      Inserted? || Affected?
    }
  }

  datatype Outcome = Returned(result: SyncResult) | FellThrough | Threw(fault: Fault)

  datatype Step = Step(db: Db, outcome: Outcome)

  const ChipExists := "El chip ya existe"
  const NotOwned := "Animal no encontrado o no pertenece al usuario"

  predicate ChipTaken(animals: seq<Animal>, chip: Val) {
    exists i :: 0 <= i < |animals| && SqlEq(animals[i].chip, chip)
  }

  // ---------------------------------------------------------------------------
  // registro_animal

  /** Column values an animal INSERT writes; the falsy optional fields become NULL. */
  function NewAnimalAttrs(data: Val): (a: AnimalAttrs)
    ensures a.foto == (if Truthy(Member(data, "foto")) then Member(data, "foto") else Str("default.jpg"))
    ensures a.pesoNacimiento == Bound(Member(data, "peso_nacimiento"))
    ensures a.razaId == Bound(Member(data, "raza_id_raza"))
    ensures a.fechaNacimiento == Bound(Member(data, "fecha_nacimiento"))
    ensures OptionalAnimalFieldsFrom(a, data)
  {
    AnimalAttrs(
      foto := Or(Member(data, "foto"), Str("default.jpg")),
      pesoNacimiento := Bound(Member(data, "peso_nacimiento")),
      razaId := Bound(Member(data, "raza_id_raza")),
      fechaNacimiento := Bound(Member(data, "fecha_nacimiento")),
      idMadre := OrNull(Member(data, "id_madre")),
      idPadre := OrNull(Member(data, "id_padre")),
      enfermedades := OrNull(Member(data, "enfermedades")),
      observaciones := OrNull(Member(data, "observaciones")),
      procedencia := OrNull(Member(data, "procedencia")),
      hierro := OrNull(Member(data, "hierro")),
      categoria := OrNull(Member(data, "categoria")),
      ubicacion := OrNull(Member(data, "ubicacion")),
      numeroParto := OrNull(Member(data, "numero_parto")),
      precocidad := OrNull(Member(data, "precocidad")),
      tipoMonta := OrNull(Member(data, "tipo_monta")))
  }

  /** A stored optional column holds the payload's value when truthy and NULL otherwise. */
  predicate NullWhenFalsy(stored: Val, sent: Val) {
    (Truthy(sent) ==> stored == sent) && (!Truthy(sent) ==> stored == Null)
  }

  predicate OptionalAnimalFieldsFrom(a: AnimalAttrs, data: Val) {
    && NullWhenFalsy(a.idMadre, Member(data, "id_madre"))
    && NullWhenFalsy(a.idPadre, Member(data, "id_padre"))
    && NullWhenFalsy(a.enfermedades, Member(data, "enfermedades"))
    && NullWhenFalsy(a.observaciones, Member(data, "observaciones"))
    && NullWhenFalsy(a.procedencia, Member(data, "procedencia"))
    && NullWhenFalsy(a.hierro, Member(data, "hierro"))
    && NullWhenFalsy(a.categoria, Member(data, "categoria"))
    && NullWhenFalsy(a.ubicacion, Member(data, "ubicacion"))
    && NullWhenFalsy(a.numeroParto, Member(data, "numero_parto"))
    && NullWhenFalsy(a.precocidad, Member(data, "precocidad"))
    && NullWhenFalsy(a.tipoMonta, Member(data, "tipo_monta"))
  }

  /** Column values an animal UPDATE writes: every mutable column except the photo. */
  function UpdatedAnimalAttrs(prev: AnimalAttrs, data: Val): (a: AnimalAttrs)
    ensures a.foto == prev.foto
    ensures a.pesoNacimiento == Bound(Member(data, "peso_nacimiento"))
    ensures a.razaId == Bound(Member(data, "raza_id_raza"))
    ensures a.fechaNacimiento == Bound(Member(data, "fecha_nacimiento"))
    ensures OptionalAnimalFieldsFrom(a, data)
  {
    NewAnimalAttrs(data).(foto := prev.foto)
  }

  /**
   * INSERT: the chip lookup is global (any owner); a hit is reported as a
   * failure carrying the existing row's id, otherwise one row owned by the
   * caller is appended under the next auto-increment id.
   */
  function AnimalInsert(db: Db, data: Val, recordId: Val, caller: Val, now: int): (s: Step)
    ensures IsNullish(data) ==> s == Step(db, Threw(TypeError))
    ensures !IsNullish(data) && ChipTaken(db.animals, Member(data, "chip_animal")) ==>
      && s.db == db
      && s.outcome.Returned? && s.outcome.result.Rejected?
      && s.outcome.result.action == Insert && s.outcome.result.error == ChipExists
      && s.outcome.result.existingId.Some?
      && exists i :: 0 <= i < |db.animals| && db.animals[i].id == s.outcome.result.existingId.value
                    && SqlEq(db.animals[i].chip, Member(data, "chip_animal"))
    ensures !IsNullish(data) && !ChipTaken(db.animals, Member(data, "chip_animal")) ==>
      && s.outcome == Returned(Inserted(AnimalTable, db.nextAnimalId, recordId))
      && s.db == db.(animals := s.db.animals, nextAnimalId := db.nextAnimalId + 1)
      && |s.db.animals| == |db.animals| + 1
      && s.db.animals[..|db.animals|] == db.animals
      && var row := s.db.animals[|db.animals|];
         && row.id == db.nextAnimalId && row.owner == caller
         && row.chip == Bound(Member(data, "chip_animal")) && row.estado == 1
         && row.createdAt == now && row.updatedAt == now
         && row.attrs == NewAnimalAttrs(data)
  {
    if IsNullish(data) then Step(db, Threw(TypeError))
    else
      var chip := Member(data, "chip_animal");
      var hit := FindFirst(db.animals, (a: Animal) => SqlEq(a.chip, chip));
      if hit.Some? then
        Step(db, Returned(Rejected(Insert, AnimalTable, ChipExists, Some(db.animals[hit.value].id))))
      else
        var row := Animal(db.nextAnimalId, Bound(chip), caller, 1, Null, now, now, NewAnimalAttrs(data));
        assert (db.animals + [row])[..|db.animals|] == db.animals;
        Step(db.(animals := db.animals + [row], nextAnimalId := db.nextAnimalId + 1),
             Returned(Inserted(AnimalTable, db.nextAnimalId, recordId)))
  }

  /** The rows an animal UPDATE selects: matching chip and owned by the caller. */
  predicate UpdateTarget(a: Animal, chip: Val, caller: Val) {
    SqlEq(a.chip, chip) && OwnedBy(a, caller)
  }

  function Touch(a: Animal, data: Val, now: int): Animal {
    a.(attrs := UpdatedAnimalAttrs(a.attrs, data), updatedAt := now)
  }

  /**
   * UPDATE, keyed by chip and owner: fails unless the caller owns a row with
   * that chip; otherwise rewrites every mutable column of those rows and
   * stamps `updated_at`, leaving id, chip, owner and `estado` as they were.
   */
  function AnimalUpdate(db: Db, data: Val, caller: Val, now: int): (s: Step)
    ensures IsNullish(data) ==> s == Step(db, Threw(TypeError))
    ensures !IsNullish(data) ==>
      var chip := Member(data, "chip_animal");
      && s.db == db.(animals := s.db.animals)
      && |s.db.animals| == |db.animals|
      && (s.outcome == Returned(Rejected(Update, AnimalTable, NotOwned, None))
          <==> forall i :: 0 <= i < |db.animals| ==> !UpdateTarget(db.animals[i], chip, caller))
      && (s.outcome.Returned? && s.outcome.result.Rejected? ==> s.db == db)
      && (Count(db.animals, (a: Animal) => UpdateTarget(a, chip, caller)) > 0 ==>
            s.outcome == Returned(Affected(Update, AnimalTable,
                                           Count(db.animals, (a: Animal) => UpdateTarget(a, chip, caller)))))
      && (forall i :: 0 <= i < |db.animals| && !UpdateTarget(db.animals[i], chip, caller) ==>
            s.db.animals[i] == db.animals[i])
      && (forall i :: 0 <= i < |db.animals| && UpdateTarget(db.animals[i], chip, caller) ==>
            && s.db.animals[i].id == db.animals[i].id
            && s.db.animals[i].chip == db.animals[i].chip
            && s.db.animals[i].owner == db.animals[i].owner
            && s.db.animals[i].estado == db.animals[i].estado
            && s.db.animals[i].updatedAt == now
            && s.db.animals[i].attrs == UpdatedAnimalAttrs(db.animals[i].attrs, data))
  {
    if IsNullish(data) then Step(db, Threw(TypeError))
    else
      var chip := Member(data, "chip_animal");
      var target := (a: Animal) => UpdateTarget(a, chip, caller);
      var n := Count(db.animals, target);
      if n == 0 then Step(db, Returned(Rejected(Update, AnimalTable, NotOwned, None)))
      else
        Step(db.(animals := UpdateWhere(db.animals, target, (a: Animal) => Touch(a, data, now))),
             Returned(Affected(Update, AnimalTable, n)))
  }

  /** The rows an animal DELETE selects: `id = recordId` and owned by the caller. */
  predicate DeleteTarget(a: Animal, recordId: Val, caller: Val) {
    IdIs(a.id, recordId) && OwnedBy(a, caller)
  }

  /**
   * DELETE is a soft delete: the selected rows get `estado = 0` and a fresh
   * `updated_at`; no row is removed, and the result reports success with the
   * number of rows matched, even when that number is zero.
   */
  function AnimalDelete(db: Db, recordId: Val, caller: Val, now: int): (s: Step)
    ensures s.outcome.Returned? && s.outcome.result.Success()
    ensures s.outcome == Returned(Affected(Delete, AnimalTable,
      Count(db.animals, (a: Animal) => DeleteTarget(a, recordId, caller))))
    ensures s.db == db.(animals := s.db.animals)
    ensures |s.db.animals| == |db.animals|
    ensures forall i :: 0 <= i < |db.animals| ==>
      if DeleteTarget(db.animals[i], recordId, caller)
      then s.db.animals[i] == db.animals[i].(estado := 0, updatedAt := now)
      else s.db.animals[i] == db.animals[i]
  {
    var target := (a: Animal) => DeleteTarget(a, recordId, caller);
    Step(db.(animals := UpdateWhere(db.animals, target, (a: Animal) => a.(estado := 0, updatedAt := now))),
         Returned(Affected(Delete, AnimalTable, Count(db.animals, target))))
  }

  function SyncAnimal(db: Db, action: Val, data: Val, recordId: Val, caller: Val, now: int): Step {
    if action == Str("INSERT") then AnimalInsert(db, data, recordId, caller, now)
    else if action == Str("UPDATE") then AnimalUpdate(db, data, caller, now)
    else if action == Str("DELETE") then AnimalDelete(db, recordId, caller, now)
    else Step(db, FellThrough)
  }

  // ---------------------------------------------------------------------------
  // historico_pesaje

  function NewWeighingAttrs(data: Val): (w: WeighingAttrs)
    ensures w.fechaPesaje == Bound(Member(data, "fecha_pesaje")) && w.pesoKg == Bound(Member(data, "peso_kg"))
    ensures EconomicFieldsFrom(w, data)
    ensures w.tipoSeguimiento == Null && w.gananciaPeso == Null && w.gananciaValor == Null
    ensures w.gananciaPesoParcial == Null && w.tiempoMeses == Null
  {
    WeighingAttrs(
      fechaPesaje := Bound(Member(data, "fecha_pesaje")),
      pesoKg := Bound(Member(data, "peso_kg")),
      costoCompra := OrNull(Member(data, "costo_compra")),
      costoVenta := OrNull(Member(data, "costo_venta")),
      precioKgCompra := OrNull(Member(data, "precio_kg_compra")),
      precioKgVenta := OrNull(Member(data, "precio_kg_venta")),
      tipoSeguimiento := Null,
      gananciaPeso := Null,
      gananciaValor := Null,
      gananciaPesoParcial := Null,
      tiempoMeses := Null)
  }

  predicate EconomicFieldsFrom(w: WeighingAttrs, data: Val) {
    && NullWhenFalsy(w.costoCompra, Member(data, "costo_compra"))
    && NullWhenFalsy(w.costoVenta, Member(data, "costo_venta"))
    && NullWhenFalsy(w.precioKgCompra, Member(data, "precio_kg_compra"))
    && NullWhenFalsy(w.precioKgVenta, Member(data, "precio_kg_venta"))
  }

  /** A weighing UPDATE rewrites weight, date and the four economic columns only. */
  function UpdatedWeighingAttrs(prev: WeighingAttrs, data: Val): (w: WeighingAttrs)
    ensures w.fechaPesaje == Bound(Member(data, "fecha_pesaje")) && w.pesoKg == Bound(Member(data, "peso_kg"))
    ensures EconomicFieldsFrom(w, data)
    ensures w.tipoSeguimiento == prev.tipoSeguimiento && w.gananciaPeso == prev.gananciaPeso
    ensures w.gananciaValor == prev.gananciaValor && w.gananciaPesoParcial == prev.gananciaPesoParcial
    ensures w.tiempoMeses == prev.tiempoMeses
  {
    var n := NewWeighingAttrs(data);
    prev.(fechaPesaje := n.fechaPesaje, pesoKg := n.pesoKg, costoCompra := n.costoCompra,
         costoVenta := n.costoVenta, precioKgCompra := n.precioKgCompra, precioKgVenta := n.precioKgVenta)
  }

  /** INSERT succeeds only under an animal the caller owns, named by `data.registro_animal_id`. */
  function WeighingInsert(db: Db, data: Val, recordId: Val, caller: Val, now: int): (s: Step)
    ensures IsNullish(data) ==> s == Step(db, Threw(TypeError))
    ensures !IsNullish(data) && !ParentOwned(db.animals, Member(data, "registro_animal_id"), caller) ==>
      s == Step(db, Returned(Rejected(Insert, WeighingTable, NotOwned, None)))
    ensures !IsNullish(data) && ParentOwned(db.animals, Member(data, "registro_animal_id"), caller) ==>
      && s.outcome == Returned(Inserted(WeighingTable, db.nextWeighingId, recordId))
      && s.db == db.(weighings := s.db.weighings, nextWeighingId := db.nextWeighingId + 1)
      && |s.db.weighings| == |db.weighings| + 1
      && s.db.weighings[..|db.weighings|] == db.weighings
      && var row := s.db.weighings[|db.weighings|];
         && row.id == db.nextWeighingId && row.animalId == Member(data, "registro_animal_id")
         && row.chip == Bound(Member(data, "chip_animal")) && row.updatedAt == now
         && row.attrs == NewWeighingAttrs(data)
  {
    if IsNullish(data) then Step(db, Threw(TypeError))
    else
      var parent := Member(data, "registro_animal_id");
      if !ParentOwned(db.animals, parent, caller) then
        Step(db, Returned(Rejected(Insert, WeighingTable, NotOwned, None)))
      else
        var row := Weighing(db.nextWeighingId, parent, Bound(Member(data, "chip_animal")), now, now, NewWeighingAttrs(data));
        assert (db.weighings + [row])[..|db.weighings|] == db.weighings;
        Step(db.(weighings := db.weighings + [row], nextWeighingId := db.nextWeighingId + 1),
             Returned(Inserted(WeighingTable, db.nextWeighingId, recordId)))
  }

  /** The rows a child UPDATE selects: its own id, joined to an animal the caller owns. */
  predicate WeighingTarget(animals: seq<Animal>, w: Weighing, recordId: Val, caller: Val) {
    IdIs(w.id, recordId) && ParentOwned(animals, w.animalId, caller)
  }

  /**
   * UPDATE through the join on the parent animal: only rows whose parent the
   * caller owns are touched, and success is reported whatever the count.
   */
  function WeighingUpdate(db: Db, data: Val, recordId: Val, caller: Val, now: int): (s: Step)
    ensures IsNullish(data) ==> s == Step(db, Threw(TypeError))
    ensures !IsNullish(data) ==>
      && s.outcome == Returned(Affected(Update, WeighingTable,
           Count(db.weighings, (w: Weighing) => WeighingTarget(db.animals, w, recordId, caller))))
      && s.db == db.(weighings := s.db.weighings)
      && |s.db.weighings| == |db.weighings|
      && forall i :: 0 <= i < |db.weighings| ==>
           if WeighingTarget(db.animals, db.weighings[i], recordId, caller)
           then s.db.weighings[i] == db.weighings[i].(attrs := UpdatedWeighingAttrs(db.weighings[i].attrs, data), updatedAt := now)
           else s.db.weighings[i] == db.weighings[i]
  {
    if IsNullish(data) then Step(db, Threw(TypeError))
    else
      var target := (w: Weighing) => WeighingTarget(db.animals, w, recordId, caller);
      Step(db.(weighings := UpdateWhere(db.weighings, target,
                 (w: Weighing) => w.(attrs := UpdatedWeighingAttrs(w.attrs, data), updatedAt := now))),
           Returned(Affected(Update, WeighingTable, Count(db.weighings, target))))
  }

  function SyncWeighing(db: Db, action: Val, data: Val, recordId: Val, caller: Val, now: int): Step {
    if action == Str("INSERT") then WeighingInsert(db, data, recordId, caller, now)
    else if action == Str("UPDATE") then WeighingUpdate(db, data, recordId, caller, now)
    else Step(db, FellThrough)
  }

  // ---------------------------------------------------------------------------
  // historico_vacuna

  /** Column values a vaccination INSERT or UPDATE writes; dose and notes become NULL when falsy. */
  function VaccinationAttrsFrom(data: Val): (v: VaccinationAttrs)
    ensures v.fechaVacuna == Bound(Member(data, "fecha_vacuna"))
    ensures v.tipoVacunaId == Bound(Member(data, "tipo_vacunas_id_tipo_vacuna"))
    ensures v.nombreVacunaId == Bound(Member(data, "nombre_vacunas_id_vacuna"))
    ensures NullWhenFalsy(v.dosis, Member(data, "dosis_administrada"))
    ensures NullWhenFalsy(v.observaciones, Member(data, "observaciones"))
  {
    VaccinationAttrs(
      fechaVacuna := Bound(Member(data, "fecha_vacuna")),
      tipoVacunaId := Bound(Member(data, "tipo_vacunas_id_tipo_vacuna")),
      nombreVacunaId := Bound(Member(data, "nombre_vacunas_id_vacuna")),
      dosis := OrNull(Member(data, "dosis_administrada")),
      observaciones := OrNull(Member(data, "observaciones")))
  }

  function VaccinationInsert(db: Db, data: Val, recordId: Val, caller: Val, now: int): (s: Step)
    ensures IsNullish(data) ==> s == Step(db, Threw(TypeError))
    ensures !IsNullish(data) && !ParentOwned(db.animals, Member(data, "registro_animal_id"), caller) ==>
      s == Step(db, Returned(Rejected(Insert, VaccinationTable, NotOwned, None)))
    ensures !IsNullish(data) && ParentOwned(db.animals, Member(data, "registro_animal_id"), caller) ==>
      && s.outcome == Returned(Inserted(VaccinationTable, db.nextVaccinationId, recordId))
      && s.db == db.(vaccinations := s.db.vaccinations, nextVaccinationId := db.nextVaccinationId + 1)
      && |s.db.vaccinations| == |db.vaccinations| + 1
      && s.db.vaccinations[..|db.vaccinations|] == db.vaccinations
      && var row := s.db.vaccinations[|db.vaccinations|];
         && row.id == db.nextVaccinationId && row.animalId == Member(data, "registro_animal_id")
         && row.updatedAt == now && row.attrs == VaccinationAttrsFrom(data)
  {
    if IsNullish(data) then Step(db, Threw(TypeError))
    else
      var parent := Member(data, "registro_animal_id");
      if !ParentOwned(db.animals, parent, caller) then
        Step(db, Returned(Rejected(Insert, VaccinationTable, NotOwned, None)))
      else
        var row := Vaccination(db.nextVaccinationId, parent, now, now, VaccinationAttrsFrom(data));
        assert (db.vaccinations + [row])[..|db.vaccinations|] == db.vaccinations;
        Step(db.(vaccinations := db.vaccinations + [row], nextVaccinationId := db.nextVaccinationId + 1),
             Returned(Inserted(VaccinationTable, db.nextVaccinationId, recordId)))
  }

  predicate VaccinationTarget(animals: seq<Animal>, v: Vaccination, recordId: Val, caller: Val) {
    IdIs(v.id, recordId) && ParentOwned(animals, v.animalId, caller)
  }

  function VaccinationUpdate(db: Db, data: Val, recordId: Val, caller: Val, now: int): (s: Step)
    ensures IsNullish(data) ==> s == Step(db, Threw(TypeError))
    ensures !IsNullish(data) ==>
      && s.outcome == Returned(Affected(Update, VaccinationTable,
           Count(db.vaccinations, (v: Vaccination) => VaccinationTarget(db.animals, v, recordId, caller))))
      && s.db == db.(vaccinations := s.db.vaccinations)
      && |s.db.vaccinations| == |db.vaccinations|
      && forall i :: 0 <= i < |db.vaccinations| ==>
           if VaccinationTarget(db.animals, db.vaccinations[i], recordId, caller)
           then s.db.vaccinations[i] == db.vaccinations[i].(attrs := VaccinationAttrsFrom(data), updatedAt := now)
           else s.db.vaccinations[i] == db.vaccinations[i]
  {
    if IsNullish(data) then Step(db, Threw(TypeError))
    else
      var target := (v: Vaccination) => VaccinationTarget(db.animals, v, recordId, caller);
      Step(db.(vaccinations := UpdateWhere(db.vaccinations, target,
                 (v: Vaccination) => v.(attrs := VaccinationAttrsFrom(data), updatedAt := now))),
           Returned(Affected(Update, VaccinationTable, Count(db.vaccinations, target))))
  }

  function SyncVaccination(db: Db, action: Val, data: Val, recordId: Val, caller: Val, now: int): Step {
    if action == Str("INSERT") then VaccinationInsert(db, data, recordId, caller, now)
    else if action == Str("UPDATE") then VaccinationUpdate(db, data, recordId, caller, now)
    else Step(db, FellThrough)
  }

  // ---------------------------------------------------------------------------
  // Router

  /** The table an operation's `table` tag names, if it names one of the three. */
  function TableOf(tag: Val): (t: Option<Table>)
    ensures t.Some? <==> tag in {Str("registro_animal"), Str("historico_pesaje"), Str("historico_vacuna")}
    ensures t.Some? ==> tag == Str(t.value.Name())
  {
    if tag == Str("registro_animal") then Some(AnimalTable)
    else if tag == Str("historico_pesaje") then Some(WeighingTable)
    else if tag == Str("historico_vacuna") then Some(VaccinationTable)
    else None
  }

  /** Reads `{table, action, data, recordId}` off the operation and dispatches on `table`. */
  function ProcessOperation(db: Db, op: Val, caller: Val, now: int): (s: Step)
    ensures IsNullish(op) ==> s == Step(db, Threw(TypeError))
    ensures !IsNullish(op) && TableOf(Member(op, "table")).None? ==>
      s == Step(db, Threw(UnsupportedTable(Member(op, "table"))))
    ensures !IsNullish(op) && TableOf(Member(op, "table")) == Some(AnimalTable) ==>
      s == SyncAnimal(db, Member(op, "action"), Member(op, "data"), Member(op, "recordId"), caller, now)
    ensures !IsNullish(op) && TableOf(Member(op, "table")) == Some(WeighingTable) ==>
      s == SyncWeighing(db, Member(op, "action"), Member(op, "data"), Member(op, "recordId"), caller, now)
    ensures !IsNullish(op) && TableOf(Member(op, "table")) == Some(VaccinationTable) ==>
      s == SyncVaccination(db, Member(op, "action"), Member(op, "data"), Member(op, "recordId"), caller, now)
    ensures s.outcome.Returned? && s.outcome.result.Rejected? ==> s.db == db
    ensures s.outcome.Threw? || s.outcome.FellThrough? ==> s.db == db
    ensures s.outcome.Returned? ==> !s.outcome.result.Faulted?
    ensures s.outcome.Returned? ==> Some(s.outcome.result.table) == TableOf(Member(op, "table"))
  {
    if IsNullish(op) then Step(db, Threw(TypeError))
    else
      var table := Member(op, "table");
      var action := Member(op, "action");
      var data := Member(op, "data");
      var recordId := Member(op, "recordId");
      match TableOf(table)
      case Some(AnimalTable) => SyncAnimal(db, action, data, recordId, caller, now)
      case Some(WeighingTable) => SyncWeighing(db, action, data, recordId, caller, now)
      case Some(VaccinationTable) => SyncVaccination(db, action, data, recordId, caller, now)
      case None => Step(db, Threw(UnsupportedTable(table)))
  }

  /** Only an action outside INSERT/UPDATE/DELETE (child tables: outside INSERT/UPDATE) yields `undefined`. */
  lemma FallsThroughExactly(db: Db, op: Val, caller: Val, now: int)
    requires !IsNullish(op) && TableOf(Member(op, "table")).Some?
    ensures ProcessOperation(db, op, caller, now).outcome.FellThrough? <==>
      var action := Member(op, "action");
      if TableOf(Member(op, "table")) == Some(AnimalTable)
      then action !in {Str("INSERT"), Str("UPDATE"), Str("DELETE")}
      else action !in {Str("INSERT"), Str("UPDATE")}
  {
  }
}

=== FILE: sync_frame.dfy ===
/**
 * What a single synchronization operation may and may not change: it keeps
 * the auto-increment and chip-uniqueness invariants, it never removes a row
 * or re-keys one, and it touches only rows the caller owns (directly, or
 * through the parent animal for weighings and vaccinations).
 */
module SyncFrame {
  import opened Js
  import opened Store
  import opened SyncEngine

  /**
   * `next` grows `prev`: no table shrinks, and the id, chip and owner of every
   * existing animal, and the parent link of every existing child row, are kept.
   */
  ghost predicate Extends(prev: Db, next: Db) {
    && |prev.animals| <= |next.animals|
    && |prev.weighings| <= |next.weighings|
    && |prev.vaccinations| <= |next.vaccinations|
    && (forall i :: 0 <= i < |prev.animals| ==>
          && next.animals[i].id == prev.animals[i].id
          && next.animals[i].chip == prev.animals[i].chip
          && next.animals[i].owner == prev.animals[i].owner)
    && (forall i :: 0 <= i < |prev.weighings| ==> next.weighings[i].animalId == prev.weighings[i].animalId)
    && (forall i :: 0 <= i < |prev.vaccinations| ==> next.vaccinations[i].animalId == prev.vaccinations[i].animalId)
  }

  /**
   * Ownership isolation between `prev` and `next` for `caller`: rows of other
   * users are unchanged, and every new row belongs to the caller.
   */
  ghost predicate ForeignRowsKept(prev: Db, next: Db, caller: Val)
    requires Extends(prev, next)
  {
    && (forall i :: 0 <= i < |prev.animals| && !OwnedBy(prev.animals[i], caller) ==>
          next.animals[i] == prev.animals[i])
    && (forall i :: 0 <= i < |prev.weighings| && !ParentOwned(next.animals, prev.weighings[i].animalId, caller) ==>
          next.weighings[i] == prev.weighings[i])
    && (forall i :: 0 <= i < |prev.vaccinations| && !ParentOwned(next.animals, prev.vaccinations[i].animalId, caller) ==>
          next.vaccinations[i] == prev.vaccinations[i])
    && (forall i :: |prev.animals| <= i < |next.animals| ==> next.animals[i].owner == caller)
    && (forall i :: |prev.weighings| <= i < |next.weighings| ==>
          ParentOwned(next.animals, next.weighings[i].animalId, caller))
    && (forall i :: |prev.vaccinations| <= i < |next.vaccinations| ==>
          ParentOwned(next.animals, next.vaccinations[i].animalId, caller))
  }

  lemma ParentOwnedMonotone(prev: Db, next: Db, parent: Val, caller: Val)
    requires Extends(prev, next)
    requires ParentOwned(prev.animals, parent, caller)
    ensures ParentOwned(next.animals, parent, caller)
  {
    var i :| 0 <= i < |prev.animals| && IdIs(prev.animals[i].id, parent) && OwnedBy(prev.animals[i], caller);
    assert IdIs(next.animals[i].id, parent) && OwnedBy(next.animals[i], caller);
  }

  lemma ExtendsTransitive(a: Db, b: Db, c: Db)
    requires Extends(a, b) && Extends(b, c)
    ensures Extends(a, c)
  {
  }

  lemma {:induction false} ForeignRowsKeptTransitive(a: Db, b: Db, c: Db, caller: Val)
    requires Extends(a, b) && Extends(b, c)
    requires ForeignRowsKept(a, b, caller) && ForeignRowsKept(b, c, caller)
    ensures ForeignRowsKept(a, c, caller)
  {
    forall i | 0 <= i < |a.weighings| && !ParentOwned(c.animals, a.weighings[i].animalId, caller)
      ensures c.weighings[i] == a.weighings[i]
    {
      if ParentOwned(b.animals, a.weighings[i].animalId, caller) {
        ParentOwnedMonotone(b, c, a.weighings[i].animalId, caller);
      }
    }
    forall i | 0 <= i < |a.vaccinations| && !ParentOwned(c.animals, a.vaccinations[i].animalId, caller)
      ensures c.vaccinations[i] == a.vaccinations[i]
    {
      if ParentOwned(b.animals, a.vaccinations[i].animalId, caller) {
        ParentOwnedMonotone(b, c, a.vaccinations[i].animalId, caller);
      }
    }
    forall i | |a.weighings| <= i < |c.weighings|
      ensures ParentOwned(c.animals, c.weighings[i].animalId, caller)
    {
      if i < |b.weighings| {
        ParentOwnedMonotone(b, c, b.weighings[i].animalId, caller);
      }
    }
    forall i | |a.vaccinations| <= i < |c.vaccinations|
      ensures ParentOwned(c.animals, c.vaccinations[i].animalId, caller)
    {
      if i < |b.vaccinations| {
        ParentOwnedMonotone(b, c, b.vaccinations[i].animalId, caller);
      }
    }
  }

  /** Everything a single operation is allowed to do to the store. */
  ghost predicate SafeStep(prev: Db, next: Db, caller: Val) {
    && Extends(prev, next)
    && ForeignRowsKept(prev, next, caller)
    && (Wf(prev) ==> Wf(next))
    && (ChipsUnique(prev.animals) ==> ChipsUnique(next.animals))
  }

  lemma {:induction false} AnimalInsertSafe(db: Db, data: Val, recordId: Val, caller: Val, now: int)
    ensures SafeStep(db, AnimalInsert(db, data, recordId, caller, now).db, caller)
  {
    var s := AnimalInsert(db, data, recordId, caller, now);
    if s.db != db {
      var chip := Member(data, "chip_animal");
      assert !ChipTaken(db.animals, chip);
      assert forall i :: 0 <= i < |db.animals| ==> s.db.animals[i] == db.animals[i];
      if ChipsUnique(db.animals) {
        forall i, j | 0 <= i < j < |s.db.animals|
          ensures !SqlEq(s.db.animals[i].chip, s.db.animals[j].chip)
        {
          if j == |db.animals| {
            assert s.db.animals[j].chip == Bound(chip);
          }
        }
      }
    }
  }

  /** Rewriting rows in place while keeping their keys is a safe step for the owner of the rewritten rows. */
  lemma {:induction false} RewriteSafe(db: Db, next: Db, caller: Val)
    requires |next.animals| == |db.animals| && |next.weighings| == |db.weighings|
    requires |next.vaccinations| == |db.vaccinations|
    requires next.nextAnimalId == db.nextAnimalId && next.nextWeighingId == db.nextWeighingId
    requires next.nextVaccinationId == db.nextVaccinationId
    requires forall i :: 0 <= i < |db.animals| ==>
      && next.animals[i].id == db.animals[i].id
      && next.animals[i].chip == db.animals[i].chip
      && next.animals[i].owner == db.animals[i].owner
      && (!OwnedBy(db.animals[i], caller) ==> next.animals[i] == db.animals[i])
    requires forall i :: 0 <= i < |db.weighings| ==>
      && next.weighings[i].id == db.weighings[i].id
      && next.weighings[i].animalId == db.weighings[i].animalId
      && (!ParentOwned(db.animals, db.weighings[i].animalId, caller) ==> next.weighings[i] == db.weighings[i])
    requires forall i :: 0 <= i < |db.vaccinations| ==>
      && next.vaccinations[i].id == db.vaccinations[i].id
      && next.vaccinations[i].animalId == db.vaccinations[i].animalId
      && (!ParentOwned(db.animals, db.vaccinations[i].animalId, caller) ==> next.vaccinations[i] == db.vaccinations[i])
    ensures SafeStep(db, next, caller)
  {
    assert Extends(db, next);
    forall parent
      ensures ParentOwned(next.animals, parent, caller) ==> ParentOwned(db.animals, parent, caller)
    {
      if ParentOwned(next.animals, parent, caller) {
        var i :| 0 <= i < |next.animals| && IdIs(next.animals[i].id, parent) && OwnedBy(next.animals[i], caller);
        assert IdIs(db.animals[i].id, parent) && OwnedBy(db.animals[i], caller);
      }
    }
  }

  lemma AnimalUpdateSafe(db: Db, data: Val, caller: Val, now: int)
    ensures SafeStep(db, AnimalUpdate(db, data, caller, now).db, caller)
  {
    var s := AnimalUpdate(db, data, caller, now);
    if !IsNullish(data) {
      var chip := Member(data, "chip_animal");
      assert forall i :: 0 <= i < |db.animals| && !UpdateTarget(db.animals[i], chip, caller) ==>
        s.db.animals[i] == db.animals[i];
      RewriteSafe(db, s.db, caller);
    }
  }

  lemma AnimalDeleteSafe(db: Db, recordId: Val, caller: Val, now: int)
    ensures SafeStep(db, AnimalDelete(db, recordId, caller, now).db, caller)
  {
    RewriteSafe(db, AnimalDelete(db, recordId, caller, now).db, caller);
  }

  lemma WeighingInsertSafe(db: Db, data: Val, recordId: Val, caller: Val, now: int)
    ensures SafeStep(db, WeighingInsert(db, data, recordId, caller, now).db, caller)
  {
    var s := WeighingInsert(db, data, recordId, caller, now);
    if s.db != db {
      assert forall i :: 0 <= i < |db.weighings| ==> s.db.weighings[i] == db.weighings[i];
    }
  }

  lemma WeighingUpdateSafe(db: Db, data: Val, recordId: Val, caller: Val, now: int)
    ensures SafeStep(db, WeighingUpdate(db, data, recordId, caller, now).db, caller)
  {
    RewriteSafe(db, WeighingUpdate(db, data, recordId, caller, now).db, caller);
  }

  lemma VaccinationInsertSafe(db: Db, data: Val, recordId: Val, caller: Val, now: int)
    ensures SafeStep(db, VaccinationInsert(db, data, recordId, caller, now).db, caller)
  {
    var s := VaccinationInsert(db, data, recordId, caller, now);
    if s.db != db {
      assert forall i :: 0 <= i < |db.vaccinations| ==> s.db.vaccinations[i] == db.vaccinations[i];
    }
  }

  lemma VaccinationUpdateSafe(db: Db, data: Val, recordId: Val, caller: Val, now: int)
    ensures SafeStep(db, VaccinationUpdate(db, data, recordId, caller, now).db, caller)
  {
    RewriteSafe(db, VaccinationUpdate(db, data, recordId, caller, now).db, caller);
  }

  /**
   * One operation of any kind keeps the invariants, re-keys and removes
   * nothing, and touches only the caller's rows.
   */
  lemma {:induction false} StepIsSafe(db: Db, op: Val, caller: Val, now: int)
    ensures SafeStep(db, ProcessOperation(db, op, caller, now).db, caller)
  {
    var s := ProcessOperation(db, op, caller, now);
    if IsNullish(op) || TableOf(Member(op, "table")).None? {
      assert s.db == db;
    } else {
      var action := Member(op, "action");
      var data := Member(op, "data");
      var recordId := Member(op, "recordId");
      var insert, update, delete := action == Str("INSERT"), action == Str("UPDATE"), action == Str("DELETE");
      match TableOf(Member(op, "table")).value
      case AnimalTable =>
        if insert {
          assert s == AnimalInsert(db, data, recordId, caller, now);
          AnimalInsertSafe(db, data, recordId, caller, now);
        } else if update {
          assert s == AnimalUpdate(db, data, caller, now);
          AnimalUpdateSafe(db, data, caller, now);
        } else if delete {
          assert s == AnimalDelete(db, recordId, caller, now);
          AnimalDeleteSafe(db, recordId, caller, now);
        } else {
          assert s.db == db;
        }
      case WeighingTable =>
        if insert {
          assert s == WeighingInsert(db, data, recordId, caller, now);
          WeighingInsertSafe(db, data, recordId, caller, now);
        } else if update {
          assert s == WeighingUpdate(db, data, recordId, caller, now);
          WeighingUpdateSafe(db, data, recordId, caller, now);
        } else {
          assert s.db == db;
        }
      case VaccinationTable =>
        if insert {
          assert s == VaccinationInsert(db, data, recordId, caller, now);
          VaccinationInsertSafe(db, data, recordId, caller, now);
        } else if update {
          assert s == VaccinationUpdate(db, data, recordId, caller, now);
          VaccinationUpdateSafe(db, data, recordId, caller, now);
        } else {
          assert s.db == db;
        }
    }
  }
}

=== FILE: sync_properties.dfy ===
/**
 * Properties of whole synchronization requests that involve more than one
 * operation: the natural-key (chip) idempotency of animal INSERT, within a
 * batch and across a replayed batch, and the visibility of an earlier
 * operation's write to a later operation of the same batch.
 */
module SyncProperties {
  import opened Js
  import opened Store
  import opened SyncEngine
  import opened SyncBatch

  /** An operation object as the client's outbox submits it. */
  function Operation(table: string, action: string, data: Val, recordId: Val): Val {
    Obj(map["table" := Str(table), "action" := Str(action), "data" := data, "recordId" := recordId])
  }

  /** A request body carrying the operation list. */
  function Request(ops: seq<Val>): Val {
    Obj(map["operations" := Arr(ops)])
  }

  /** A new animal payload whose chip is set and not yet known to the server. */
  predicate FreshChipPayload(db: Db, data: Val) {
    !IsNullish(data) && !IsNullish(Member(data, "chip_animal"))
    && !ChipTaken(db.animals, Member(data, "chip_animal"))
  }

  /**
   * The second INSERT of a chip, from any caller, is rejected with the id the
   * first INSERT assigned, and writes nothing.
   */
  lemma {:induction false} SecondInsertRejected(db: Db, data: Val, rid: Val, caller: Val, t1: int,
                                                data2: Val, rid2: Val, caller2: Val, t2: int)
    requires FreshChipPayload(db, data)
    requires !IsNullish(data2) && Member(data2, "chip_animal") == Member(data, "chip_animal")
    ensures var s1 := AnimalInsert(db, data, rid, caller, t1);
      var s2 := AnimalInsert(s1.db, data2, rid2, caller2, t2);
      && s1.outcome == Returned(Inserted(AnimalTable, db.nextAnimalId, rid))
      && s2.db == s1.db
      && s2.outcome == Returned(Rejected(Insert, AnimalTable, ChipExists, Some(db.nextAnimalId)))
  {
    var chip := Member(data, "chip_animal");
    var s1 := AnimalInsert(db, data, rid, caller, t1);
    var row := s1.db.animals[|db.animals|];
    assert s1.db.animals == db.animals + [row];
    FindFirstAppend(db.animals, row, (a: Animal) => SqlEq(a.chip, chip));
  }

  /** An operation on `registro_animal` is routed to the animal reconciler with its own fields. */
  lemma AnimalOperationRouted(db: Db, action: string, data: Val, rid: Val, caller: Val, now: int)
    ensures ProcessOperation(db, Operation("registro_animal", action, data, rid), caller, now)
         == SyncAnimal(db, Str(action), data, rid, caller, now)
  {
    var op := Operation("registro_animal", action, data, rid);
    assert Member(op, "table") == Str("registro_animal") && Member(op, "action") == Str(action);
    assert Member(op, "data") == data && Member(op, "recordId") == rid;
  }

  /** A well-formed request whose every slot is defined is answered with exactly those results. */
  lemma BatchOfDefinedSlots(db: Db, caller: Val, ops: seq<Val>, clock: nat -> int, results: seq<SyncResult>)
    requires Truthy(caller)
    requires |RunOps(db, ops, caller, clock).slots| == |results|
    requires forall i :: 0 <= i < |results| ==> RunOps(db, ops, caller, clock).slots[i] == Some(results[i])
    ensures Batch(db, caller, Request(ops), clock) ==
      BatchOutcome(RunOps(db, ops, caller, clock).db, Synced(results, Count(results, Succeeded), Count(results, Failed)))
  {
    assert Member(Request(ops), "operations") == Arr(ops);
    var run := RunOps(db, ops, caller, clock);
    assert AllDefined(run.slots);
    assert Unwrap(run.slots) == results;
  }

  /** A batch of one operation runs that operation against the initial store. */
  lemma SingletonRun(db: Db, op: Val, caller: Val, clock: nat -> int)
    ensures RunOps(db, [op], caller, clock) ==
      var s := ProcessOperation(db, op, caller, clock(0));
      Run(s.db, [ToSlot(op, s.outcome)])
  {
    assert [op][..0] == [];
  }

  /** A batch of two operations runs the second against the store the first left. */
  lemma PairRun(db: Db, op1: Val, op2: Val, caller: Val, clock: nat -> int)
    ensures RunOps(db, [op1, op2], caller, clock) ==
      var s1 := ProcessOperation(db, op1, caller, clock(0));
      var s2 := ProcessOperation(s1.db, op2, caller, clock(1));
      Run(s2.db, [ToSlot(op1, s1.outcome), ToSlot(op2, s2.outcome)])
  {
    assert [op1, op2][..1] == [op1];
    SingletonRun(db, op1, caller, clock);
  }

  /** A batch holding one INSERT of a fresh chip inserts it and reports one success. */
  lemma {:induction false} InsertBatchAccepted(db: Db, caller: Val, data: Val, rid: Val, clock: nat -> int)
    requires Truthy(caller) && FreshChipPayload(db, data)
    ensures Batch(db, caller, Request([Operation("registro_animal", "INSERT", data, rid)]), clock) ==
      BatchOutcome(AnimalInsert(db, data, rid, caller, clock(0)).db,
                   Synced([Inserted(AnimalTable, db.nextAnimalId, rid)], 1, 0))
  {
    var op := Operation("registro_animal", "INSERT", data, rid);
    var s1 := AnimalInsert(db, data, rid, caller, clock(0));
    var r1 := [Inserted(AnimalTable, db.nextAnimalId, rid)];
    assert RunOps(db, [op], caller, clock) == Run(s1.db, [Some(r1[0])]) by {
      AnimalOperationRouted(db, "INSERT", data, rid, caller, clock(0));
      SingletonRun(db, op, caller, clock);
    }
    assert Count(r1, Succeeded) == 1 && Count(r1, Failed) == 0 by {
      assert r1[1..] == [];
    }
    BatchOfDefinedSlots(db, caller, [op], clock, r1);
  }

  /** The same batch sent again, after the first one committed, is answered with one failure and writes nothing. */
  lemma {:induction false} InsertBatchReplayed(db: Db, caller: Val, data: Val, rid: Val,
                                              clock: nat -> int, clock2: nat -> int)
    requires Truthy(caller) && FreshChipPayload(db, data)
    ensures var s1 := AnimalInsert(db, data, rid, caller, clock(0)).db;
      Batch(s1, caller, Request([Operation("registro_animal", "INSERT", data, rid)]), clock2) ==
      BatchOutcome(s1, Synced([Rejected(Insert, AnimalTable, ChipExists, Some(db.nextAnimalId))], 0, 1))
  {
    var op := Operation("registro_animal", "INSERT", data, rid);
    var s1 := AnimalInsert(db, data, rid, caller, clock(0));
    var r2 := [Rejected(Insert, AnimalTable, ChipExists, Some(db.nextAnimalId))];
    assert RunOps(s1.db, [op], caller, clock2) == Run(s1.db, [Some(r2[0])]) by {
      AnimalOperationRouted(s1.db, "INSERT", data, rid, caller, clock2(0));
      SecondInsertRejected(db, data, rid, caller, clock(0), data, rid, caller, clock2(0));
      SingletonRun(s1.db, op, caller, clock2);
    }
    assert Count(r2, Succeeded) == 0 && Count(r2, Failed) == 1 by {
      assert r2[1..] == [];
    }
    BatchOfDefinedSlots(s1.db, caller, [op], clock2, r2);
  }

  /**
   * Replaying a batch that inserted an animal (the client retrying after a
   * lost response) inserts nothing: the replay is answered with a failure
   * carrying the server id of the row the first attempt created.
   */
  lemma {:induction false} ReplayedInsertIsIdempotent(db: Db, caller: Val, data: Val, rid: Val,
                                                     clock: nat -> int, clock2: nat -> int)
    requires Truthy(caller) && FreshChipPayload(db, data)
    ensures var req := Request([Operation("registro_animal", "INSERT", data, rid)]);
      var first := Batch(db, caller, req, clock);
      var second := Batch(first.db, caller, req, clock2);
      && first.reply == Synced([Inserted(AnimalTable, db.nextAnimalId, rid)], 1, 0)
      && second.db == first.db
      && second.reply == Synced([Rejected(Insert, AnimalTable, ChipExists, Some(db.nextAnimalId))], 0, 1)
      && |second.db.animals| == |db.animals| + 1
  {
    InsertBatchAccepted(db, caller, data, rid, clock);
    InsertBatchReplayed(db, caller, data, rid, clock, clock2);
  }

  /** An UPDATE by the chip of a just-inserted animal selects exactly that row. */
  lemma {:induction false} UpdateSeesInsertedRow(db: Db, caller: Val, data: Val, rid: Val, t1: int,
                                                 update: Val, t2: int)
    requires Truthy(caller) && FreshChipPayload(db, data)
    requires !IsNullish(update) && Member(update, "chip_animal") == Member(data, "chip_animal")
    ensures var s1 := AnimalInsert(db, data, rid, caller, t1);
      var s2 := AnimalUpdate(s1.db, update, caller, t2);
      && s2.outcome == Returned(Affected(Update, AnimalTable, 1))
      && |s2.db.animals| == |db.animals| + 1
      && s2.db.animals[|db.animals|].attrs == UpdatedAnimalAttrs(NewAnimalAttrs(data), update)
  {
    var chip := Member(data, "chip_animal");
    var s1 := AnimalInsert(db, data, rid, caller, t1);
    var row := s1.db.animals[|db.animals|];
    assert s1.db.animals == db.animals + [row];
    var target := (a: Animal) => UpdateTarget(a, chip, caller);
    assert Count(db.animals, target) == 0;
    assert target(row);
    CountAppend(db.animals, row, target);
  }

  /**
   * Within one batch, an UPDATE sees the row an earlier INSERT of the same
   * batch created: the update selects exactly that one row.
   */
  lemma {:induction false} InsertThenUpdateInOneBatch(db: Db, caller: Val, data: Val, rid: Val,
                                                      update: Val, clock: nat -> int)
    requires Truthy(caller) && FreshChipPayload(db, data)
    requires !IsNullish(update) && Member(update, "chip_animal") == Member(data, "chip_animal")
    ensures var req := Request([Operation("registro_animal", "INSERT", data, rid),
                                Operation("registro_animal", "UPDATE", update, rid)]);
      var out := Batch(db, caller, req, clock);
      && out.reply.Synced?
      && out.reply.results == [Inserted(AnimalTable, db.nextAnimalId, rid), Affected(Update, AnimalTable, 1)]
      && |out.db.animals| == |db.animals| + 1
      && out.db.animals[|db.animals|].attrs == UpdatedAnimalAttrs(NewAnimalAttrs(data), update)
  {
    var ins := Operation("registro_animal", "INSERT", data, rid);
    var upd := Operation("registro_animal", "UPDATE", update, rid);
    var s1 := AnimalInsert(db, data, rid, caller, clock(0));
    var s2 := AnimalUpdate(s1.db, update, caller, clock(1));
    var results := [Inserted(AnimalTable, db.nextAnimalId, rid), Affected(Update, AnimalTable, 1)];
    var run := RunOps(db, [ins, upd], caller, clock);
    assert run == Run(s2.db, [Some(results[0]), Some(results[1])]) by {
      AnimalOperationRouted(db, "INSERT", data, rid, caller, clock(0));
      AnimalOperationRouted(s1.db, "UPDATE", update, rid, caller, clock(1));
      UpdateSeesInsertedRow(db, caller, data, rid, clock(0), update, clock(1));
      PairRun(db, ins, upd, caller, clock);
    }
    assert |s2.db.animals| == |db.animals| + 1
      && s2.db.animals[|db.animals|].attrs == UpdatedAnimalAttrs(NewAnimalAttrs(data), update) by {
      UpdateSeesInsertedRow(db, caller, data, rid, clock(0), update, clock(1));
    }
    BatchOfDefinedSlots(db, caller, [ins, upd], clock, results);
  }
}

=== FILE: sync_pull.dfy ===
/**
 * The three pull endpoints of the synchronization API. Each returns the
 * caller's rows of one table, restricted to rows changed after the client's
 * watermark when one is given, in ascending `updated_at` order.
 *
 * `since` is the watermark already on the store's clock scale: `None` when
 * the query parameter is absent or empty (the handlers test it for
 * truthiness), `Some(t)` otherwise.
 */
module SyncPull {
  import opened Js
  import opened Store
  import opened SyncEngine

  // ---------------------------------------------------------------------------
  // ORDER BY ... ASC

  predicate SortedBy<T>(s: seq<T>, key: T -> int) {
    forall i, j :: 0 <= i < j < |s| ==> key(s[i]) <= key(s[j])
  }

  /** Inserts `x` into an ascending sequence, before the first element with a larger-or-equal key. */
  function InsertByKey<T(==)>(x: T, s: seq<T>, key: T -> int): (r: seq<T>)
    requires SortedBy(s, key)
    ensures multiset(r) == multiset(s) + multiset{x}
    ensures SortedBy(r, key)
    ensures key(r[0]) == key(x) || (|s| > 0 && key(r[0]) == key(s[0]))
  {
    if |s| == 0 then [x]
    else if key(x) <= key(s[0]) then [x] + s
    else
      var rest := InsertByKey(x, s[1..], key);
      assert s == [s[0]] + s[1..];
      [s[0]] + rest
  }

  /** A stable ascending sort by `key`. */
  function SortByKey<T(==)>(s: seq<T>, key: T -> int): (r: seq<T>)
    ensures multiset(r) == multiset(s)
    ensures SortedBy(r, key)
  {
    if |s| == 0 then []
    else
      assert s == [s[0]] + s[1..];
      InsertByKey(s[0], SortByKey(s[1..], key), key)
  }

  lemma SortKeepsMembers<T>(s: seq<T>, key: T -> int, x: T)
    ensures x in SortByKey(s, key) <==> x in s
  {
    var r := SortByKey(s, key);
    assert x in r <==> x in multiset(r);
    assert x in s <==> x in multiset(s);
  }

  function AnimalStamp(a: Animal): int { a.updatedAt }
  function WeighingStamp(w: Weighing): int { w.updatedAt }
  function VaccinationStamp(v: Vaccination): int { v.updatedAt }

  // ---------------------------------------------------------------------------
  // Filters

  /** `updated_at > since` when a watermark is given. */
  predicate ChangedAfter(stamp: int, since: Option<int>) {
    since.None? || stamp > since.value
  }

  predicate AnimalPulled(a: Animal, caller: Val, since: Option<int>) {
    OwnedBy(a, caller) && a.estado == 1 && ChangedAfter(a.updatedAt, since)
  }

  /** A weighing joins an animal of the caller; the animal's `estado` is not consulted. */
  predicate WeighingPulled(animals: seq<Animal>, w: Weighing, caller: Val, since: Option<int>) {
    ParentOwned(animals, w.animalId, caller) && ChangedAfter(w.updatedAt, since)
  }

  predicate VaccinationPulled(animals: seq<Animal>, v: Vaccination, caller: Val, since: Option<int>) {
    ParentOwned(animals, v.animalId, caller) && ChangedAfter(v.updatedAt, since)
  }

  /** A pull response: 401 without a caller id, otherwise the records and their count. */
  datatype Pulled<T> = Unauthenticated | Records(rows: seq<T>, count: nat)

  /** `GET /sync/registro_animal`. */
  function PullAnimals(db: Db, caller: Val, since: Option<int>): (r: Pulled<Animal>)
    ensures r.Unauthenticated? <==> !Truthy(caller)
    ensures r.Records? ==> r.count == |r.rows|
    ensures r.Records? ==> SortedBy(r.rows, AnimalStamp)
    ensures r.Records? ==> forall a :: a in r.rows <==> a in db.animals && AnimalPulled(a, caller, since)
    ensures r.Records? ==>
      multiset(r.rows) == multiset(Filter(db.animals, (a: Animal) => AnimalPulled(a, caller, since)))
  {
    if !Truthy(caller) then Unauthenticated
    else
      var filtered := Filter(db.animals, (a: Animal) => AnimalPulled(a, caller, since));
      var rows := SortByKey(filtered, AnimalStamp);
      assert forall a :: a in rows <==> a in filtered by {
        forall a ensures a in rows <==> a in filtered { SortKeepsMembers(filtered, AnimalStamp, a); }
      }
      Records(rows, |rows|)
  }

  /** `GET /sync/historico_pesaje`. */
  function PullWeighings(db: Db, caller: Val, since: Option<int>): (r: Pulled<Weighing>)
    ensures r.Unauthenticated? <==> !Truthy(caller)
    ensures r.Records? ==> r.count == |r.rows|
    ensures r.Records? ==> SortedBy(r.rows, WeighingStamp)
    ensures r.Records? ==>
      forall w :: w in r.rows <==> w in db.weighings && WeighingPulled(db.animals, w, caller, since)
    ensures r.Records? ==>
      multiset(r.rows) == multiset(Filter(db.weighings, (w: Weighing) => WeighingPulled(db.animals, w, caller, since)))
  {
    if !Truthy(caller) then Unauthenticated
    else
      var filtered := Filter(db.weighings, (w: Weighing) => WeighingPulled(db.animals, w, caller, since));
      var rows := SortByKey(filtered, WeighingStamp);
      assert forall w :: w in rows <==> w in filtered by {
        forall w ensures w in rows <==> w in filtered { SortKeepsMembers(filtered, WeighingStamp, w); }
      }
      Records(rows, |rows|)
  }

  /** `GET /sync/historico_vacuna`. */
  function PullVaccinations(db: Db, caller: Val, since: Option<int>): (r: Pulled<Vaccination>)
    ensures r.Unauthenticated? <==> !Truthy(caller)
    ensures r.Records? ==> r.count == |r.rows|
    ensures r.Records? ==> SortedBy(r.rows, VaccinationStamp)
    ensures r.Records? ==>
      forall v :: v in r.rows <==> v in db.vaccinations && VaccinationPulled(db.animals, v, caller, since)
    ensures r.Records? ==>
      multiset(r.rows) == multiset(Filter(db.vaccinations, (v: Vaccination) => VaccinationPulled(db.animals, v, caller, since)))
  {
    if !Truthy(caller) then Unauthenticated
    else
      var filtered := Filter(db.vaccinations, (v: Vaccination) => VaccinationPulled(db.animals, v, caller, since));
      var rows := SortByKey(filtered, VaccinationStamp);
      assert forall v :: v in rows <==> v in filtered by {
        forall v ensures v in rows <==> v in filtered { SortKeepsMembers(filtered, VaccinationStamp, v); }
      }
      Records(rows, |rows|)
  }

  // ---------------------------------------------------------------------------
  // Properties

  lemma WatermarkFiltersAnimals(db: Db, caller: Val, t1: int, t2: int)
    requires Truthy(caller) && t1 <= t2
    ensures forall a :: a in PullAnimals(db, caller, Some(t1)).rows <==>
      a in PullAnimals(db, caller, None).rows && a.updatedAt > t1
    ensures forall a :: a in PullAnimals(db, caller, Some(t2)).rows ==> a in PullAnimals(db, caller, Some(t1)).rows
  {
  }

  lemma WatermarkFiltersWeighings(db: Db, caller: Val, t1: int)
    requires Truthy(caller)
    ensures forall w :: w in PullWeighings(db, caller, Some(t1)).rows <==>
      w in PullWeighings(db, caller, None).rows && w.updatedAt > t1
  {
  }

  lemma WatermarkFiltersVaccinations(db: Db, caller: Val, t1: int)
    requires Truthy(caller)
    ensures forall v :: v in PullVaccinations(db, caller, Some(t1)).rows <==>
      v in PullVaccinations(db, caller, None).rows && v.updatedAt > t1
  {
  }

  /**
   * The watermark is exact: a pull with `since = t` returns precisely the
   * rows of the full pull changed strictly after `t`, and for `t1 <= t2` the
   * later watermark's rows are among the earlier one's.
   */
  lemma WatermarkIsExact(db: Db, caller: Val, t1: int, t2: int)
    requires Truthy(caller) && t1 <= t2
    ensures forall a :: a in PullAnimals(db, caller, Some(t1)).rows <==>
      a in PullAnimals(db, caller, None).rows && a.updatedAt > t1
    ensures forall a :: a in PullAnimals(db, caller, Some(t2)).rows ==> a in PullAnimals(db, caller, Some(t1)).rows
    ensures forall w :: w in PullWeighings(db, caller, Some(t1)).rows <==>
      w in PullWeighings(db, caller, None).rows && w.updatedAt > t1
    ensures forall v :: v in PullVaccinations(db, caller, Some(t1)).rows <==>
      v in PullVaccinations(db, caller, None).rows && v.updatedAt > t1
  {
    WatermarkFiltersAnimals(db, caller, t1, t2);
    WatermarkFiltersWeighings(db, caller, t1);
    WatermarkFiltersVaccinations(db, caller, t1);
  }

  /** A soft-deleted animal is never pulled, whatever the watermark. */
  lemma SoftDeletedNeverPulled(db: Db, caller: Val, since: Option<int>, a: Animal)
    requires a.estado != 1
    ensures PullAnimals(db, caller, since).Records? ==> a !in PullAnimals(db, caller, since).rows
  {
  }

  /**
   * The weighings and vaccinations of a soft-deleted animal are still pulled:
   * only the owner of the parent is consulted, not its `estado`.
   */
  lemma ChildrenOfDeletedAnimalStillPulled(db: Db, caller: Val, since: Option<int>, i: nat, w: Weighing)
    requires Truthy(caller) && i < |db.animals|
    requires db.animals[i].estado == 0 && OwnedBy(db.animals[i], caller)
    requires w in db.weighings && IdIs(db.animals[i].id, w.animalId) && ChangedAfter(w.updatedAt, since)
    ensures w in PullWeighings(db, caller, since).rows
    ensures db.animals[i] !in PullAnimals(db, caller, since).rows
  {
  }

  /** No pull ever returns a row of another user. */
  lemma PullsAreOwnerScoped(db: Db, caller: Val, since: Option<int>)
    requires Truthy(caller)
    ensures forall a :: a in PullAnimals(db, caller, since).rows ==> OwnedBy(a, caller)
    ensures forall w :: w in PullWeighings(db, caller, since).rows ==> ParentOwned(db.animals, w.animalId, caller)
    ensures forall v :: v in PullVaccinations(db, caller, since).rows ==> ParentOwned(db.animals, v.animalId, caller)
  {
  }

  /**
   * Push then pull: an animal the caller's INSERT created at a time after the
   * watermark is in the caller's next pull.
   */
  lemma {:induction false} InsertedAnimalIsPulled(db: Db, data: Val, rid: Val, caller: Val, now: int, since: Option<int>)
    requires Truthy(caller) && ChangedAfter(now, since)
    requires AnimalInsert(db, data, rid, caller, now).outcome.Returned?
    requires AnimalInsert(db, data, rid, caller, now).outcome.result.Inserted?
    ensures exists a :: a in PullAnimals(AnimalInsert(db, data, rid, caller, now).db, caller, since).rows
                        && a.id == db.nextAnimalId && a.chip == Bound(Member(data, "chip_animal"))
  {
    var s := AnimalInsert(db, data, rid, caller, now);
    var row := s.db.animals[|db.animals|];
    assert row in s.db.animals;
    assert OwnedBy(row, caller);
    assert row in PullAnimals(s.db, caller, since).rows;
  }
}

=== FILE: user_model.dfy ===
/**
 * The user model: lookups by e-mail and id, creation with the duplicate
 * e-mail mapping, the partial-update field builder, and the existence test.
 */
module UserModel {
  import opened Js
  import opened Store
  import opened Http
  import opened Directory

  /** `buscarPorCorreo`: the first row whose e-mail equals `correo`, or null. */
  function BuscarPorCorreo(d: Dir, correo: Val): (r: Option<UserRow>)
    ensures r.None? <==> forall i :: 0 <= i < |d.users| ==> !SqlEq(d.users[i].correo, correo)
    ensures r.Some? ==> r.value in d.users && SqlEq(r.value.correo, correo)
  {
    var i := FindFirst(d.users, (u: UserRow) => SqlEq(u.correo, correo));
    if i.None? then None else Some(d.users[i.value])
  }

  /** `buscarPorId`: the row whose id equals `id`, or null. */
  function BuscarPorId(d: Dir, id: Val): (r: Option<UserRow>)
    ensures r.None? <==> forall i :: 0 <= i < |d.users| ==> !UserIdIs(d.users[i], id)
    ensures r.Some? ==> r.value in d.users && UserIdIs(r.value, id)
  {
    var i := FindFirst(d.users, (u: UserRow) => UserIdIs(u, id));
    if i.None? then None else Some(d.users[i.value])
  }

  /** What `crear` returns: the new row without its password. */
  datatype CreatedUser = CreatedUser(id: nat, correo: Val, rol: Val, fincaId: Val)

  const DuplicateEmail := "El correo electrónico ya está registrado"

  /**
   * `crear`: the unique index on `correo` turns a second row with the same
   * e-mail into ER_DUP_ENTRY, reported with its own message; otherwise one row
   * is appended under the next id and echoed back without the password.
   */
  function Crear(d: Dir, correo: Val, password: Val, rol: Val, fincaId: Val): (r: (Dir, Result<CreatedUser>))
    ensures r.1 == Err(DuplicateEmail) <==> BuscarPorCorreo(d, correo).Some?
    ensures r.1.Err? ==> r.0 == d
    ensures r.1.Ok? ==>
      && r.1.value == CreatedUser(d.nextUserId, correo, rol, fincaId)
      && r.0 == d.(users := d.users + [UserRow(d.nextUserId, Bound(correo), Bound(password), Bound(rol), Bound(fincaId))],
                   nextUserId := d.nextUserId + 1)
  {
    if BuscarPorCorreo(d, correo).Some? then (d, Err(DuplicateEmail))
    else
      (d.(users := d.users + [UserRow(d.nextUserId, Bound(correo), Bound(password), Bound(rol), Bound(fincaId))],
          nextUserId := d.nextUserId + 1),
       Ok(CreatedUser(d.nextUserId, correo, rol, fincaId)))
  }

  /** A column the user update may set. */
  datatype UserColumn = CorreoCol | PasswordCol | RolCol | FincaCol

  /**
   * The SET list `actualizar` builds from `datos`, in order: e-mail, password
   * and role when truthy, farm whenever it is not `undefined` (so `null` clears it).
   */
  function UserAssignments(datos: Val): (a: seq<(UserColumn, Val)>)
    requires !IsNullish(datos)
    ensures (CorreoCol, Member(datos, "correo")) in a <==> Truthy(Member(datos, "correo"))
    ensures (PasswordCol, Member(datos, "contraseña")) in a <==> Truthy(Member(datos, "contraseña"))
    ensures (RolCol, Member(datos, "rol")) in a <==> Truthy(Member(datos, "rol"))
    ensures (FincaCol, Member(datos, "finca_id")) in a <==> !Member(datos, "finca_id").Undef?
    ensures forall k :: 0 <= k < |a| ==> a[k].1 == Member(datos, ColumnKey(a[k].0))
  {
    (if Truthy(Member(datos, "correo")) then [(CorreoCol, Member(datos, "correo"))] else [])
    + (if Truthy(Member(datos, "contraseña")) then [(PasswordCol, Member(datos, "contraseña"))] else [])
    + (if Truthy(Member(datos, "rol")) then [(RolCol, Member(datos, "rol"))] else [])
    + (if !Member(datos, "finca_id").Undef? then [(FincaCol, Member(datos, "finca_id"))] else [])
  }

  function ColumnKey(c: UserColumn): string {
    match c
    case CorreoCol => "correo"
    case PasswordCol => "contraseña"
    case RolCol => "rol"
    case FincaCol => "finca_id"
  }

  function Assign(u: UserRow, a: seq<(UserColumn, Val)>): UserRow
    decreases |a|
  {
    if |a| == 0 then u
    else
      var v := Bound(a[0].1);
      var u' := match a[0].0
        case CorreoCol => u.(correo := v)
        case PasswordCol => u.(password := v)
        case RolCol => u.(rol := v)
        case FincaCol => u.(fincaId := v);
      Assign(u', a[1..])
  }

  const NoFields := "No hay campos para actualizar"
  const UserNotFound := "Error al actualizar el usuario: Usuario no encontrado"
  /** The prefixed duplicate-entry error; the driver's own text after the prefix is abbreviated. */
  const EmailTakenOnUpdate := "Error al actualizar el usuario: Duplicate entry"

  /** An account other than those answering to `id` already holds `correo` (in the sense of SQL equality). */
  predicate EmailClash(d: Dir, id: Val, correo: Val) {
    exists i :: 0 <= i < |d.users| && !UserIdIs(d.users[i], id) && SqlEq(d.users[i].correo, Bound(correo))
  }

  /**
   * `actualizar(id, datos)`: throws before any query when nothing is to be
   * set, reports a missing user with the prefixed message, lets the unique
   * index on `correo` refuse an e-mail another account holds (ER_DUP_ENTRY,
   * which this function does not map, so it is rethrown with the prefix),
   * and otherwise rewrites the listed columns of the matching rows.
   */
  function Actualizar(d: Dir, id: Val, datos: Val): (r: (Dir, Result<nat>))
    requires !IsNullish(datos)
    ensures r.1.Err? ==> r.0 == d
    ensures UserAssignments(datos) == [] ==> r == (d, Err(NoFields))
    ensures UserAssignments(datos) != [] && BuscarPorId(d, id).None? ==> r == (d, Err(UserNotFound))
    ensures r.1 == Err(EmailTakenOnUpdate) <==>
      UserAssignments(datos) != [] && BuscarPorId(d, id).Some?
      && Truthy(Member(datos, "correo")) && EmailClash(d, id, Member(datos, "correo"))
    ensures r.1.Ok? <==>
      UserAssignments(datos) != [] && BuscarPorId(d, id).Some?
      && !(Truthy(Member(datos, "correo")) && EmailClash(d, id, Member(datos, "correo")))
    ensures r.1.Ok? ==>
      && r.1.value > 0
      && |r.0.users| == |d.users|
      && r.0 == d.(users := r.0.users)
      && forall i :: 0 <= i < |d.users| ==>
           r.0.users[i] == (if UserIdIs(d.users[i], id) then Assign(d.users[i], UserAssignments(datos)) else d.users[i])
  {
    var a := UserAssignments(datos);
    var correo := Member(datos, "correo");
    if a == [] then (d, Err(NoFields))
    else
      var target := (u: UserRow) => UserIdIs(u, id);
      var n := Count(d.users, target);
      if n == 0 then (d, Err(UserNotFound))
      else if Truthy(correo) && EmailClash(d, id, correo) then (d, Err(EmailTakenOnUpdate))
      else (d.(users := UpdateWhere(d.users, target, (u: UserRow) => Assign(u, a))), Ok(n))
  }

  /** The value a row holds in column `c`. */
  function Column(u: UserRow, c: UserColumn): Val {
    match c
    case CorreoCol => u.correo
    case PasswordCol => u.password
    case RolCol => u.rol
    case FincaCol => u.fincaId
  }

  /** Rewriting the listed columns keeps the id and touches no unlisted column. */
  lemma {:induction false} AssignKeepsUnlisted(u: UserRow, a: seq<(UserColumn, Val)>)
    ensures Assign(u, a).id == u.id
    ensures (forall k :: 0 <= k < |a| ==> a[k].0 != CorreoCol) ==> Assign(u, a).correo == u.correo
    ensures (forall k :: 0 <= k < |a| ==> a[k].0 != PasswordCol) ==> Assign(u, a).password == u.password
    ensures (forall k :: 0 <= k < |a| ==> a[k].0 != RolCol) ==> Assign(u, a).rol == u.rol
    ensures (forall k :: 0 <= k < |a| ==> a[k].0 != FincaCol) ==> Assign(u, a).fincaId == u.fincaId
    decreases |a|
  {
    if |a| > 0 {
      var v := Bound(a[0].1);
      var u' := match a[0].0
        case CorreoCol => u.(correo := v)
        case PasswordCol => u.(password := v)
        case RolCol => u.(rol := v)
        case FincaCol => u.(fincaId := v);
      AssignKeepsUnlisted(u', a[1..]);
    }
  }

  /** When every assignment to column `c` in the list carries `v`, the rewritten row holds `v` there. */
  lemma {:induction false} AssignSetsColumn(u: UserRow, a: seq<(UserColumn, Val)>, c: UserColumn, v: Val)
    requires exists k :: 0 <= k < |a| && a[k].0 == c
    requires forall k :: 0 <= k < |a| && a[k].0 == c ==> a[k].1 == v
    ensures Column(Assign(u, a), c) == Bound(v)
    decreases |a|
  {
    var w := Bound(a[0].1);
    var u' := match a[0].0
      case CorreoCol => u.(correo := w)
      case PasswordCol => u.(password := w)
      case RolCol => u.(rol := w)
      case FincaCol => u.(fincaId := w);
    var rest := a[1..];
    assert forall k :: 0 <= k < |rest| ==> rest[k] == a[k + 1];
    if exists k :: 0 <= k < |rest| && rest[k].0 == c {
      AssignSetsColumn(u', rest, c, v);
    } else {
      AssignKeepsUnlisted(u', rest);
      assert a[0].0 == c;
    }
  }

  /** The e-mail a row holds after the update: the one sent when it is truthy, the old one otherwise. */
  lemma UpdatedEmail(u: UserRow, datos: Val)
    requires !IsNullish(datos)
    ensures Assign(u, UserAssignments(datos)).correo ==
      (if Truthy(Member(datos, "correo")) then Member(datos, "correo") else u.correo)
  {
    var a := UserAssignments(datos);
    var correo := Member(datos, "correo");
    if Truthy(correo) {
      assert (CorreoCol, correo) in a;
      AssignSetsColumn(u, a, CorreoCol, correo);
    } else {
      AssignKeepsUnlisted(u, a);
    }
  }

  /** `existe(id)`: true exactly when some row has that id. */
  function Existe(d: Dir, id: Val): (b: bool)
    ensures b <==> exists i :: 0 <= i < |d.users| && UserIdIs(d.users[i], id)
    ensures b <==> BuscarPorId(d, id).Some?
  {
    Count(d.users, (u: UserRow) => UserIdIs(u, id)) > 0
  }
}

=== FILE: user_routes.dfy ===
/**
 * The user administration endpoints (`PUT /:id` and `DELETE /:id`), reached
 * after the token check and the admin-only gate, and the role-name
 * normalisation they use. `hash` is the bcrypt oracle.
 */
module UserRoutes {
  import opened Js
  import opened Store
  import opened Http
  import opened Directory
  import opened UserModel
  import FincaModel

  // ---------------------------------------------------------------------------
  // normalizarRol

  /**
   * `normalizarRol`: each role and its Spanish alias, in any letter case, map
   * to the canonical role; anything else maps to `null` (`None`).
   */
  function NormalizarRol(rol: string): (r: Option<string>)
    ensures r == Some("admin") <==> ToLower(rol) in {"admin", "administrador"}
    ensures r == Some("user") <==> ToLower(rol) in {"user", "usuario"}
    ensures r == Some("viewer") <==> ToLower(rol) in {"viewer", "consultor"}
    ensures r.None? <==> ToLower(rol) !in {"admin", "administrador", "user", "usuario", "viewer", "consultor"}
  {
    var key := ToLower(rol);
    if key == "admin" || key == "administrador" then Some("admin")
    else if key == "user" || key == "usuario" then Some("user")
    else if key == "viewer" || key == "consultor" then Some("viewer")
    else None
  }

  lemma CanonicalRolesAreLowerCase()
    ensures ToLower("admin") == "admin"
    ensures ToLower("user") == "user"
    ensures ToLower("viewer") == "viewer"
  {
    assert ToLower("admin") == [LowerChar('a')] + ToLower("dmin");
    assert ToLower("user") == [LowerChar('u')] + ToLower("ser");
    assert ToLower("viewer") == [LowerChar('v')] + ToLower("iewer");
  }

  /**
   * Normalisation is idempotent: the canonical roles are fixed points, so
   * normalising a normalised role changes nothing.
   */
  lemma NormalizarRolIdempotent(rol: string)
    requires NormalizarRol(rol).Some?
    ensures NormalizarRol(NormalizarRol(rol).value) == NormalizarRol(rol)
  {
    CanonicalRolesAreLowerCase();
  }

  /** Normalisation ignores letter case. */
  lemma NormalizarRolIgnoresCase(rol: string)
    ensures NormalizarRol(ToLower(rol)) == NormalizarRol(rol)
  {
    ToLowerIdempotent(rol);
  }

  // ---------------------------------------------------------------------------
  // PUT /:id

  const UserMissing := "Usuario no encontrado"
  const FarmMissing := "La finca especificada no existe"
  const InvalidRole := "Rol inválido"
  const UpdateFailed := "Error al actualizar usuario"

  /** Whether a temporary-password row belongs to the user named by the route parameter. */
  predicate TempOf(t: TempPassword, id: Val) {
    SqlEq(t.userId, id)
  }

  predicate ActiveTempOf(t: TempPassword, id: Val) {
    TempOf(t, id) && t.active
  }

  /** Deactivate every temporary password of the user, then log the new one as the only active one. */
  function RotateTemps(temps: seq<TempPassword>, id: Val, password: Val): (r: seq<TempPassword>)
    ensures |r| == |temps| + 1
    ensures r[|temps|] == TempPassword(Bound(id), Bound(password), true)
    ensures forall i :: 0 <= i < |temps| ==>
      r[i] == (if TempOf(temps[i], id) then temps[i].(active := false) else temps[i])
  {
    UpdateWhere(temps, (t: TempPassword) => TempOf(t, id), (t: TempPassword) => t.(active := false))
      + [TempPassword(Bound(id), Bound(password), true)]
  }

  /** After a rotation the user has exactly one active temporary password, the new one. */
  lemma {:induction false} RotationLeavesOneActive(temps: seq<TempPassword>, id: Val, password: Val)
    requires !IsNullish(id)
    ensures Count(RotateTemps(temps, id, password), (t: TempPassword) => ActiveTempOf(t, id)) == 1
  {
    var r := RotateTemps(temps, id, password);
    var p := (t: TempPassword) => ActiveTempOf(t, id);
    assert r == r[..|temps|] + [r[|temps|]];
    assert forall i :: 0 <= i < |temps| ==> !p(r[..|temps|][i]);
    CountAppend(r[..|temps|], r[|temps|], p);
  }

  /**
   * The `datosActualizar` object the handler hands to the model: the e-mail
   * when truthy, the normalised role when one was given, the farm whenever
   * it is not `undefined`, and the hashed password when one was given.
   */
  function UpdateData(body: Val, rol: Option<string>, hash: Val -> Val): (datos: Val)
    requires !IsNullish(body)
    ensures datos.Obj?
    ensures Member(datos, "correo") == (if Truthy(Member(body, "correo")) then Member(body, "correo") else Undef)
    ensures Member(datos, "rol") == (if rol.Some? && |rol.value| > 0 then Str(rol.value) else Undef)
    ensures Member(datos, "finca_id") == Member(body, "finca_id")
    ensures Member(datos, "contraseña") ==
      (if Truthy(Member(body, "contraseña")) then hash(Member(body, "contraseña")) else Undef)
  {
    var m0: map<string, Val> := map[];
    var m1 := if Truthy(Member(body, "correo")) then m0["correo" := Member(body, "correo")] else m0;
    var m2 := if rol.Some? && |rol.value| > 0 then m1["rol" := Str(rol.value)] else m1;
    var m3 := if !Member(body, "finca_id").Undef? then m2["finca_id" := Member(body, "finca_id")] else m2;
    var m4 := if Truthy(Member(body, "contraseña")) then m3["contraseña" := hash(Member(body, "contraseña"))] else m3;
    Obj(m4)
  }

  /** The normalised role of a truthy string `rol`; nothing when no role was sent. */
  function RequestedRole(body: Val): (r: Option<string>)
    requires !IsNullish(body)
    ensures !Truthy(Member(body, "rol")) ==> r.None?
    ensures Member(body, "rol").Str? ==> r == (if Truthy(Member(body, "rol")) then NormalizarRol(Member(body, "rol").s) else None)
  {
    var rol := Member(body, "rol");
    if Truthy(rol) && rol.Str? then NormalizarRol(rol.s) else None
  }

  /**
   * What a successful update leaves behind: farms untouched, the temporary
   * passwords rotated exactly when a password was sent, and every row with
   * the id (and only those) rewritten by the model's SET list.
   */
  predicate UpdateCommitted(d: Dir, d': Dir, idParam: Val, body: Val, hash: Val -> Val)
    requires !IsNullish(body)
  {
    var pass := Member(body, "contraseña");
    var fields := UserAssignments(UpdateData(body, RequestedRole(body), hash));
    && d'.farms == d.farms
    && (Truthy(pass) ==> d'.temps == RotateTemps(d.temps, idParam, pass))
    && (!Truthy(pass) ==> d'.temps == d.temps)
    && |d'.users| == |d.users|
    && forall i :: 0 <= i < |d.users| ==>
         d'.users[i] == (if UserIdIs(d.users[i], idParam) then Assign(d.users[i], fields) else d.users[i])
  }

  /**
   * `PUT /api/usuarios/:id`. The temporary-password writes and the failed
   * update roll back together, so every error reply leaves the store as it
   * was. Four failures throw inside the `try` and answer 500: a truthy role
   * that is not a string, a truthy password bcrypt cannot hash, a request
   * with nothing to set, and an e-mail that another account holds (the
   * unique index refuses the update).
   * The reply value is the account read back after the commit.
   */
  function UpdateUser(d: Dir, idParam: Val, body: Val, hash: Val -> Val): (r: (Dir, Reply<Option<UserRow>>))
    ensures !r.1.Done? ==> r.0 == d
    ensures IsNullish(body) ==> r.1 == Unanswered
    ensures !IsNullish(body) ==>
      var fincaId, rol := Member(body, "finca_id"), Member(body, "rol");
      var found := BuscarPorId(d, idParam).Some?;
      var farmOk := fincaId.Undef? || FincaModel.Existe(d, fincaId);
      var roleOk := !Truthy(rol) || (rol.Str? && NormalizarRol(rol.s).Some?);
      var fields := UserAssignments(UpdateData(body, RequestedRole(body), hash));
      var taken := Truthy(Member(body, "correo")) && EmailClash(d, idParam, Member(body, "correo"));
      var unhashable := Truthy(Member(body, "contraseña")) && !BcryptAccepts(Member(body, "contraseña"));
      && (r.1 == Fail(404, UserMissing) <==> !found)
      && (r.1 == Fail(404, FarmMissing) <==> found && !farmOk)
      && (r.1 == Fail(400, InvalidRole) <==> found && farmOk && rol.Str? && |rol.s| > 0 && NormalizarRol(rol.s).None?)
      && (r.1 == Fail(500, UpdateFailed) <==>
            found && farmOk && ((Truthy(rol) && !rol.Str?) || (roleOk && (unhashable || fields == [] || taken))))
      && (r.1.Done? <==> found && farmOk && roleOk && !unhashable && fields != [] && !taken)
    ensures r.1.Done? ==> r.1.status == 200 && UpdateCommitted(d, r.0, idParam, body, hash)
  {
    if IsNullish(body) then (d, Unanswered)
    else
      var fincaId, rol, pass := Member(body, "finca_id"), Member(body, "rol"), Member(body, "contraseña");
      if BuscarPorId(d, idParam).None? then (d, Fail(404, UserMissing))
      else if !fincaId.Undef? && !FincaModel.Existe(d, fincaId) then (d, Fail(404, FarmMissing))
      else RoleChecked(d, idParam, body, hash)
  }

  /** The update once the user and the farm are found: the role checks, then the writes. */
  function RoleChecked(d: Dir, idParam: Val, body: Val, hash: Val -> Val): (r: (Dir, Reply<Option<UserRow>>))
    requires !IsNullish(body) && BuscarPorId(d, idParam).Some?
    ensures !r.1.Done? ==> r.0 == d
    ensures r.1.Fail? ==> r.1.status != 404
    ensures var rol := Member(body, "rol");
      var roleOk := !Truthy(rol) || (rol.Str? && NormalizarRol(rol.s).Some?);
      var fields := UserAssignments(UpdateData(body, RequestedRole(body), hash));
      var taken := Truthy(Member(body, "correo")) && EmailClash(d, idParam, Member(body, "correo"));
      var unhashable := Truthy(Member(body, "contraseña")) && !BcryptAccepts(Member(body, "contraseña"));
      && (r.1 == Fail(400, InvalidRole) <==> rol.Str? && |rol.s| > 0 && NormalizarRol(rol.s).None?)
      && (r.1 == Fail(500, UpdateFailed) <==> (Truthy(rol) && !rol.Str?) || (roleOk && (unhashable || fields == [] || taken)))
      && (r.1.Done? <==> roleOk && !unhashable && fields != [] && !taken)
    ensures r.1.Done? ==> r.1.status == 200 && UpdateCommitted(d, r.0, idParam, body, hash)
  {
    var rol := Member(body, "rol");
    if Truthy(rol) && !rol.Str? then (d, Fail(500, UpdateFailed))
    else if Truthy(rol) && RequestedRole(body).None? then (d, Fail(400, InvalidRole))
    else CommitUpdate(d, idParam, body, hash)
  }

  /**
   * The writes of an update that passed the checks: the password is hashed
   * first (a rejection leaves nothing written), then the temporary-password
   * rotation when a password was sent and the model's update, committed
   * together or not at all.
   */
  function CommitUpdate(d: Dir, idParam: Val, body: Val, hash: Val -> Val): (r: (Dir, Reply<Option<UserRow>>))
    requires !IsNullish(body) && BuscarPorId(d, idParam).Some?
    ensures var fields := UserAssignments(UpdateData(body, RequestedRole(body), hash));
      var taken := Truthy(Member(body, "correo")) && EmailClash(d, idParam, Member(body, "correo"));
      var unhashable := Truthy(Member(body, "contraseña")) && !BcryptAccepts(Member(body, "contraseña"));
      && (r.1.Done? <==> !unhashable && fields != [] && !taken)
      && (!r.1.Done? ==> r == (d, Fail(500, UpdateFailed)))
    ensures r.1.Done? ==> r.1.status == 200 && UpdateCommitted(d, r.0, idParam, body, hash)
  {
    var pass := Member(body, "contraseña");
    var datos := UpdateData(body, RequestedRole(body), hash);
    if Truthy(pass) && !BcryptAccepts(pass) then (d, Fail(500, UpdateFailed))
    else
      var withTemps := if Truthy(pass) then d.(temps := RotateTemps(d.temps, idParam, pass)) else d;
      assert withTemps.users == d.users;
      assert Truthy(Member(datos, "correo")) == Truthy(Member(body, "correo"));
      var (d', res) := Actualizar(withTemps, idParam, datos);
      if res.Err? then (d, Fail(500, UpdateFailed))
      else (d', Done(200, BuscarPorId(d', idParam)))
  }

  /** A password change through the update leaves exactly one active temporary password for the user. */
  lemma {:induction false} PasswordChangeLeavesOneActive(d: Dir, idParam: Val, body: Val, hash: Val -> Val)
    requires !IsNullish(body) && Truthy(Member(body, "contraseña"))
    requires UpdateUser(d, idParam, body, hash).1.Done?
    ensures Count(UpdateUser(d, idParam, body, hash).0.temps, (t: TempPassword) => ActiveTempOf(t, idParam)) == 1
  {
    assert BuscarPorId(d, idParam).Some?;
    RotationLeavesOneActive(d.temps, idParam, Member(body, "contraseña"));
  }

  /** A successful role change leaves the account, as read back by id, holding the canonical role, never the alias sent. */
  lemma {:induction false} UpdateStoresCanonicalRole(d: Dir, idParam: Val, body: Val, hash: Val -> Val)
    requires !IsNullish(body) && Truthy(Member(body, "rol"))
    requires UpdateUser(d, idParam, body, hash).1.Done?
    ensures Member(body, "rol").Str? && NormalizarRol(Member(body, "rol").s).Some?
    ensures var stored := BuscarPorId(UpdateUser(d, idParam, body, hash).0, idParam);
      stored.Some? && stored.value.rol == Str(NormalizarRol(Member(body, "rol").s).value)
  {
    UpdateSucceeded(d, idParam, body, hash);
    CommittedRoleReadsBack(d, UpdateUser(d, idParam, body, hash).0, idParam, body, hash);
  }

  /** Once an update with a valid role is committed, the account read back by id holds the canonical role. */
  lemma {:induction false} CommittedRoleReadsBack(d: Dir, d': Dir, idParam: Val, body: Val, hash: Val -> Val)
    requires !IsNullish(body) && BuscarPorId(d, idParam).Some?
    requires Member(body, "rol").Str? && NormalizarRol(Member(body, "rol").s).Some? && |Member(body, "rol").s| > 0
    requires UpdateCommitted(d, d', idParam, body, hash)
    ensures BuscarPorId(d', idParam).Some?
    ensures BuscarPorId(d', idParam).value.rol == Str(NormalizarRol(Member(body, "rol").s).value)
  {
    var canon := NormalizarRol(Member(body, "rol").s).value;
    var datos := UpdateData(body, RequestedRole(body), hash);
    var fields := UserAssignments(datos);
    assert Member(datos, "rol") == Str(canon);
    assert (RolCol, Str(canon)) in fields;
    ReadBackAfterAssign(d, d', idParam, fields);
    AssignSetsColumn(BuscarPorId(d, idParam).value, fields, RolCol, Str(canon));
  }

  /** What a successful update implies: the account existed, the role (if any) was valid, and the writes were committed. */
  lemma UpdateSucceeded(d: Dir, idParam: Val, body: Val, hash: Val -> Val)
    requires !IsNullish(body) && UpdateUser(d, idParam, body, hash).1.Done?
    ensures BuscarPorId(d, idParam).Some?
    ensures var rol := Member(body, "rol"); !Truthy(rol) || (rol.Str? && NormalizarRol(rol.s).Some?)
    ensures UpdateCommitted(d, UpdateUser(d, idParam, body, hash).0, idParam, body, hash)
  {
  }

  /** No two accounts share an e-mail (in the sense of SQL equality), as the unique index on `correo` keeps it. */
  ghost predicate EmailsUnique(users: seq<UserRow>) {
    forall i, j :: 0 <= i < j < |users| ==> !SqlEq(users[i].correo, users[j].correo)
  }

  /** No two accounts share an id, as the primary key keeps it. */
  ghost predicate IdsUnique(users: seq<UserRow>) {
    forall i, j :: 0 <= i < j < |users| ==> users[i].id != users[j].id
  }

  /** An update keeps e-mails unique: one that another account holds is refused before anything is written. */
  lemma {:induction false} UpdateKeepsEmailsUnique(d: Dir, idParam: Val, body: Val, hash: Val -> Val)
    requires EmailsUnique(d.users) && IdsUnique(d.users)
    ensures EmailsUnique(UpdateUser(d, idParam, body, hash).0.users)
  {
    var r := UpdateUser(d, idParam, body, hash);
    if r.1.Done? {
      var correo := Member(body, "correo");
      var datos := UpdateData(body, RequestedRole(body), hash);
      assert UpdateCommitted(d, r.0, idParam, body, hash);
      assert !(Truthy(correo) && EmailClash(d, idParam, correo));
      var users := r.0.users;
      forall i, j | 0 <= i < j < |users|
        ensures !SqlEq(users[i].correo, users[j].correo)
      {
        var mi, mj := UserIdIs(d.users[i], idParam), UserIdIs(d.users[j], idParam);
        if mi && mj {
          IdIsDeterminesId(d.users[i].id, d.users[j].id, idParam);
          assert false;
        } else if mi {
          UpdatedEmail(d.users[i], datos);
        } else if mj {
          UpdatedEmail(d.users[j], datos);
        }
      }
    }
  }

  /** After every row with the id is assigned, reading by id gives the assigned version of the row it found before. */
  lemma {:induction false} ReadBackAfterAssign(d: Dir, d': Dir, idParam: Val, fields: seq<(UserColumn, Val)>)
    requires BuscarPorId(d, idParam).Some?
    requires |d'.users| == |d.users|
    requires forall i :: 0 <= i < |d.users| ==>
      d'.users[i] == (if UserIdIs(d.users[i], idParam) then Assign(d.users[i], fields) else d.users[i])
    ensures BuscarPorId(d', idParam) == Some(Assign(BuscarPorId(d, idParam).value, fields))
  {
    var p := (u: UserRow) => UserIdIs(u, idParam);
    forall i | 0 <= i < |d.users| ensures p(d'.users[i]) == p(d.users[i]) {
      AssignKeepsUnlisted(d.users[i], fields);
    }
    FindFirstSamePattern(d.users, d'.users, p);
  }

  /**
   * Although the model treats `finca_id: null` as "clear the farm", the
   * route never gets that far: no farm answers to NULL, so the existence
   * check answers 404 first.
   */
  lemma NullFarmIsRefused(d: Dir, idParam: Val, body: Val, hash: Val -> Val)
    requires !IsNullish(body) && Member(body, "finca_id") == Null
    requires BuscarPorId(d, idParam).Some?
    ensures UpdateUser(d, idParam, body, hash) == (d, Fail(404, FarmMissing))
  {
    assert !FincaModel.Existe(d, Null);
  }

  // ---------------------------------------------------------------------------
  // DELETE /:id

  const SelfDelete := "No puedes eliminar tu propia cuenta"

  /**
   * `DELETE /api/usuarios/:id`: the route id and the caller's id are compared
   * after `parseInt` (NaN equals nothing). A principal without an id object
   * is read outside the `try`, so a missing principal leaves the request
   * unanswered. The reply value is `parseInt(id)`, which JSON writes as
   * null when it is NaN (`None`).
   */
  function DeleteUser(d: Dir, idParam: Val, principal: Val): (r: (Dir, Reply<Option<int>>))
    ensures !r.1.Done? ==> r.0 == d
    ensures IsNullish(principal) ==> r.1 == Unanswered
    ensures !IsNullish(principal) ==>
      var self := ParseInt(idParam).Some? && ParseInt(idParam) == ParseInt(Member(principal, "id"));
      && (r.1 == Fail(400, SelfDelete) <==> self)
      && (r.1 == Fail(404, UserMissing) <==> !self && BuscarPorId(d, idParam).None?)
      && (r.1.Done? <==> !self && BuscarPorId(d, idParam).Some?)
    ensures r.1.Done? ==>
      && r.1 == Done(200, ParseInt(idParam))
      && r.0 == d.(users := r.0.users)
      && (forall u :: u in r.0.users <==> u in d.users && !UserIdIs(u, idParam))
      && |r.0.users| < |d.users|
  {
    if IsNullish(principal) then (d, Unanswered)
    else
      var target := ParseInt(idParam);
      if target.Some? && target == ParseInt(Member(principal, "id")) then (d, Fail(400, SelfDelete))
      else if BuscarPorId(d, idParam).None? then (d, Fail(404, UserMissing))
      else
        var users := DeleteWhere(d.users, (u: UserRow) => UserIdIs(u, idParam));
        (d.(users := users), Done(200, target))
  }

  /** A deletion by a route id (a string) reports the id of the account it removed. */
  lemma DeletedIdReported(d: Dir, idParam: Val, principal: Val)
    requires idParam.Str? && DeleteUser(d, idParam, principal).1.Done?
    ensures DeleteUser(d, idParam, principal).1.value == Some(BuscarPorId(d, idParam).value.id)
  {
    RouteIdParses(BuscarPorId(d, idParam).value.id, idParam);
  }

  /** An administrator can never delete the account they are logged in with. */
  lemma {:induction false} NoSelfDelete(d: Dir, principal: Val, n: nat)
    requires !IsNullish(principal) && Member(principal, "id") == Num(n)
    ensures DeleteUser(d, Str(IntToString(n)), principal) == (d, Fail(400, SelfDelete))
    ensures DeleteUser(d, Num(n), principal) == (d, Fail(400, SelfDelete))
  {
    ParseIntOfDecimal(n);
  }

  /** The route id is read by `parseInt`, so `0x5` names account 5 and administrator 5 cannot delete it. */
  lemma HexSelfDelete(d: Dir, principal: Val)
    requires !IsNullish(principal) && Member(principal, "id") == Num(5)
    ensures DeleteUser(d, Str("0x5"), principal) == (d, Fail(400, SelfDelete))
  {
    HexFive();
    SameParsedIdRefused(d, Str("0x5"), principal);
  }

  /** Blanks before the route id, a vertical tab or a no-break space included, do not get an administrator past the check. */
  lemma BlankPrefixedSelfDelete(d: Dir, principal: Val, blanks: string, n: nat)
    requires !IsNullish(principal) && Member(principal, "id") == Num(n)
    requires forall i :: 0 <= i < |blanks| ==> IsSpace(blanks[i])
    ensures DeleteUser(d, Str(blanks + IntToString(n)), principal) == (d, Fail(400, SelfDelete))
  {
    assert ToStr(Str(blanks + IntToString(n))) == blanks + IntToString(n);
    BlanksIgnored(blanks, IntToString(n));
    ParseIntOfDecimal(n);
    SameParsedIdRefused(d, Str(blanks + IntToString(n)), principal);
  }

  /** Whatever their spellings, a route id and caller id that parse to the same number are refused. */
  lemma SameParsedIdRefused(d: Dir, idParam: Val, principal: Val)
    requires !IsNullish(principal)
    requires ParseInt(idParam).Some? && ParseInt(idParam) == ParseInt(Member(principal, "id"))
    ensures DeleteUser(d, idParam, principal) == (d, Fail(400, SelfDelete))
  {
  }
}

=== FILE: vaccine_routes.dfy ===
/**
 * The vaccination-history endpoints: `POST /add`, the bulk
 * `DELETE /delete/:chip_animal`, the partial update `PUT /:id` and the full
 * update `PUT /chip/:id` (which, despite its path, takes a vaccination id).
 * `principal` is `req.usuario`.
 */
module VaccineRoutes {
  import opened Js
  import opened Store
  import opened Http

  const MissingFields := "Todos los campos son obligatorios"
  const AnimalUnknown := "El animal con este chip no existe en la base de datos"
  const AddForbidden := "No tienes permiso para registrar vacunas en este animal"
  const DoseFormat := "La dosis administrada debe incluir la cantidad y la unidad (ej. \"3 ml\")"
  const AddFailed := "Error al registrar la vacuna"
  const DeleteForbidden := "No tienes permiso para eliminar vacunas de este animal"
  const NothingDeleted := "No se encontró el registro de vacuna para el animal"
  const VaccinationMissing := "Vacuna no encontrada"
  const EditForbidden := "No tienes permiso para modificar esta vacuna"
  const NothingToUpdate := "No hay campos para actualizar"

  /** The catalog ids unknown vaccine names and types fall back to. */
  const NameSentinel := 23
  const TypeSentinel := 11

  /** A string dose must contain a space (amount and unit); a dose of any other type is not checked. */
  predicate DoseRejected(dose: Val) {
    dose.Str? && ' ' !in dose.s
  }

  /**
   * `POST /add`. The caller's role is read inside the `try`, after the
   * animal lookup, so a missing principal surfaces as 500 there. Unknown
   * catalog ids are replaced by the sentinels before the dose is checked.
   * The reply value is the new id.
   */
  function AddVaccination(db: Db, principal: Val, body: Val, now: int): (r: (Db, Reply<nat>))
    ensures !r.1.Done? ==> r.0 == db
    ensures IsNullish(body) ==> r.1 == Unanswered
    ensures !IsNullish(body) ==>
      var chip, dose := Member(body, "chip_animal"), Member(body, "dosis_administrada");
      var present := Truthy(Member(body, "fecha_vacuna")) && Truthy(chip) && Truthy(dose);
      var animal := AnimalByChip(db.animals, chip);
      && (r.1 == Fail(400, MissingFields) <==> !present)
      && (r.1 == Fail(404, AnimalUnknown) <==> present && animal.None?)
      && (r.1 == Fail(500, AddFailed) <==> present && animal.Some? && IsNullish(principal))
      && (r.1 == Fail(403, AddForbidden) <==>
            present && animal.Some? && !IsNullish(principal) && !MayTouch(principal, animal.value.owner))
      && (r.1 == Fail(400, DoseFormat) <==>
            present && animal.Some? && !IsNullish(principal) && MayTouch(principal, animal.value.owner)
            && DoseRejected(dose))
      && (r.1.Done? <==>
            present && animal.Some? && !IsNullish(principal) && MayTouch(principal, animal.value.owner)
            && !DoseRejected(dose))
    ensures r.1.Done? ==>
      var a := AnimalByChip(db.animals, Member(body, "chip_animal")).value;
      var attrs := VaccinationAttrs(
        Bound(Member(body, "fecha_vacuna")),
        CatalogOr(db.vaccineTypes, Member(body, "tipo_vacunas_id_tipo_vacuna"), TypeSentinel),
        CatalogOr(db.vaccineNames, Member(body, "nombre_vacunas_id_vacuna"), NameSentinel),
        Member(body, "dosis_administrada"),
        Bound(Member(body, "observaciones")));
      && r.1 == Done(201, db.nextVaccinationId)
      && r.0 == db.(vaccinations := db.vaccinations + [Vaccination(db.nextVaccinationId, Num(a.id), now, now, attrs)],
                    nextVaccinationId := db.nextVaccinationId + 1)
  {
    if IsNullish(body) then (db, Unanswered)
    else
      var chip, dose := Member(body, "chip_animal"), Member(body, "dosis_administrada");
      if !Truthy(Member(body, "fecha_vacuna")) || !Truthy(chip) || !Truthy(dose) then (db, Fail(400, MissingFields))
      else
        match AnimalByChip(db.animals, chip)
        case None => (db, Fail(404, AnimalUnknown))
        case Some(a) =>
          if IsNullish(principal) then (db, Fail(500, AddFailed))
          else if !MayTouch(principal, a.owner) then (db, Fail(403, AddForbidden))
          else
            var name := CatalogOr(db.vaccineNames, Member(body, "nombre_vacunas_id_vacuna"), NameSentinel);
            var kind := CatalogOr(db.vaccineTypes, Member(body, "tipo_vacunas_id_tipo_vacuna"), TypeSentinel);
            if DoseRejected(dose) then (db, Fail(400, DoseFormat))
            else
              var attrs := VaccinationAttrs(Bound(Member(body, "fecha_vacuna")), kind, name, dose,
                                            Bound(Member(body, "observaciones")));
              var row := Vaccination(db.nextVaccinationId, Num(a.id), now, now, attrs);
              (db.(vaccinations := db.vaccinations + [row], nextVaccinationId := db.nextVaccinationId + 1),
               Done(201, db.nextVaccinationId))
  }

  /**
   * With both sentinels in their catalogs, every vaccination `/add` writes
   * names an existing vaccine and vaccine type.
   */
  lemma AddedVaccinationUsesCatalogIds(db: Db, principal: Val, body: Val, now: int)
    requires NameSentinel in db.vaccineNames && TypeSentinel in db.vaccineTypes
    requires AddVaccination(db, principal, body, now).1.Done?
    ensures var v := AddVaccination(db, principal, body, now).0.vaccinations[|db.vaccinations|];
      InCatalog(db.vaccineNames, v.attrs.nombreVacunaId) && InCatalog(db.vaccineTypes, v.attrs.tipoVacunaId)
  {
    CatalogOrInCatalog(db.vaccineNames, Member(body, "nombre_vacunas_id_vacuna"), NameSentinel);
    CatalogOrInCatalog(db.vaccineTypes, Member(body, "tipo_vacunas_id_tipo_vacuna"), TypeSentinel);
  }

  /** "3 ml" passes the dose check, "3ml" does not, and a numeric dose is never checked. */
  lemma DoseExamples()
    ensures !DoseRejected(Str("3 ml"))
    ensures DoseRejected(Str("3ml"))
    ensures !DoseRejected(Num(3))
  {
    assert "3 ml"[1] == ' ';
  }

  // ---------------------------------------------------------------------------
  // DELETE /delete/:chip_animal

  /** `DELETE /delete/:chip_animal`: every vaccination of the first animal with the chip is removed. */
  function DeleteVaccinations(db: Db, principal: Val, chip: Val): (r: (Db, Reply<()>))
    ensures !r.1.Done? ==> r.0 == db
    ensures IsNullish(principal) ==> r.1 == Unanswered
    ensures !IsNullish(principal) ==>
      var animal := AnimalByChip(db.animals, chip);
      && (r.1 == Fail(404, AnimalUnknown) <==> animal.None?)
      && (r.1 == Fail(403, DeleteForbidden) <==> animal.Some? && !MayTouch(principal, animal.value.owner))
      && (r.1 == Fail(404, NothingDeleted) <==>
            animal.Some? && MayTouch(principal, animal.value.owner)
            && Count(db.vaccinations, (v: Vaccination) => IdIs(animal.value.id, v.animalId)) == 0)
      && (r.1.Done? <==>
            animal.Some? && MayTouch(principal, animal.value.owner)
            && Count(db.vaccinations, (v: Vaccination) => IdIs(animal.value.id, v.animalId)) > 0)
    ensures r.1.Done? ==>
      var a := AnimalByChip(db.animals, chip).value;
      && r.1.status == 200
      && r.0 == db.(vaccinations := r.0.vaccinations)
      && (forall v :: v in r.0.vaccinations <==> v in db.vaccinations && !IdIs(a.id, v.animalId))
      && |r.0.vaccinations| < |db.vaccinations|
  {
    if IsNullish(principal) then (db, Unanswered)
    else
      match AnimalByChip(db.animals, chip)
      case None => (db, Fail(404, AnimalUnknown))
      case Some(a) =>
        if !MayTouch(principal, a.owner) then (db, Fail(403, DeleteForbidden))
        else
          var target := (v: Vaccination) => IdIs(a.id, v.animalId);
          if Count(db.vaccinations, target) == 0 then (db, Fail(404, NothingDeleted))
          else (db.(vaccinations := DeleteWhere(db.vaccinations, target)), Done(200, ()))
  }

  /** Deleting twice: the animal is still there, but the second request finds no vaccination and writes nothing. */
  lemma DeleteVaccinationsThenAgain(db: Db, principal: Val, chip: Val)
    requires DeleteVaccinations(db, principal, chip).1.Done?
    ensures var db' := DeleteVaccinations(db, principal, chip).0;
      DeleteVaccinations(db', principal, chip) == (db', Fail(404, NothingDeleted))
  {
    var db' := DeleteVaccinations(db, principal, chip).0;
    var a := AnimalByChip(db.animals, chip).value;
    var target := (v: Vaccination) => IdIs(a.id, v.animalId);
    assert forall i :: 0 <= i < |db'.vaccinations| ==> !target(db'.vaccinations[i]) by {
      forall i | 0 <= i < |db'.vaccinations| ensures !target(db'.vaccinations[i]) {
        assert db'.vaccinations[i] in db'.vaccinations;
      }
    }
  }

  // ---------------------------------------------------------------------------
  // PUT /:id and PUT /chip/:id

  /** The owner the update join reports for a vaccination with parent `animalId`: that of the first animal with that id. */
  function JoinedOwner(animals: seq<Animal>, animalId: Val): Option<Val> {
    var i := FindFirst(animals, (a: Animal) => IdIs(a.id, animalId));
    if i.None? then None else Some(animals[i.value].owner)
  }

  predicate JoinedWithId(animals: seq<Animal>, v: Vaccination, id: Val) {
    IdIs(v.id, id) && JoinedOwner(animals, v.animalId).Some?
  }

  /** The lookup both updates start with: 404 when no row joins, 403 for a non-admin non-owner. */
  function EditGate(db: Db, principal: Val, idParam: Val): (g: Gate)
    ensures var found := FindFirst(db.vaccinations, (v: Vaccination) => JoinedWithId(db.animals, v, idParam));
      && (g == Halt(404) <==> found.None?)
      && (g == Halt(403) <==> found.Some? && !MayTouch(principal, JoinedOwner(db.animals, db.vaccinations[found.value].animalId).value))
      && (g == Proceed <==> found.Some? && MayTouch(principal, JoinedOwner(db.animals, db.vaccinations[found.value].animalId).value))
  {
    match FindFirst(db.vaccinations, (v: Vaccination) => JoinedWithId(db.animals, v, idParam))
    case None => Halt(404)
    case Some(i) => if MayTouch(principal, JoinedOwner(db.animals, db.vaccinations[i].animalId).value) then Proceed else Halt(403)
  }

  datatype VaccinationColumn = FechaCol | TipoCol | NombreCol | DosisCol | ObservacionesCol
  {
    function Key(): string {
      match this
      case FechaCol => "fecha_vacuna"
      case TipoCol => "tipo_vacunas_id_tipo_vacuna"
      case NombreCol => "nombre_vacunas_id_vacuna"
      case DosisCol => "dosis_administrada"
      case ObservacionesCol => "observaciones"
    }
  }

  /** The column is set by the partial update: when truthy, or, for `observaciones`, when not `undefined`. */
  predicate Included(body: Val, c: VaccinationColumn) {
    if c == ObservacionesCol then !Member(body, c.Key()).Undef? else Truthy(Member(body, c.Key()))
  }

  const VaccinationColumns: seq<VaccinationColumn> := [FechaCol, TipoCol, NombreCol, DosisCol, ObservacionesCol]

  /** The `SET` list of `PUT /:id`, in column order. */
  function PartialFields(body: Val): (cols: seq<VaccinationColumn>)
    ensures cols == Filter(VaccinationColumns, (c: VaccinationColumn) => Included(body, c))
  {
    Filter(VaccinationColumns, (c: VaccinationColumn) => Included(body, c))
  }

  /** Exactly the included columns are listed. */
  lemma PartialFieldsExact(body: Val, c: VaccinationColumn)
    ensures c in PartialFields(body) <==> Included(body, c)
  {
    assert c in VaccinationColumns;
  }

  /** `observaciones: null` clears the column, while a falsy value elsewhere leaves its column alone. */
  lemma NullObservationIsWritten(body: Val)
    requires Member(body, "observaciones") == Null && Member(body, "dosis_administrada") == Str("")
    ensures ObservacionesCol in PartialFields(body)
    ensures DosisCol !in PartialFields(body)
  {
    assert Included(body, ObservacionesCol) by {
      assert ObservacionesCol.Key() == "observaciones";
    }
    assert !Included(body, DosisCol) by {
      assert DosisCol.Key() == "dosis_administrada";
    }
    PartialFieldsExact(body, ObservacionesCol);
    PartialFieldsExact(body, DosisCol);
  }

  function SetColumn(a: VaccinationAttrs, c: VaccinationColumn, v: Val): VaccinationAttrs {
    match c
    case FechaCol => a.(fechaVacuna := v)
    case TipoCol => a.(tipoVacunaId := v)
    case NombreCol => a.(nombreVacunaId := v)
    case DosisCol => a.(dosis := v)
    case ObservacionesCol => a.(observaciones := v)
  }

  /** Apply the listed columns' values from the body. */
  function ApplyFields(a: VaccinationAttrs, cols: seq<VaccinationColumn>, body: Val): VaccinationAttrs
    decreases |cols|
  {
    if |cols| == 0 then a else ApplyFields(SetColumn(a, cols[0], Bound(Member(body, cols[0].Key()))), cols[1..], body)
  }

  /** The value a column holds in a row. */
  function GetColumn(a: VaccinationAttrs, c: VaccinationColumn): Val {
    match c
    case FechaCol => a.fechaVacuna
    case TipoCol => a.tipoVacunaId
    case NombreCol => a.nombreVacunaId
    case DosisCol => a.dosis
    case ObservacionesCol => a.observaciones
  }

  /** After the update a listed column holds the body's value and every other column keeps its own. */
  lemma {:induction false} ApplyFieldsReads(a: VaccinationAttrs, cols: seq<VaccinationColumn>, body: Val, c: VaccinationColumn)
    ensures GetColumn(ApplyFields(a, cols, body), c) == (if c in cols then Bound(Member(body, c.Key())) else GetColumn(a, c))
    decreases |cols|
  {
    if |cols| > 0 {
      ApplyFieldsReads(SetColumn(a, cols[0], Bound(Member(body, cols[0].Key()))), cols[1..], body, c);
      assert c in cols <==> c == cols[0] || c in cols[1..];
    }
  }

  /** Applying the same fields twice is applying them once. */
  lemma ApplyFieldsIdempotent(a: VaccinationAttrs, cols: seq<VaccinationColumn>, body: Val)
    ensures ApplyFields(ApplyFields(a, cols, body), cols, body) == ApplyFields(a, cols, body)
  {
    var once := ApplyFields(a, cols, body);
    forall c ensures GetColumn(ApplyFields(once, cols, body), c) == GetColumn(once, c) {
      ApplyFieldsReads(once, cols, body, c);
      ApplyFieldsReads(a, cols, body, c);
    }
    assert forall c :: GetColumn(ApplyFields(once, cols, body), c) == GetColumn(once, c);
    var twice := ApplyFields(once, cols, body);
    assert GetColumn(twice, FechaCol) == GetColumn(once, FechaCol);
    assert GetColumn(twice, TipoCol) == GetColumn(once, TipoCol);
    assert GetColumn(twice, NombreCol) == GetColumn(once, NombreCol);
    assert GetColumn(twice, DosisCol) == GetColumn(once, DosisCol);
    assert GetColumn(twice, ObservacionesCol) == GetColumn(once, ObservacionesCol);
  }

  /** `vs'` is `vs` with the listed columns of every row with the id set from the body, and nothing else changed. */
  predicate Edited(vs: seq<Vaccination>, vs': seq<Vaccination>, idParam: Val, cols: seq<VaccinationColumn>, body: Val) {
    && |vs'| == |vs|
    && forall i :: 0 <= i < |vs| ==>
         vs'[i] == (if IdIs(vs[i].id, idParam) then vs[i].(attrs := ApplyFields(vs[i].attrs, cols, body)) else vs[i])
  }

  /** `PUT /:id`: 400 when nothing is to be set; otherwise the listed columns of every row with the id are set. */
  function EditVaccination(db: Db, principal: Val, idParam: Val, body: Val): (r: (Db, Reply<()>))
    ensures !r.1.Done? ==> r.0 == db
    ensures IsNullish(body) || IsNullish(principal) ==> r.1 == Unanswered
    ensures !IsNullish(body) && !IsNullish(principal) ==>
      && (r.1 == Fail(404, VaccinationMissing) <==> EditGate(db, principal, idParam) == Halt(404))
      && (r.1 == Fail(403, EditForbidden) <==> EditGate(db, principal, idParam) == Halt(403))
      && (r.1 == Fail(400, NothingToUpdate) <==> EditGate(db, principal, idParam) == Proceed && PartialFields(body) == [])
      && (r.1.Done? <==> EditGate(db, principal, idParam) == Proceed && PartialFields(body) != [])
    ensures r.1.Done? ==>
      && r.1 == Done(200, ())
      && r.0 == db.(vaccinations := r.0.vaccinations)
      && Edited(db.vaccinations, r.0.vaccinations, idParam, PartialFields(body), body)
  {
    if IsNullish(body) || IsNullish(principal) then (db, Unanswered)
    else
      match EditGate(db, principal, idParam)
      case Halt(404) => (db, Fail(404, VaccinationMissing))
      case Halt(_) => (db, Fail(403, EditForbidden))
      case Crash => (db, Fail(403, EditForbidden))
      case Proceed =>
        var cols := PartialFields(body);
        if cols == [] then (db, Fail(400, NothingToUpdate))
        else
          var target := (v: Vaccination) => IdIs(v.id, idParam);
          var edit := (v: Vaccination) => v.(attrs := ApplyFields(v.attrs, cols, body));
          (db.(vaccinations := UpdateWhere(db.vaccinations, target, edit)), Done(200, ()))
  }

  /**
   * Sending the same `PUT /:id` twice: the edit keeps every id and parent
   * link, so the second request passes the same gate and writes what is
   * already stored.
   */
  lemma {:induction false} EditVaccinationTwice(db: Db, principal: Val, idParam: Val, body: Val)
    requires EditVaccination(db, principal, idParam, body).1.Done?
    ensures var db' := EditVaccination(db, principal, idParam, body).0;
      EditVaccination(db', principal, idParam, body) == (db', Done(200, ()))
  {
    var db' := EditVaccination(db, principal, idParam, body).0;
    EditVaccinationAgain(db, db', principal, idParam, body);
  }

  /** The second partial edit, on the store `db'` the first one produced from `db`. */
  lemma {:induction false} EditVaccinationAgain(db: Db, db': Db, principal: Val, idParam: Val, body: Val)
    requires !IsNullish(body) && !IsNullish(principal)
    requires EditGate(db, principal, idParam) == Proceed && PartialFields(body) != []
    requires db' == db.(vaccinations := db'.vaccinations)
    requires Edited(db.vaccinations, db'.vaccinations, idParam, PartialFields(body), body)
    ensures EditVaccination(db', principal, idParam, body) == (db', Done(200, ()))
  {
    assert EditVaccination(db', principal, idParam, body).1.Done? by {
      RewriteKeepsLinks(db.vaccinations, db'.vaccinations, idParam, PartialFields(body), body);
      EditGateSeesLinksOnly(db, db', principal, idParam);
    }
    EditedAgainWritesNothing(db, db', principal, idParam, body);
  }

  /** When the second partial edit is accepted, it rewrites the rows to what they already hold. */
  lemma {:induction false} EditedAgainWritesNothing(db: Db, db': Db, principal: Val, idParam: Val, body: Val)
    requires db' == db.(vaccinations := db'.vaccinations)
    requires Edited(db.vaccinations, db'.vaccinations, idParam, PartialFields(body), body)
    requires EditVaccination(db', principal, idParam, body).1.Done?
    ensures EditVaccination(db', principal, idParam, body).0 == db'
  {
    var again := EditVaccination(db', principal, idParam, body);
    RewriteTwice(db.vaccinations, db'.vaccinations, again.0.vaccinations, idParam, PartialFields(body), body);
  }

  /** The update gate reads only ids and parent links, so a store that keeps them gets the same answer. */
  lemma {:induction false} EditGateSeesLinksOnly(db: Db, db': Db, principal: Val, idParam: Val)
    requires db'.animals == db.animals && |db'.vaccinations| == |db.vaccinations|
    requires forall i :: 0 <= i < |db.vaccinations| ==>
      db'.vaccinations[i].id == db.vaccinations[i].id && db'.vaccinations[i].animalId == db.vaccinations[i].animalId
    ensures EditGate(db', principal, idParam) == EditGate(db, principal, idParam)
  {
    var p := (v: Vaccination) => JoinedWithId(db.animals, v, idParam);
    forall i | 0 <= i < |db.vaccinations| ensures p(db.vaccinations[i]) == p(db'.vaccinations[i]) {
    }
    FindFirstSamePattern(db.vaccinations, db'.vaccinations, p);
    var found := FindFirst(db.vaccinations, p);
    if found.None? {
      assert EditGate(db, principal, idParam) == Halt(404);
      assert EditGate(db', principal, idParam) == Halt(404);
    } else {
      var i := found.value;
      var owner := JoinedOwner(db.animals, db.vaccinations[i].animalId);
      assert JoinedOwner(db'.animals, db'.vaccinations[i].animalId) == owner;
      if MayTouch(principal, owner.value) {
        assert EditGate(db, principal, idParam) == Proceed;
        assert EditGate(db', principal, idParam) == Proceed;
      } else {
        assert EditGate(db, principal, idParam) == Halt(403);
        assert EditGate(db', principal, idParam) == Halt(403);
      }
    }
  }

  /** The rewrite changes column values only: every row keeps its id and its parent link. */
  lemma RewriteKeepsLinks(vs: seq<Vaccination>, vs': seq<Vaccination>, idParam: Val, cols: seq<VaccinationColumn>, body: Val)
    requires Edited(vs, vs', idParam, cols, body)
    ensures forall i :: 0 <= i < |vs| ==> vs'[i].id == vs[i].id && vs'[i].animalId == vs[i].animalId
  {
  }

  /** The partial rewrite applied to its own output changes nothing. */
  lemma RewriteTwice(vs: seq<Vaccination>, vs': seq<Vaccination>, vs'': seq<Vaccination>, idParam: Val,
                     cols: seq<VaccinationColumn>, body: Val)
    requires Edited(vs, vs', idParam, cols, body) && Edited(vs', vs'', idParam, cols, body)
    ensures vs'' == vs'
  {
    forall i | 0 <= i < |vs| ensures vs''[i] == vs'[i] {
      ApplyFieldsIdempotent(vs[i].attrs, cols, body);
    }
  }

  /** `PUT /chip/:id`: past the same checks, all five columns are written, absent ones as NULL. */
  function ReplaceVaccination(db: Db, principal: Val, idParam: Val, body: Val): (r: (Db, Reply<()>))
    ensures !r.1.Done? ==> r.0 == db
    ensures IsNullish(body) || IsNullish(principal) ==> r.1 == Unanswered
    ensures !IsNullish(body) && !IsNullish(principal) ==>
      && (r.1 == Fail(404, VaccinationMissing) <==> EditGate(db, principal, idParam) == Halt(404))
      && (r.1 == Fail(403, EditForbidden) <==> EditGate(db, principal, idParam) == Halt(403))
      && (r.1.Done? <==> EditGate(db, principal, idParam) == Proceed)
    ensures r.1.Done? ==>
      && r.0 == db.(vaccinations := r.0.vaccinations)
      && |r.0.vaccinations| == |db.vaccinations|
      && forall i :: 0 <= i < |db.vaccinations| ==>
           r.0.vaccinations[i] == (if IdIs(db.vaccinations[i].id, idParam)
                                   then db.vaccinations[i].(attrs := ApplyFields(db.vaccinations[i].attrs, VaccinationColumns, body))
                                   else db.vaccinations[i])
  {
    if IsNullish(body) || IsNullish(principal) then (db, Unanswered)
    else
      match EditGate(db, principal, idParam)
      case Halt(404) => (db, Fail(404, VaccinationMissing))
      case Halt(_) => (db, Fail(403, EditForbidden))
      case Crash => (db, Fail(403, EditForbidden))
      case Proceed =>
        var target := (v: Vaccination) => IdIs(v.id, idParam);
        var edit := (v: Vaccination) => v.(attrs := ApplyFields(v.attrs, VaccinationColumns, body));
        (db.(vaccinations := UpdateWhere(db.vaccinations, target, edit)), Done(200, ()))
  }

  /** The full update overwrites every column with the body's value, NULL where the body has none. */
  lemma {:induction false} ReplaceWritesAllColumns(a: VaccinationAttrs, body: Val)
    ensures ApplyFields(a, VaccinationColumns, body) == VaccinationAttrs(
      Bound(Member(body, "fecha_vacuna")), Bound(Member(body, "tipo_vacunas_id_tipo_vacuna")),
      Bound(Member(body, "nombre_vacunas_id_vacuna")), Bound(Member(body, "dosis_administrada")),
      Bound(Member(body, "observaciones")))
  {
    var cs := VaccinationColumns;
    assert cs[1..][1..][1..][1..][1..] == [];
  }
}

=== FILE: weighing_routes.dfy ===
/**
 * The weighing-history endpoints: `POST /add`, the purchase lookup
 * `GET /compra/:chip_animal`, the report `GET /historico-pesaje`, the two
 * updates `PUT /:id` and `PUT /chip/:chip_animal`, and
 * `DELETE /delete/:chip_animal`.
 *
 * `principal` is `req.usuario`; the handlers' own ownership test is
 * `Store.MayTouch`. `dateKey` orders the `fecha_pesaje` column as the
 * database sorts it.
 */
module WeighingRoutes {
  import opened Js
  import opened Store
  import opened Http
  import opened SyncPull

  const MissingAddFields := "Los campos chip_animal, fecha_pesaje y peso_kg son obligatorios"
  const ChipUnknown := "El chip_animal no está registrado"
  const AddForbidden := "No tienes permiso para registrar pesajes en este animal"
  const NoPurchase := "No se encontró un registro de compra para este animal"
  const AnimalMissing := "Animal no encontrado"
  const DeleteForbidden := "No tienes permiso para eliminar pesajes de este animal"
  const WeighingMissing := "Pesaje no encontrado"
  const NoHistory := "No se encontraron registros de pesaje"
  const MissingEditFields := "Los campos fecha_pesaje y peso_kg son obligatorios"
  const IdUnknown := "Pesaje no encontrado con el ID proporcionado"
  const EditForbidden := "No tienes permiso para modificar este pesaje"
  const ChipEditForbidden := "No tienes permiso para modificar pesajes de este animal"
  const ChipHasNoWeighing := "No se encontró un pesaje para este chip_animal"

  // ---------------------------------------------------------------------------
  // POST /add

  const Kinds: seq<Val> := [Str("compra"), Str("venta"), Str("seguimiento"), Str("nacimiento")]

  /** `tipo_seguimiento` outside the four known kinds becomes `'seguimiento'`. */
  function NormalizeKind(tipo: Val): (k: Val)
    ensures k in Kinds
    ensures tipo in Kinds ==> k == tipo
    ensures tipo !in Kinds ==> k == Str("seguimiento")
  {
    if tipo in Kinds then tipo else Str("seguimiento")
  }

  lemma NormalizeKindIdempotent(tipo: Val)
    ensures NormalizeKind(NormalizeKind(tipo)) == NormalizeKind(tipo)
  {
  }

  /** The column values `/add` inserts besides the keys: falsy economic and gain fields become NULL. */
  function AddedAttrs(body: Val): (w: WeighingAttrs)
    requires !IsNullish(body)
    ensures w.tipoSeguimiento == NormalizeKind(Member(body, "tipo_seguimiento"))
    ensures w.costoCompra == OrNull(Member(body, "costo_compra")) && w.costoVenta == OrNull(Member(body, "costo_venta"))
    ensures w.gananciaPeso == OrNull(Member(body, "ganancia_peso"))
    ensures w.tiempoMeses == OrNull(Member(body, "tiempo_meses"))
    ensures w.fechaPesaje == Bound(Member(body, "fecha_pesaje")) && w.pesoKg == Bound(Member(body, "peso_kg"))
    ensures w.precioKgCompra == OrNull(Member(body, "precio_kg_compra"))
    ensures w.precioKgVenta == OrNull(Member(body, "precio_kg_venta"))
    ensures w.gananciaValor == OrNull(Member(body, "ganancia_valor"))
    ensures w.gananciaPesoParcial == OrNull(Member(body, "ganancia_peso_parcial"))
  {
    WeighingAttrs(
      fechaPesaje := Bound(Member(body, "fecha_pesaje")),
      pesoKg := Bound(Member(body, "peso_kg")),
      costoCompra := OrNull(Member(body, "costo_compra")),
      costoVenta := OrNull(Member(body, "costo_venta")),
      precioKgCompra := OrNull(Member(body, "precio_kg_compra")),
      precioKgVenta := OrNull(Member(body, "precio_kg_venta")),
      tipoSeguimiento := NormalizeKind(Member(body, "tipo_seguimiento")),
      gananciaPeso := OrNull(Member(body, "ganancia_peso")),
      gananciaValor := OrNull(Member(body, "ganancia_valor")),
      gananciaPesoParcial := OrNull(Member(body, "ganancia_peso_parcial")),
      tiempoMeses := OrNull(Member(body, "tiempo_meses")))
  }

  /** A zero amount is falsy, so `/add` stores it as NULL. */
  lemma ZeroCostStoredAsNull(body: Val)
    requires !IsNullish(body) && Member(body, "costo_compra") == Num(0)
    ensures AddedAttrs(body).costoCompra == Null
  {
  }

  /**
   * `POST /add`: the new weighing hangs off the first animal with the chip;
   * the reply value is the new id.
   */
  function AddWeighing(db: Db, principal: Val, body: Val, now: int): (r: (Db, Reply<nat>))
    ensures !r.1.Done? ==> r.0 == db
    ensures IsNullish(body) || IsNullish(principal) ==> r.1 == Unanswered
    ensures !IsNullish(body) && !IsNullish(principal) ==>
      var chip := Member(body, "chip_animal");
      var present := Truthy(chip) && Truthy(Member(body, "fecha_pesaje")) && Truthy(Member(body, "peso_kg"));
      && (r.1 == Fail(400, MissingAddFields) <==> !present)
      && (r.1 == Fail(404, ChipUnknown) <==> present && AnimalByChip(db.animals, chip).None?)
      && (r.1 == Fail(403, AddForbidden) <==>
            present && AnimalByChip(db.animals, chip).Some?
            && !MayTouch(principal, AnimalByChip(db.animals, chip).value.owner))
      && (r.1.Done? <==>
            present && AnimalByChip(db.animals, chip).Some?
            && MayTouch(principal, AnimalByChip(db.animals, chip).value.owner))
    ensures r.1.Done? ==>
      var a := AnimalByChip(db.animals, Member(body, "chip_animal")).value;
      && r.1 == Done(201, db.nextWeighingId)
      && r.0 == db.(weighings := db.weighings + [Weighing(db.nextWeighingId, Num(a.id), Bound(Member(body, "chip_animal")),
                                                          now, now, AddedAttrs(body))],
                    nextWeighingId := db.nextWeighingId + 1)
  {
    if IsNullish(body) || IsNullish(principal) then (db, Unanswered)
    else
      var chip := Member(body, "chip_animal");
      if !Truthy(chip) || !Truthy(Member(body, "fecha_pesaje")) || !Truthy(Member(body, "peso_kg")) then
        (db, Fail(400, MissingAddFields))
      else
        match AnimalByChip(db.animals, chip)
        case None => (db, Fail(404, ChipUnknown))
        case Some(a) =>
          if !MayTouch(principal, a.owner) then (db, Fail(403, AddForbidden))
          else
            var row := Weighing(db.nextWeighingId, Num(a.id), Bound(chip), now, now, AddedAttrs(body));
            (db.(weighings := db.weighings + [row], nextWeighingId := db.nextWeighingId + 1), Done(201, db.nextWeighingId))
  }

  // ---------------------------------------------------------------------------
  // GET /compra/:chip_animal

  /** Index of a row with the largest key; the first such row on ties. */
  function LatestBy<T>(s: seq<T>, key: T -> int): (i: nat)
    requires |s| > 0
    ensures i < |s|
    ensures forall j :: 0 <= j < |s| ==> key(s[j]) <= key(s[i])
  {
    if |s| == 1 then 0
    else
      var k := LatestBy(s[1..], key) + 1;
      if key(s[0]) >= key(s[k]) then 0 else k
  }

  /** Index of a row with the smallest key; the first such row on ties. */
  function EarliestBy<T>(s: seq<T>, key: T -> int): (i: nat)
    requires |s| > 0
    ensures i < |s|
    ensures forall j :: 0 <= j < |s| ==> key(s[i]) <= key(s[j])
  {
    if |s| == 1 then 0
    else
      var k := EarliestBy(s[1..], key) + 1;
      if key(s[0]) <= key(s[k]) then 0 else k
  }

  /** The join with `registro_animal` on the chip, restricted to the caller's animals for non-admins. */
  predicate VisibleThroughChip(animals: seq<Animal>, w: Weighing, principal: Val) {
    exists i :: 0 <= i < |animals| && SqlEq(w.chip, animals[i].chip)
      && (IsAdmin(principal) || SqlEq(animals[i].owner, Member(principal, "id")))
  }

  predicate PurchaseRow(db: Db, w: Weighing, chip: Val, principal: Val) {
    SqlEq(w.chip, chip) && SqlEq(w.attrs.tipoSeguimiento, Str("compra")) && VisibleThroughChip(db.animals, w, principal)
  }

  predicate CostedRow(db: Db, w: Weighing, chip: Val, principal: Val) {
    SqlEq(w.chip, chip) && !IsNullish(w.attrs.costoCompra) && VisibleThroughChip(db.animals, w, principal)
  }

  /**
   * `GET /compra/:chip_animal`: the latest row marked `'compra'`; failing
   * that, the earliest row with a purchase cost; failing that, 404. The
   * role and id are read before the `try`, so a missing `req.usuario`
   * leaves the request unanswered.
   */
  function PurchaseRecord(db: Db, principal: Val, chip: Val, dateKey: Val -> int): (r: Reply<Weighing>)
    ensures r == Unanswered <==> IsNullish(principal)
    ensures var purchases := Filter(db.weighings, (w: Weighing) => PurchaseRow(db, w, chip, principal));
      var costed := Filter(db.weighings, (w: Weighing) => CostedRow(db, w, chip, principal));
      && (r == Fail(404, NoPurchase) <==> !IsNullish(principal) && |purchases| == 0 && |costed| == 0)
      && (r.Done? <==> !IsNullish(principal) && (|purchases| > 0 || |costed| > 0))
      && (r.Done? ==> r.status == 200)
      && (r.Done? && |purchases| > 0 ==>
            && r.value in purchases
            && forall j :: 0 <= j < |purchases| ==> dateKey(purchases[j].attrs.fechaPesaje) <= dateKey(r.value.attrs.fechaPesaje))
      && (r.Done? && |purchases| == 0 ==>
            && r.value in costed
            && forall j :: 0 <= j < |costed| ==> dateKey(r.value.attrs.fechaPesaje) <= dateKey(costed[j].attrs.fechaPesaje))
  {
    var purchases := Filter(db.weighings, (w: Weighing) => PurchaseRow(db, w, chip, principal));
    var costed := Filter(db.weighings, (w: Weighing) => CostedRow(db, w, chip, principal));
    var key := (w: Weighing) => dateKey(w.attrs.fechaPesaje);
    if IsNullish(principal) then Unanswered
    else if |purchases| > 0 then Done(200, purchases[LatestBy(purchases, key)])
    else if |costed| > 0 then Done(200, costed[EarliestBy(costed, key)])
    else Fail(404, NoPurchase)
  }

  /** The record found is a purchase row of the chip when one exists, and a row with a purchase cost otherwise. */
  lemma PurchaseRecordQualifies(db: Db, principal: Val, chip: Val, dateKey: Val -> int)
    requires PurchaseRecord(db, principal, chip, dateKey).Done?
    ensures var w := PurchaseRecord(db, principal, chip, dateKey).value;
      && w in db.weighings && SqlEq(w.chip, chip)
      && (PurchaseRow(db, w, chip, principal) || CostedRow(db, w, chip, principal))
      && (!PurchaseRow(db, w, chip, principal) ==>
            forall v :: v in db.weighings ==> !PurchaseRow(db, v, chip, principal))
  {
  }

  /** A non-admin never sees a purchase record of an animal that is not theirs. */
  lemma PurchaseRecordIsOwnerScoped(db: Db, principal: Val, chip: Val, dateKey: Val -> int)
    requires !IsAdmin(principal) && PurchaseRecord(db, principal, chip, dateKey).Done?
    ensures exists i ::
      (0 <= i < |db.animals| && SqlEq(PurchaseRecord(db, principal, chip, dateKey).value.chip, db.animals[i].chip)
       && SqlEq(db.animals[i].owner, Member(principal, "id")))
  {
  }

  // ---------------------------------------------------------------------------
  // GET /historico-pesaje

  /** The kind the report shows: `'nacimiento'` when kind and both costs are NULL, the stored kind otherwise. */
  function ReportedKind(w: WeighingAttrs): (k: Val)
    ensures IsNullish(w.tipoSeguimiento) && IsNullish(w.costoCompra) && IsNullish(w.costoVenta) ==> k == Str("nacimiento")
    ensures !(IsNullish(w.tipoSeguimiento) && IsNullish(w.costoCompra) && IsNullish(w.costoVenta)) ==> k == w.tipoSeguimiento
  {
    if IsNullish(w.tipoSeguimiento) && IsNullish(w.costoCompra) && IsNullish(w.costoVenta) then Str("nacimiento")
    else w.tipoSeguimiento
  }

  /** A report line: the row and the kind reported for it. */
  datatype Line = Line(row: Weighing, tipo: Val)

  /** The rows ordered by date, newest first. */
  function NewestFirst(rows: seq<Weighing>, dateKey: Val -> int): (r: seq<Weighing>)
    ensures |r| == |rows|
    ensures forall w :: w in r <==> w in rows
    ensures forall j, k :: 0 <= j < k < |r| ==> dateKey(r[k].attrs.fechaPesaje) <= dateKey(r[j].attrs.fechaPesaje)
  {
    var key := (w: Weighing) => -dateKey(w.attrs.fechaPesaje);
    var sorted := SortByKey(rows, key);
    assert |sorted| == |rows| by {
      assert |multiset(sorted)| == |multiset(rows)|;
    }
    assert forall w :: w in sorted <==> w in rows by {
      forall w ensures w in sorted <==> w in rows { SortKeepsMembers(rows, key, w); }
    }
    sorted
  }

  /** One report line per row, in order, each with its reported kind. */
  function Report(rows: seq<Weighing>): (lines: seq<Line>)
    ensures |lines| == |rows|
    ensures forall k :: 0 <= k < |rows| ==> lines[k].row == rows[k] && lines[k].tipo == ReportedKind(rows[k].attrs)
    ensures forall w :: (exists k :: 0 <= k < |lines| && lines[k].row == w) <==> w in rows
  {
    var lines := seq(|rows|, k requires 0 <= k < |rows| => Line(rows[k], ReportedKind(rows[k].attrs)));
    assert forall w :: w in rows ==> exists k :: 0 <= k < |lines| && lines[k].row == w by {
      forall w | w in rows ensures exists k :: 0 <= k < |lines| && lines[k].row == w {
        var k :| 0 <= k < |rows| && rows[k] == w;
        assert lines[k].row == w;
      }
    }
    lines
  }

  /**
   * `GET /historico-pesaje`: every weighing for an admin, the ones joined
   * to the caller's animals otherwise, newest first; 404 when empty; no
   * reply without `req.usuario`, which is read before the `try`.
   */
  function HistoricoPesaje(db: Db, principal: Val, dateKey: Val -> int): (r: Reply<seq<Line>>)
    ensures r == Unanswered <==> IsNullish(principal)
    ensures var visible := Filter(db.weighings, (w: Weighing) => IsAdmin(principal) || VisibleThroughChip(db.animals, w, principal));
      && (r == Fail(404, NoHistory) <==> !IsNullish(principal) && |visible| == 0)
      && (r.Done? <==> !IsNullish(principal) && |visible| > 0)
      && (r.Done? ==>
            && r.status == 200 && |r.value| == |visible|
            && (forall w :: (exists k :: 0 <= k < |r.value| && r.value[k].row == w) <==> w in visible)
            && (forall k :: 0 <= k < |r.value| ==> r.value[k].tipo == ReportedKind(r.value[k].row.attrs))
            && forall j, k :: 0 <= j < k < |r.value| ==>
                 dateKey(r.value[k].row.attrs.fechaPesaje) <= dateKey(r.value[j].row.attrs.fechaPesaje))
  {
    var visible := Filter(db.weighings, (w: Weighing) => IsAdmin(principal) || VisibleThroughChip(db.animals, w, principal));
    if IsNullish(principal) then Unanswered
    else if |visible| == 0 then Fail(404, NoHistory)
    else Done(200, Report(NewestFirst(visible, dateKey)))
  }

  /**
   * Rows written by `/add` always carry a kind, so the report shows their
   * stored kind; only rows written elsewhere with no kind and no costs are
   * reported as births.
   */
  lemma AddedWeighingReportsStoredKind(body: Val)
    requires !IsNullish(body)
    ensures ReportedKind(AddedAttrs(body)) == AddedAttrs(body).tipoSeguimiento
    ensures ReportedKind(AddedAttrs(body)) in Kinds
  {
  }

  // ---------------------------------------------------------------------------
  // PUT /:id and PUT /chip/:chip_animal

  /** The `SET` list both updates apply: kind as given (not normalised) and every falsy optional as NULL. */
  function EditedAttrs(prev: WeighingAttrs, body: Val): (w: WeighingAttrs)
    requires !IsNullish(body)
    ensures w.fechaPesaje == Bound(Member(body, "fecha_pesaje")) && w.pesoKg == Bound(Member(body, "peso_kg"))
    ensures w.tipoSeguimiento == OrNull(Member(body, "tipo_seguimiento"))
    ensures w.costoCompra == OrNull(Member(body, "costo_compra")) && w.costoVenta == OrNull(Member(body, "costo_venta"))
    ensures w.gananciaPesoParcial == prev.gananciaPesoParcial
  {
    prev.(
      fechaPesaje := Bound(Member(body, "fecha_pesaje")),
      pesoKg := Bound(Member(body, "peso_kg")),
      costoCompra := OrNull(Member(body, "costo_compra")),
      costoVenta := OrNull(Member(body, "costo_venta")),
      precioKgCompra := OrNull(Member(body, "precio_kg_compra")),
      precioKgVenta := OrNull(Member(body, "precio_kg_venta")),
      tipoSeguimiento := OrNull(Member(body, "tipo_seguimiento")),
      gananciaPeso := OrNull(Member(body, "ganancia_peso")),
      gananciaValor := OrNull(Member(body, "ganancia_valor")),
      tiempoMeses := OrNull(Member(body, "tiempo_meses")))
  }

  /** Unlike `/add`, the updates store an unknown kind as sent. */
  lemma EditKeepsUnknownKind(prev: WeighingAttrs, body: Val)
    requires !IsNullish(body) && Member(body, "tipo_seguimiento") == Str("regalo")
    ensures EditedAttrs(prev, body).tipoSeguimiento == Str("regalo")
    ensures AddedAttrs(body).tipoSeguimiento == Str("seguimiento")
  {
  }

  /** The owner the `PUT /:id` join reports for weighing `w`: that of the first animal with its chip. */
  function JoinedOwner(animals: seq<Animal>, w: Weighing): Option<Val> {
    var a := AnimalByChip(animals, w.chip);
    if a.None? then None else Some(a.value.owner)
  }

  predicate JoinedWithId(animals: seq<Animal>, w: Weighing, id: Val) {
    IdIs(w.id, id) && JoinedOwner(animals, w).Some?
  }

  /** `ws'` is `ws` with the edit's `SET` list applied to every row `target` selects, and nothing else changed. */
  predicate EditedWhere(ws: seq<Weighing>, ws': seq<Weighing>, target: Weighing -> bool, body: Val)
    requires !IsNullish(body)
  {
    && |ws'| == |ws|
    && forall i :: 0 <= i < |ws| ==>
         ws'[i] == (if target(ws[i]) then ws[i].(attrs := EditedAttrs(ws[i].attrs, body)) else ws[i])
  }

  /**
   * `PUT /:id`: the weighing is looked up through the join on the chip
   * (so one whose chip names no animal is "not found"), then every row with
   * that id is rewritten.
   */
  function EditWeighing(db: Db, principal: Val, idParam: Val, body: Val): (r: (Db, Reply<()>))
    ensures !r.1.Done? ==> r.0 == db
    ensures IsNullish(body) || IsNullish(principal) ==> r.1 == Unanswered
    ensures !IsNullish(body) && !IsNullish(principal) ==>
      var present := Truthy(Member(body, "fecha_pesaje")) && Truthy(Member(body, "peso_kg"));
      var found := FindFirst(db.weighings, (w: Weighing) => JoinedWithId(db.animals, w, idParam));
      && (r.1 == Fail(400, MissingEditFields) <==> !present)
      && (r.1 == Fail(404, IdUnknown) <==> present && found.None?)
      && (r.1 == Fail(403, EditForbidden) <==>
            present && found.Some? && !MayTouch(principal, JoinedOwner(db.animals, db.weighings[found.value]).value))
      && (r.1.Done? <==>
            present && found.Some? && MayTouch(principal, JoinedOwner(db.animals, db.weighings[found.value]).value))
    ensures r.1.Done? ==>
      && r.1 == Done(200, ())
      && r.0 == db.(weighings := r.0.weighings)
      && EditedWhere(db.weighings, r.0.weighings, (w: Weighing) => IdIs(w.id, idParam), body)
  {
    if IsNullish(body) || IsNullish(principal) then (db, Unanswered)
    else if !Truthy(Member(body, "fecha_pesaje")) || !Truthy(Member(body, "peso_kg")) then (db, Fail(400, MissingEditFields))
    else
      match FindFirst(db.weighings, (w: Weighing) => JoinedWithId(db.animals, w, idParam))
      case None => (db, Fail(404, IdUnknown))
      case Some(i) =>
        if !MayTouch(principal, JoinedOwner(db.animals, db.weighings[i]).value) then (db, Fail(403, EditForbidden))
        else
          var target := (w: Weighing) => IdIs(w.id, idParam);
          var edit := (w: Weighing) => w.(attrs := EditedAttrs(w.attrs, body));
          (db.(weighings := UpdateWhere(db.weighings, target, edit)), Done(200, ()))
  }

  /**
   * `PUT /chip/:chip_animal`: after the animal's 404/403 checks and a 404
   * when it has no weighing, every weighing with the chip is rewritten.
   */
  function EditWeighingsByChip(db: Db, principal: Val, chip: Val, body: Val): (r: (Db, Reply<()>))
    ensures !r.1.Done? ==> r.0 == db
    ensures IsNullish(body) || IsNullish(principal) ==> r.1 == Unanswered
    ensures !IsNullish(body) && !IsNullish(principal) ==>
      var present := Truthy(Member(body, "fecha_pesaje")) && Truthy(Member(body, "peso_kg"));
      var animal := AnimalByChip(db.animals, chip);
      && (r.1 == Fail(400, MissingEditFields) <==> !present)
      && (r.1 == Fail(404, AnimalMissing) <==> present && animal.None?)
      && (r.1 == Fail(403, ChipEditForbidden) <==> present && animal.Some? && !MayTouch(principal, animal.value.owner))
      && (r.1 == Fail(404, ChipHasNoWeighing) <==>
            present && animal.Some? && MayTouch(principal, animal.value.owner)
            && Count(db.weighings, (w: Weighing) => SqlEq(w.chip, chip)) == 0)
      && (r.1.Done? <==>
            present && animal.Some? && MayTouch(principal, animal.value.owner)
            && Count(db.weighings, (w: Weighing) => SqlEq(w.chip, chip)) > 0)
    ensures r.1.Done? ==>
      && r.1 == Done(200, ())
      && r.0 == db.(weighings := r.0.weighings)
      && EditedWhere(db.weighings, r.0.weighings, (w: Weighing) => SqlEq(w.chip, chip), body)
  {
    if IsNullish(body) || IsNullish(principal) then (db, Unanswered)
    else if !Truthy(Member(body, "fecha_pesaje")) || !Truthy(Member(body, "peso_kg")) then (db, Fail(400, MissingEditFields))
    else
      match AnimalByChip(db.animals, chip)
      case None => (db, Fail(404, AnimalMissing))
      case Some(a) =>
        if !MayTouch(principal, a.owner) then (db, Fail(403, ChipEditForbidden))
        else
          var target := (w: Weighing) => SqlEq(w.chip, chip);
          if Count(db.weighings, target) == 0 then (db, Fail(404, ChipHasNoWeighing))
          else
            var edit := (w: Weighing) => w.(attrs := EditedAttrs(w.attrs, body));
            (db.(weighings := UpdateWhere(db.weighings, target, edit)), Done(200, ()))
  }

  /**
   * Sending the same `PUT /:id` twice: the second request passes the same
   * checks, because an edit keeps every id and chip, and writes what is
   * already stored.
   */
  lemma {:induction false} EditWeighingTwice(db: Db, principal: Val, idParam: Val, body: Val)
    requires EditWeighing(db, principal, idParam, body).1.Done?
    ensures var db' := EditWeighing(db, principal, idParam, body).0;
      EditWeighing(db', principal, idParam, body) == (db', Done(200, ()))
  {
    var db' := EditWeighing(db, principal, idParam, body).0;
    ByIdGateAgain(db, db', principal, idParam, body);
    ByIdWritesNothing(db, db', principal, idParam, body);
  }

  /** When the second edit by id is accepted, it rewrites the rows to what they already hold. */
  lemma {:induction false} ByIdWritesNothing(db: Db, db': Db, principal: Val, idParam: Val, body: Val)
    requires !IsNullish(body)
    requires EditedWhere(db.weighings, db'.weighings, (w: Weighing) => IdIs(w.id, idParam), body)
    requires EditWeighing(db', principal, idParam, body).1.Done?
    ensures EditWeighing(db', principal, idParam, body).0 == db'
  {
    var target := (w: Weighing) => IdIs(w.id, idParam);
    var again := EditWeighing(db', principal, idParam, body).0;
    forall i | 0 <= i < |db.weighings| ensures target(db'.weighings[i]) == target(db.weighings[i]) {
    }
    RewriteTwice(db.weighings, db'.weighings, again.weighings, target, body);
  }

  /** An edit by id keeps every id and chip, so the lookup of the second edit finds the same row and owner. */
  lemma {:induction false} ByIdGateAgain(db: Db, db': Db, principal: Val, idParam: Val, body: Val)
    requires EditWeighing(db, principal, idParam, body).1.Done?
    requires db' == EditWeighing(db, principal, idParam, body).0
    ensures EditWeighing(db', principal, idParam, body).1.Done?
  {
    var p := (w: Weighing) => JoinedWithId(db.animals, w, idParam);
    assert forall i :: 0 <= i < |db.weighings| ==>
      db'.weighings[i].id == db.weighings[i].id && db'.weighings[i].chip == db.weighings[i].chip;
    assert forall i :: 0 <= i < |db.weighings| ==> p(db'.weighings[i]) == p(db.weighings[i]);
    FindFirstSamePattern(db.weighings, db'.weighings, p);
  }

  /** Applying the edit's `SET` list to an edited row changes nothing. */
  lemma EditedAttrsIdempotent(prev: WeighingAttrs, body: Val)
    requires !IsNullish(body)
    ensures EditedAttrs(EditedAttrs(prev, body), body) == EditedAttrs(prev, body)
  {
  }

  /** Sending the same `PUT /chip/:chip_animal` twice: the second request is accepted and writes nothing new. */
  lemma {:induction false} EditWeighingsByChipTwice(db: Db, principal: Val, chip: Val, body: Val)
    requires EditWeighingsByChip(db, principal, chip, body).1.Done?
    ensures var db' := EditWeighingsByChip(db, principal, chip, body).0;
      EditWeighingsByChip(db', principal, chip, body) == (db', Done(200, ()))
  {
    var db' := EditWeighingsByChip(db, principal, chip, body).0;
    ByChipAgain(db, db', principal, chip, body);
  }

  /** The second by-chip edit, on the store `db'` the first one produced from `db`. */
  lemma {:induction false} ByChipAgain(db: Db, db': Db, principal: Val, chip: Val, body: Val)
    requires !IsNullish(body) && !IsNullish(principal)
    requires Truthy(Member(body, "fecha_pesaje")) && Truthy(Member(body, "peso_kg"))
    requires AnimalByChip(db.animals, chip).Some? && MayTouch(principal, AnimalByChip(db.animals, chip).value.owner)
    requires Count(db.weighings, (w: Weighing) => SqlEq(w.chip, chip)) > 0
    requires db' == db.(weighings := db'.weighings)
    requires EditedWhere(db.weighings, db'.weighings, (w: Weighing) => SqlEq(w.chip, chip), body)
    ensures EditWeighingsByChip(db', principal, chip, body) == (db', Done(200, ()))
  {
    var target := (w: Weighing) => SqlEq(w.chip, chip);
    var k :| 0 <= k < |db.weighings| && target(db.weighings[k]);
    assert target(db'.weighings[k]);
    var again := EditWeighingsByChip(db', principal, chip, body);
    assert again.1.Done?;
    forall i | 0 <= i < |db.weighings| ensures target(db'.weighings[i]) == target(db.weighings[i]) {
    }
    RewriteTwice(db.weighings, db'.weighings, again.0.weighings, target, body);
  }

  /** An edit that keeps the rows `target` selects, applied to its own output, changes nothing. */
  lemma RewriteTwice(ws: seq<Weighing>, ws': seq<Weighing>, ws'': seq<Weighing>, target: Weighing -> bool, body: Val)
    requires !IsNullish(body)
    requires EditedWhere(ws, ws', target, body) && EditedWhere(ws', ws'', target, body)
    requires forall i :: 0 <= i < |ws| ==> target(ws'[i]) == target(ws[i])
    ensures ws'' == ws'
  {
    forall i | 0 <= i < |ws| ensures ws''[i] == ws'[i] {
      EditedAttrsIdempotent(ws[i].attrs, body);
    }
  }

  // ---------------------------------------------------------------------------
  // DELETE /delete/:chip_animal

  /** `DELETE /delete/:chip_animal`: removes every weighing carrying the chip. */
  function DeleteWeighingsByChip(db: Db, principal: Val, chip: Val): (r: (Db, Reply<()>))
    ensures !r.1.Done? ==> r.0 == db
    ensures IsNullish(principal) ==> r.1 == Unanswered
    ensures !IsNullish(principal) ==>
      var animal := AnimalByChip(db.animals, chip);
      var hits := Count(db.weighings, (w: Weighing) => SqlEq(w.chip, chip));
      && (r.1 == Fail(404, AnimalMissing) <==> animal.None?)
      && (r.1 == Fail(403, DeleteForbidden) <==> animal.Some? && !MayTouch(principal, animal.value.owner))
      && (r.1 == Fail(404, WeighingMissing) <==> animal.Some? && MayTouch(principal, animal.value.owner) && hits == 0)
      && (r.1.Done? <==> animal.Some? && MayTouch(principal, animal.value.owner) && hits > 0)
    ensures r.1.Done? ==>
      && r.1.status == 200
      && r.0 == db.(weighings := r.0.weighings)
      && (forall w :: w in r.0.weighings <==> w in db.weighings && !SqlEq(w.chip, chip))
      && |r.0.weighings| + Count(db.weighings, (w: Weighing) => SqlEq(w.chip, chip)) == |db.weighings|
  {
    if IsNullish(principal) then (db, Unanswered)
    else
      match AnimalByChip(db.animals, chip)
      case None => (db, Fail(404, AnimalMissing))
      case Some(a) =>
        if !MayTouch(principal, a.owner) then (db, Fail(403, DeleteForbidden))
        else
          var target := (w: Weighing) => SqlEq(w.chip, chip);
          if Count(db.weighings, target) == 0 then (db, Fail(404, WeighingMissing))
          else (db.(weighings := DeleteWhere(db.weighings, target)), Done(200, ()))
  }

  /** Deleting twice: the second request finds no weighing and answers 404 without writing. */
  lemma DeleteByChipThenAgain(db: Db, principal: Val, chip: Val)
    requires !IsNullish(principal)
    requires DeleteWeighingsByChip(db, principal, chip).1.Done?
    ensures var db' := DeleteWeighingsByChip(db, principal, chip).0;
      DeleteWeighingsByChip(db', principal, chip) == (db', Fail(404, WeighingMissing))
  {
    var db' := DeleteWeighingsByChip(db, principal, chip).0;
    assert db'.animals == db.animals;
    var target := (w: Weighing) => SqlEq(w.chip, chip);
    assert forall i :: 0 <= i < |db'.weighings| ==> !target(db'.weighings[i]) by {
      forall i | 0 <= i < |db'.weighings| ensures !target(db'.weighings[i]) {
        assert db'.weighings[i] in db'.weighings;
      }
    }
  }
}
